=== FILE: README.md ===
# ProctorX core, modelled in Dafny

ProctorX is a proctored coding-assessment platform. Recruiters create tests and publish them under an eight-character access code. Students start a test, save answers and report proctoring violations, then submit. The server grades the submission and keeps running analytics per test.

This project models the core of that system as pure Dafny functions over immutable data:

- the Express/Mongoose server: the `User`, `Test` and `Submission` documents with their validation, setters and hooks; the auth, test and submission controllers; the `protect`/`authorize`/`optionalAuth`/`rateLimit` middleware; the two route tables; and the 404 and error handlers of `index.js`;
- the Python services: code compilation, the typing-behaviour log, sign-up/login and the question bank;
- the client: the zustand stores, the sign-up and login form checks, the password-strength meter and the recruiter dashboard's search and score colouring.

Each collection is a sequence indexed by document id, and a query that Mongo answers with `findOne` returns the first match in that order. Every controller returns a `Result`: either a value, or an HTTP status with the message the source sends. Where a handler writes before answering, it also returns the new database. Time, random draws, token verification and the external compiler are parameters. Password hashing is symbolic: a digest records what it was made from, so a candidate matches a stored digest exactly when it equals the hashed text.

Modules, one per file: `Common` (results, rounding, folds, paging), `Text` (white space, trimming, lower-casing, the e-mail patterns), `Users`, `Tests`, `Submissions`, `Database`, `AuthController`, `Auth` (middleware), `TestController`, `SubmissionController`, `Routes`, `ErrorHandler`, `CompilerService`, `BehaviorService`, `LoginService`, `QuestionService`, `ClientStore`, `Forms`, `Dashboard`.

## Model

| member | source | states |
|---|---|---|
| Common.RoundDiv | frontend/server/models/Submission.js:305 | `Math.round` of an exact quotient: the result is within half of `n/d`, and ties round up |
| Common.RoundDivUnique | frontend/server/models/Submission.js:305 | exactly one integer satisfies the rounding inequalities, so `RoundDiv` is the rounding and not merely a rounding |
| Common.RoundDivBetween | frontend/server/controllers/testController.js:357-359 | a rounded mean of values in [lo, hi] stays in [lo, hi] |
| Common.PercentInRange | frontend/server/controllers/testController.js:361-366 | a rounded share of a whole, as a percentage, lies in [0, 100] |
| Common.CeilDiv | frontend/server/controllers/testController.js:37 | `Math.ceil(a / b)`: the least multiple count that covers `a` |
| Common.PageOf | frontend/server/controllers/testController.js:24-27 | `skip((page-1)*limit).limit(limit)`: at most `limit` items, the block starting at `(page-1)*limit`, empty past the end |
| Common.PageCount | frontend/server/controllers/testController.js:37 | the reported page count is the least `n` with `n*limit >= total` |
| Common.PagesCoverAll | frontend/server/controllers/testController.js:24-37 | reading pages 1 to the reported page count yields every item once, in order |
| Common.FindFirst | frontend/server/controllers/authController.js:51 | `findOne`: the first document that matches, or none when no document matches |
| Common.FindFirstAppend | frontend/server/controllers/authController.js:51 | appending a document changes a lookup only when nothing matched before |
| Common.FilterIsSubsequence | frontend/src/app/recruiter/dashboard/page.tsx:186-190 | `Array.filter` keeps the order of what it keeps, and keeps everything when every element qualifies |
| Common.FilterCount | frontend/server/controllers/testController.js:351-355 | `filter(p).length` counts the elements satisfying `p`, and the filtered list holds exactly those |
| Text.Trim | frontend/server/models/User.js:16 | the `trim` setter and `String.prototype.trim`: white space, as the given classifier defines it, is removed from both ends; its properties are proved in TrimFacts and TrimIdempotent |
| Text.TrimFacts | frontend/server/models/User.js:16 | the `trim` setter: the result has no white space at either end, is a contiguous piece of the input, and leaves a trimmed string unchanged |
| Text.TrimIdempotent | frontend/server/models/User.js:16 | trimming twice is trimming once |
| Text.Lower | frontend/server/models/User.js:24 | `toLowerCase` maps each character to its lower-case form and keeps the length |
| Text.LowerIdempotent | frontend/server/models/User.js:24 | lower-casing twice is lower-casing once |
| Text.MatchesEmailPattern | frontend/src/app/signup-student/page.tsx:37 | `/\S+@\S+\.\S+/.test`: somewhere in the text a non-space character, an `@`, at least one more non-space character, a `.` and a non-space character follow each other |
| Text.MatchesAnchoredEmailPattern | frontend/server/models/User.js:26 | `/^\S+@\S+\.\S+$/`: the same shape spanning the whole text, so no white space anywhere; AnchoredImpliesUnanchored and UnanchoredAcceptsSpaces relate the two |
| Text.AnchoredImpliesUnanchored | frontend/server/models/User.js:26 | every address the schema's anchored `^\S+@\S+\.\S+$` accepts also passes the forms' unanchored `\S+@\S+\.\S+` |
| Text.UnanchoredAcceptsSpaces | frontend/src/app/signup-student/page.tsx:37 | the forms' unanchored pattern accepts an address with a space that the schema then refuses |
| Text.SecondField | frontend/server/middleware/auth.js:22 | `split(' ')[1]`: absent exactly when there is no space; otherwise a field without spaces |
| Text.SecondFieldOfPair | frontend/server/middleware/auth.js:22 | the second field of `word + " " + token` is `token` |
| Common.RoleNamed | frontend/server/models/User.js:37-41 | the role a text names: some role exactly when the text is that role's schema name |
| Common.OrDefault | frontend/server/controllers/authController.js:72 | JavaScript's logical-or default on text: the default exactly when the value is missing, empty or the default itself, and the value otherwise |
| Users.Compare | frontend/server/models/User.js:114-116 | `comparePassword`: a candidate matches exactly when the stored value is the digest of that candidate; SetPasswordThenCompare and DoubleHashBreaksCompare prove its use |
| Users.SchemaValid | frontend/server/models/User.js:12-52 | the user schema's checks: a name of 1 to 100 characters, an address matching the anchored pattern, a stored password of at least 8 characters, and company and job title present for a recruiter |
| Users.Rehash | frontend/server/models/User.js:104-111 | the pre-save hook digests a modified password once and leaves an unmodified document unchanged |
| Users.Save | frontend/server/models/User.js:11-52 | a save fails exactly when validation is on and the schema's constraints fail; otherwise the hook runs |
| Users.SaveIsStable | frontend/server/models/User.js:104-111 | saving a saved document again changes nothing, so a matching password keeps matching |
| Users.SetPasswordThenCompare | frontend/server/models/User.js:104-116 | after setting a plain password and saving, a candidate matches exactly when it equals that password |
| Users.DoubleHashBreaksCompare | frontend/server/models/User.js:106 | hashing an already digested password would lose it, which is what the modified-check prevents |
| Users.WithOptional | frontend/server/models/User.js:133-139 | an optional field appears in the object form exactly when it is set; other keys are untouched |
| Users.ProfileFields | frontend/server/models/User.js:11-96 | the object form's non-secret fields: only profile keys, and always name, e-mail and role |
| Users.SensitiveFields | frontend/server/models/User.js:29-34 | the password is always in the object form; a token is there whenever it is set |
| Users.ToObject | frontend/server/models/User.js:133-134 | `toObject()`: the profile fields together with the password and whichever tokens are set; ToJsonIsProfile shows the password is in it |
| Users.ToJson | frontend/server/models/User.js:133-139 | `toJSON` keeps every key of the object form except password and the two tokens, each with its value |
| Users.ToJsonIsProfile | frontend/server/models/User.js:133-139 | the object form carries the password, and the JSON form is exactly the profile fields, so no secret is ever sent |
| Users.FindByEmail | frontend/server/controllers/authController.js:106 | a lookup by address goes through the same lower-case and trim setters as the stored field |
| Users.NormalizeEmail | frontend/server/models/User.js:24-25 | the `lowercase` and then `trim` setters on an address; NormalizeEmailIdempotent shows that applying them again changes nothing |
| Users.NormalizeEmailIdempotent | frontend/server/models/User.js:24-25 | normalising an address twice is normalising it once |
| Tests.TrimTitle | frontend/server/models/Test.js:99 | the `trim` setter on a title, with JavaScript's white space |
| Tests.SchemaValid | frontend/server/models/Test.js:96-183 | the test schema's checks: title of 1 to 200 characters, description of 1 to 2000, duration in [5, 480], a company, and on every question a title, a description and test cases with input and expected output |
| Tests.NormalizeQuestions | frontend/server/models/Test.js:31-35 | every question keeps its place and has its title trimmed |
| Tests.Build | frontend/server/controllers/testController.js:144-157 | a created test is a draft with no code and no submissions, owned by the caller, with schema defaults for omitted fields; a missing proctoring object is `{}` and each switch it leaves out is on; a test missing a title, description or duration fails validation |
| Tests.CompleteProctoring | frontend/server/models/Test.js:151-158 | each switch the request supplies keeps its value and each one it leaves out is on |
| Tests.CompleteProctoringFacts | frontend/server/models/Test.js:151-158 | supplying all six switches stores exactly them, supplying none stores the defaults, and the defaults come out exactly when no switch is supplied as false |
| Tests.StatusNamed | frontend/server/models/Test.js:144-148 | raw text names a status exactly when it is one of "draft", "active", "completed", "archived" |
| Tests.TotalMaxScore | frontend/server/models/Test.js:221-223 | the `totalMaxScore` virtual: the questions' maximum scores added up; TotalMaxScoreBounds bounds it |
| Tests.TotalMaxScoreBounds | frontend/server/models/Test.js:221-223 | with non-negative question maxima the `totalMaxScore` virtual is non-negative and bounds each question's maximum |
| Tests.CodeAlphabetIsCodeChars | frontend/server/models/Test.js:239 | the code alphabet is exactly the 36 characters [A-Z0-9] |
| Tests.GenerateAccessCode | frontend/server/models/Test.js:238-246 | `generateAccessCode` returns an eight-character code over [A-Z0-9], stores it, and changes nothing else |
| Tests.EveryAccessCodeIsGenerated | frontend/server/models/Test.js:238-246 | every eight-character [A-Z0-9] code is produced by some sequence of draws |
| Tests.IsAccessCode | frontend/server/models/Test.js:238-246 | the shape of a generated code: exactly eight characters from [A-Z0-9] |
| Tests.GeneratedCodesAreAccessCodes | frontend/server/models/Test.js:238-246 | every code the draws produce has the access-code shape |
| Tests.IsAccessible | frontend/server/models/Test.js:249-257 | a test is accessible exactly when it is active and `now` lies within whichever schedule bounds are set |
| Tests.AccessibleWindowIsInterval | frontend/server/models/Test.js:249-257 | the accessible instants form one interval |
| Tests.OnlyActiveTestsAreAccessible | frontend/server/models/Test.js:252 | a test that is not active is never accessible |
| Tests.UpdateAnalytics | frontend/server/models/Test.js:260-265 | one more submission; the new mean times the new count equals the old product plus the score; nothing else changes |
| Tests.RunningMeanTracksSum | frontend/server/models/Test.js:260-265 | after any series of scores, mean times count equals the starting product plus the sum of the scores |
| Tests.FreshAverageIsMean | frontend/server/models/Test.js:260-265 | from a fresh test, the running average equals the arithmetic mean of the recorded scores |
| Submissions.LanguageNamed | frontend/server/models/Submission.js:24-28 | the answer language a text names: some language exactly when the text is its schema name |
| Submissions.ViolationTypeNamed | frontend/server/models/Submission.js:75-91 | the violation type a text names: some type exactly when the text is its schema name |
| Submissions.SeverityNamed | frontend/server/models/Submission.js:103-107 | the severity a text names: some severity exactly when the text is its schema name |
| Submissions.DecisionNamed | frontend/server/models/Submission.js:254-258 | the review decision a text names: some decision exactly when the text is its schema name |
| Submissions.MinutesBetween | frontend/server/models/Submission.js:313 | `Math.round(ms / 60000)`: the nearest whole minute |
| Submissions.MinutesBetweenFacts | frontend/server/models/Submission.js:313 | a whole number of minutes comes out exactly, and a later end never gives fewer minutes |
| Submissions.Recompute | frontend/server/models/Submission.js:298-326 | the pre-save hook: with answers, the total is the sum of scores, the percentage is the rounded share of the maximum (when positive), the count is the number of violations, the duration is set once submitted, and the overall similarity is the rounded mean of the positive similarities; with no answers nothing changes |
| Submissions.RecomputeIdempotent | frontend/server/models/Submission.js:298-326 | running the hook twice gives the same document as running it once |
| Submissions.PercentageInRange | frontend/server/models/Submission.js:304-306 | with scores in [0, max] and the stored maximum equal to their sum, the percentage is in [0, 100] |
| Submissions.Passed | frontend/server/models/Submission.js:292-295 | the `passed` virtual: a percentage of at least 60, whatever the test's own passing score; PassRateCountsPassed relates it to the analytics |
| Submissions.ScoreSumBounded | frontend/server/models/Submission.js:301 | the total score is between 0 and the sum of the maxima when each score is |
| Submissions.OverallSimilarityBetween | frontend/server/models/Submission.js:317-323 | the overall similarity lies within any bounds of the positive per-answer similarities |
| Submissions.AnswersFor | frontend/server/controllers/submissionController.js:80-84 | one blank answer per question, in question order |
| Submissions.AnswersForMaxSum | frontend/server/controllers/submissionController.js:79-84 | the blank answers' maxima add up to the test's `totalMaxScore` |
| Submissions.NewSubmission | frontend/server/controllers/submissionController.js:76-88 | a new submission is in progress, started now, with one blank answer per question and the test's total as its maximum |
| Submissions.NewSubmissionIsStable | frontend/server/models/Submission.js:298-326 | saving a new submission changes none of its fields |
| Submissions.HighSeverityCount | frontend/server/models/Submission.js:287-289 | the `highSeverityViolations` virtual, counted: the number of violations of high severity |
| Submissions.AddViolation | frontend/server/models/Submission.js:329-341 | appends the stamped violation, keeps the count in step, and flags once three are high-severity unless disqualified; nothing else changes |
| Submissions.FlagIsSticky | frontend/server/models/Submission.js:336-340 | further violations never lift a flag and never lower the high-severity count |
| Submissions.DisqualifiedIsFinal | frontend/server/models/Submission.js:338 | a disqualified submission stays disqualified whatever is reported |
| Submissions.FinishedSubmissionCanBeFlagged | frontend/server/models/Submission.js:338-340 | a completed or reviewed submission is flagged by a third high-severity violation |
| Submissions.Submit | frontend/server/models/Submission.js:344-351 | status is flagged exactly when five or more violations were counted, otherwise completed; submission time and duration are set; answers, violations and review are kept |
| Submissions.SubmitCanClearFlag | frontend/server/models/Submission.js:345 | a submission flagged for high-severity violations but with fewer than five in total is submitted as completed |
| Submissions.LogActivity | frontend/server/models/Submission.js:362-368 | appends one stamped activity and changes nothing else |
| Submissions.LogAllAppends | frontend/server/models/Submission.js:362-368 | logging a series appends exactly that series, in order, and changes nothing but the log |
| Database.TestByCode | frontend/server/controllers/testController.js:92 | the first stored test carrying the access code, or none when no test carries it |
| AuthController.NewUser | frontend/server/controllers/authController.js:66-75 | the role defaults to student, company and job title are kept only for recruiters, and the password is marked as modified plain text |
| AuthController.Register | frontend/server/controllers/authController.js:46-86 | a taken address is 400 and a recruiter without company and job title 400, each exactly then; the role is the body's text or "student", and text outside the schema's roles, or any other schema failure, is 500 "Error creating user"; registration succeeds exactly for a free address, a complete recruiter, a listed role and a valid document, and appends one hashed user with the requested role at the next id |
| AuthController.RequestedRole | frontend/server/controllers/authController.js:72 | the role stored: the body's text, or "student" when it is missing or empty, read against the schema's three roles |
| AuthController.RegisterKeepsInvariants | frontend/server/controllers/authController.js:46-86 | registration keeps addresses unique and every stored password hashed |
| AuthController.AnyoneCanRegisterAsAdmin | frontend/server/controllers/authController.js:72 | the role is taken from the body, so whoever can register as a student can register as admin |
| AuthController.Login | frontend/server/controllers/authController.js:93-136 | missing fields are 400; an unknown address and a wrong password are both 401 "Invalid email or password", a matching password on an inactive account 401 "Account has been deactivated"; success means the address exists, the password matches and the account is active, and only `lastLogin` changes |
| AuthController.LoginSucceedsIff | frontend/server/controllers/authController.js:93-136 | with unique addresses, login succeeds exactly when some active account has the normalised address and the password matches |
| AuthController.RegisterThenLogin | frontend/server/controllers/authController.js:46-136 | an account just registered logs in with its password and gets its new id |
| AuthController.LoginKeepsInvariants | frontend/server/controllers/authController.js:124-125 | recording the login time keeps addresses unique and passwords hashed |
| AuthController.UpdateProfile | frontend/server/controllers/authController.js:183-211 | only name (trimmed), phone and avatar change, each only when supplied; an invalid name is 500 and changes nothing; an unknown id answers with no user |
| AuthController.UpdateProfileKeepsInvariants | frontend/server/controllers/authController.js:183-211 | a profile update keeps the user valid, unique and hashed, and never changes role or address |
| AuthController.UpdatePassword | frontend/server/controllers/authController.js:218-250 | missing fields are 400 and a wrong current password 401, each exactly then; a user no longer stored is 500; the change succeeds exactly when both fields are given, the user exists, the current password matches and the result validates, and then stores the digest of the new password |
| AuthController.UpdatePasswordSwapsPassword | frontend/server/controllers/authController.js:231-239 | after the change the new password matches, a different old one no longer does, and other users are untouched |
| AuthController.UpdatePasswordKeepsInvariants | frontend/server/controllers/authController.js:218-250 | changing a password keeps addresses unique and passwords hashed |
| AuthController.ForgotPassword | frontend/server/controllers/authController.js:257-291 | an unknown address is 404 and changes nothing; otherwise that user gets the token and an expiry ten minutes ahead |
| AuthController.ForgotPasswordKeepsPassword | frontend/server/controllers/authController.js:272-274 | requesting a reset leaves the password as it was, and the token never appears in the JSON form |
| Auth.ExtractToken | frontend/server/middleware/auth.js:17-25 | a header starting with `Bearer` yields its second space-separated field; without one, a non-empty cookie is used |
| Auth.BearerHeaderShadowsCookie | frontend/server/middleware/auth.js:18-22 | `Bearer <token>` yields the token whatever the cookie says |
| Auth.BareBearerHidesCookie | frontend/server/middleware/auth.js:18-22 | a bare `Bearer` header yields no token even when a cookie is present |
| Auth.OtherSchemeFallsBackToCookie | frontend/server/middleware/auth.js:23-24 | a header with another scheme falls back to the cookie |
| Auth.Protect | frontend/server/middleware/auth.js:13-71 | "Not authorized to access this route" exactly for a missing, empty or unverifiable token, "User no longer exists" exactly for a verified id with no stored user, and "User account is deactivated" exactly for a stored inactive user, all 401; an admitted user exists, is active and is the one the token verifies to |
| Auth.ProtectAdmitsIff | frontend/server/middleware/auth.js:13-71 | `protect` admits a user exactly when a non-empty token verifies to that user and the account exists and is active |
| Auth.Authorize | frontend/server/middleware/auth.js:77-95 | admits exactly the listed roles; no user is 401, another role 403 with the role named in the message |
| Auth.OptionalAuth | frontend/server/middleware/auth.js:100-127 | attaches a user only when a non-empty token verifies to an existing account |
| Auth.OptionalAuthIsLaxer | frontend/server/middleware/auth.js:100-127 | whoever `protect` admits, `optionalAuth` attaches too; it also attaches deactivated accounts |
| Auth.RateLimit | frontend/server/middleware/auth.js:136-165 | a new or expired window restarts at 1; within a window a request passes exactly when the count is below the maximum and then counts; a refusal is 429 and changes nothing; other keys are untouched |
| Auth.Run | frontend/server/middleware/auth.js:136-165 | a series of requests from one key through `rateLimit`: the passes never exceed the requests; RunWithinWindow and AtMostMaxPerWindow count them exactly |
| Auth.RunWithinWindow | frontend/server/middleware/auth.js:146-163 | within one window, the number of requests let through is the remaining allowance, capped by the number of requests |
| Auth.AtMostMaxPerWindow | frontend/server/middleware/auth.js:136-165 | from a fresh key, at most `maxRequests` requests pass within one window |
| TestController.GetTests | frontend/server/controllers/testController.js:15-48 | every listed test is one of the caller's own with the requested status; at most `limit` of them, with the matching total and a page count covering it (pages in stored order, see Left out) |
| TestController.OwnedTests | frontend/server/controllers/testController.js:20-27 | the caller's tests of the requested status: exactly the stored tests that match, in stored order, as many as match |
| TestController.ListedTestsArePages | frontend/server/controllers/testController.js:24-27 | the items of pages 1 to n of `getTests` are the first n pages of the matching tests |
| TestController.GetTestsPagesCoverAll | frontend/server/controllers/testController.js:24-45 | reading pages 1 to the reported page count yields every matching test exactly once, in stored order |
| TestController.GetTest | frontend/server/controllers/testController.js:55-83 | any caller reads any existing test (404 otherwise), told whether they own it |
| TestController.GetTestByCode | frontend/server/controllers/testController.js:90-121 | with status and schedule loaded: an unknown code is 404, a test that is not accessible now 403, and otherwise the projected fields of the active test carrying the code |
| TestController.Load | frontend/server/controllers/testController.js:92-93 | the loaded document holds the projected fields of the stored test; status and schedule are set only when the projection names them |
| TestController.LoadedAccessibleIff | frontend/server/models/Test.js:249-256 | `isAccessible` on a document with status and schedule loaded agrees with the stored test's; without them it is always false |
| TestController.GetTestByCodeAsWritten | frontend/server/controllers/testController.js:90-107 | as written: an unknown code is 404, and any other answer depends only on a document loaded without status and schedule |
| TestController.KnownCodesAreRefused | frontend/server/controllers/testController.js:92-107 | as written every known code is refused with 403, even for a test the corrected lookup returns |
| TestController.CreateTest | frontend/server/controllers/testController.js:128-175 | an invalid body is 500 and creates nothing; otherwise a draft owned by the caller is appended; it gets the drawn code, or when that code is taken it stays without one and the answer is 500; success holds exactly for a valid body and a free code |
| TestController.CreateTestKeepsInvariants | frontend/server/controllers/testController.js:128-175 | creation keeps every stored test valid and access codes unique |
| TestController.CreateThenGet | frontend/server/controllers/testController.js:55-83 | the id `createTest` answers fetches the built test with its generated code, and only the creator is told they own it |
| TestController.EmptyTestCaseRefusedOnCreate | frontend/server/models/Test.js:11-19 | a body with a question whose test case has no input creates nothing and is 500 "Error creating test" |
| TestController.ApplyPatch | frontend/server/controllers/testController.js:210-220 | each whitelisted field the body carries replaces the stored one (the title trimmed, `null` clearing a schedule bound, the status text parsed against the enum); every field the body leaves out, and owner, company, code, attempts and analytics, keep their values |
| TestController.StatusParses | frontend/server/models/Test.js:144-148 | the status text an update body carries, if any, is one the status enum lists |
| TestController.ApplyPatchIdempotent | frontend/server/controllers/testController.js:215-219 | copying the same body twice gives the same test as once (questions aside) |
| TestController.UpdateTest | frontend/server/controllers/testController.js:182-236 | 404, then 403 for a non-owner, then 400 for new questions once there are submissions; status text outside the enum is 500; success is exactly the patched test when the status parses and the result validates, and 500 otherwise |
| TestController.EmptyTestCaseRefusedOnUpdate | frontend/server/models/Test.js:11-19 | an update whose questions hold a test case without input is 500 "Error updating test" |
| TestController.UpdateCanActivateEmptyTest | frontend/server/controllers/testController.js:210-220 | an owner can make a test with no questions active through an update, which publishing would refuse |
| TestController.UpdateTestKeepsInvariants | frontend/server/controllers/testController.js:182-236 | updates keep every stored test valid and access codes unique |
| TestController.DeleteTest | frontend/server/controllers/testController.js:243-278 | only the creator may delete; deleting archives the test, which stays stored, and nothing else changes |
| TestController.DeletedTestIsInaccessible | frontend/server/controllers/testController.js:263 | an archived test can no longer be taken |
| TestController.PublishTest | frontend/server/controllers/testController.js:285-322 | 404 or 400 for a test without questions; publishing succeeds exactly for a valid test with questions that has a code or draws a free one, and is 500 otherwise; it becomes active, keeps an existing code or receives a well-formed new one, and nothing else changes |
| TestController.PublishIgnoresCaller | frontend/server/controllers/testController.js:285-322 | the outcome of publishing does not depend on who publishes |
| TestController.PublishKeepsCode | frontend/server/controllers/testController.js:305-307 | publishing twice keeps the code given the first time |
| TestController.PublishKeepsInvariants | frontend/server/controllers/testController.js:285-322 | publishing keeps every stored test valid and access codes unique |
| TestController.GetTestAnalytics | frontend/server/controllers/testController.js:329-381 | counts the completed and flagged submissions; gives each score bucket's count, the running mean, the flagged count, the rounded mean duration, the rounded percentage reaching the passing score and the rounded percentage completed out of the recorded total, each rate 0 on an empty denominator |
| TestController.BucketsPartition | frontend/server/controllers/testController.js:350-356 | the five score buckets add up to the number of finished submissions |
| TestController.FlaggedAndCompletedSplit | frontend/server/controllers/testController.js:341-344 | every finished submission is either completed or flagged |
| TestController.PassRateInRange | frontend/server/controllers/testController.js:361-363 | the pass rate lies in [0, 100] |
| TestController.CompletionRateInRange | frontend/server/controllers/testController.js:364-366 | the completion rate lies in [0, 100] when the recorded count covers the completed submissions |
| TestController.PassRateCountsPassed | frontend/server/models/Submission.js:292-295 | with the default passing score the pass rate counts exactly the submissions whose `passed` virtual holds |
| TestController.AverageDurationBetween | frontend/server/controllers/testController.js:357-359 | the mean duration lies between the shortest and the longest |
| SubmissionController.LocateTest | frontend/server/controllers/submissionController.js:20-25 | a test id wins over an access code; with neither there is no test |
| SubmissionController.PriorAttempt | frontend/server/controllers/submissionController.js:43-47 | the first in-progress or completed submission of this student for this test, or none |
| SubmissionController.StartTest | frontend/server/controllers/submissionController.js:15-115 | 404 for no test, 403 when it is not accessible; for an accessible test, an in-progress prior attempt is resumed unchanged, a finished one at the limit is 403 "Maximum attempts reached for this test" (exactly then), and a new submission is created exactly when there is no prior attempt or a finished one below the limit |
| SubmissionController.FreshAttemptShape | frontend/server/controllers/submissionController.js:76-92 | a started submission is in progress with blank answers, a zero total, the test's maximum and one start activity |
| SubmissionController.StartThenResume | frontend/server/controllers/submissionController.js:49-64 | starting the same test again resumes the submission just created |
| SubmissionController.FlaggedAttemptIsNotCounted | frontend/server/controllers/submissionController.js:43-47 | a student whose only attempts were flagged starts again as attempt 1 |
| SubmissionController.RepeatedStartCreatesTwice | frontend/server/controllers/submissionController.js:43-88 | after a completed attempt, two starts create two submissions with the same attempt number, because the lookup finds the older attempt first |
| SubmissionController.SaveAnswer | frontend/server/controllers/submissionController.js:122-186 | 404, 403 for another student, 400 once finished; 404 exactly when the question is not in the submission; a language outside the schema's list (default "typescript") is 500 exactly then; otherwise only that answer's code, parsed language and attempt times change |
| SubmissionController.AnswerIndex | frontend/server/controllers/submissionController.js:152-154 | `findIndex`: the first answer for the question, or none |
| SubmissionController.SaveAnswerRoundTrip | frontend/server/controllers/submissionController.js:164-165 | after saving, the answer for the question holds the code and language saved |
| SubmissionController.ReportViolation | frontend/server/controllers/submissionController.js:193-229 | 404 for no submission; success exactly when the type is one the schema lists, a description is given and the severity (default "medium") is listed, else 500; the violation is added through the document method and the new count returned |
| SubmissionController.ReportedKind | frontend/server/controllers/submissionController.js:207-213 | the violation type: none when the body gives none, else the listed type with that name |
| SubmissionController.ReportViolationIgnoresReporter | frontend/server/controllers/submissionController.js:193-229 | the outcome does not depend on who reports |
| SubmissionController.ReportFlagsCompletedSubmission | frontend/server/controllers/submissionController.js:207-215 | a violation reported against a completed submission can still flag it |
| SubmissionController.PassedCount | frontend/server/controllers/submissionController.js:272 | the simulated number of passed cases is between 0 and the number of cases |
| SubmissionController.SimilarityDraw | frontend/server/controllers/submissionController.js:285 | the simulated similarity is below 60 |
| SubmissionController.ResultsFor | frontend/server/controllers/submissionController.js:276-282 | one result per test case; exactly the first `k` pass |
| SubmissionController.PrefixPassCount | frontend/server/controllers/submissionController.js:276-282 | when exactly the first `k` results pass, `k` of them pass |
| SubmissionController.GradeAnswer | frontend/server/controllers/submissionController.js:269-286 | a question without test cases cannot be graded (its share 0/0 is not a number); otherwise the passing cases form a prefix, the score is the rounded share of the maximum the passed cases earn, between 0 and a non-negative maximum, and nothing else on the answer changes |
| SubmissionController.ShareBounds | frontend/server/controllers/submissionController.js:273-275 | the rounded share is within half a point of `max * k / n` and between 0 and a non-negative maximum |
| SubmissionController.QuestionById | frontend/server/controllers/submissionController.js:267 | `questions.id(...)`: the question with that id, or none |
| SubmissionController.Grade | frontend/server/controllers/submissionController.js:265-287 | grading is defined exactly when every answer with code and a known question has a question with test cases; such answers are graded, every other answer is left as it was |
| SubmissionController.FinishAttempt | frontend/server/controllers/submissionController.js:265-293 | defined exactly when grading is; grading then `submit`: flagged exactly at five or more counted violations, maxima kept, graded scores within their maxima |
| SubmissionController.SubmitTest | frontend/server/controllers/submissionController.js:236-315 | 404, 403 for another student, 400 once finished; an answer to a question without test cases makes the save fail with 500 "Error submitting test" and nothing stored, exactly then; otherwise the graded submission is stored and the test's analytics record its percentage |
| SubmissionController.CaselessQuestionFailsSubmit | frontend/server/controllers/submissionController.js:265-310 | an in-progress attempt with code for a question that has no test case is answered 500 "Error submitting test" |
| SubmissionController.SubmitTestUpdatesAnalytics | frontend/server/models/Submission.js:353-358 | a successful submission adds one to the test's count and moves its mean by exactly the new percentage |
| SubmissionController.SubmittedPercentageInRange | frontend/server/controllers/submissionController.js:236-315 | with scores within their maxima, a successful submission's percentage lies in [0, 100] |
| SubmissionController.GetSubmission | frontend/server/controllers/submissionController.js:322-359 | 404 for no submission; readable exactly by its student and by the test's creator, otherwise 403 |
| SubmissionController.GetSubmissionIgnoresRole | frontend/server/controllers/submissionController.js:337-345 | the caller's role plays no part: an admin who is neither is refused |
| SubmissionController.GetTestSubmissions | frontend/server/controllers/submissionController.js:366-397 | only the test's submissions of the requested status, at most `limit` of them, with the matching total and the page count covering it (pages in stored order, see Left out) |
| SubmissionController.TestSubmissions | frontend/server/controllers/submissionController.js:371-372 | the test's submissions of the requested status: exactly the stored ones that match, in stored order |
| SubmissionController.ListedSubmissionsArePages | frontend/server/controllers/submissionController.js:374-377 | the items of pages 1 to n are the first n pages of the matching submissions |
| SubmissionController.GetTestSubmissionsPagesCoverAll | frontend/server/controllers/submissionController.js:368-389 | reading pages 1 to the reported page count yields every matching submission exactly once, in stored order |
| SubmissionController.ReviewSubmission | frontend/server/controllers/submissionController.js:404-444 | 404 for no submission; success exactly when the rating is in [1, 5] and the decision is absent or listed, else 500; the review records the decision given, and the status becomes reviewed exactly for "approved" or "rejected"; answers and violations are kept |
| SubmissionController.ReviewSubmissionIdempotent | frontend/server/controllers/submissionController.js:404-444 | repeating a review with the same arguments stores the same submission again |
| SubmissionController.LaterReviewOverrides | frontend/server/controllers/submissionController.js:404-444 | a second review replaces the first: the result is that of the second review alone, unless only the first decided the outcome |
| Routes.Route | frontend/server/routes/tests.js:6-36 | fixed path segments match whatever their letter case, as `express.Router()` does by default; a matched route belongs to the router it was matched on |
| Routes.Handle | frontend/server/routes/index.js:25-35 | a handler runs only for its route, matched regardless of letter case; an unmatched path under a mount passes `protect` and then gets the API router's 404 "API endpoint not found" |
| Routes.OnlyCodeLookupIsPublic | frontend/server/routes/tests.js:20-24 | without a valid session only the access-code lookup runs; every other request answers `protect`'s refusal |
| Routes.GuardOf | frontend/server/routes/tests.js:21-36 | the middleware before each handler: the code lookup is public, viewing a test or a submission needs a session, the four taking actions of submissions.js:18-30 are for students and the management routes for recruiters and admins |
| Routes.HandlerRunsIff | frontend/server/routes/tests.js:26-36 | a handler runs exactly when its route matches and the caller's role is listed; student actions need a student, recruiter actions a recruiter or admin |
| Routes.RefusalStatuses | frontend/server/index.js:74-80 | for an authenticated caller a refusal is 403 exactly when the route exists and 404 exactly when it does not |
| Routes.EveryEndpointIsReachable | frontend/server/routes/submissions.js:17-30 | every endpoint is reached by its own verb and path |
| Routes.FixedSegmentsAsIds | frontend/server/routes/tests.js:21-31 | `GET /code` and `GET /start` fall through to the by-id handlers |
| Routes.RouteIgnoresCase | frontend/server/routes/tests.js:6 | the route a path reaches does not change when the path is lower-cased |
| Routes.UpperCaseStartStarts | frontend/server/routes/submissions.js:6-18 | `POST /START` reaches the start handler just as `POST /start` does |
| Routes.ServerNotFoundIsUnreachable | frontend/server/routes/index.js:29-35 | no request under the two mounts reaches the server's own "Route not found": protect's refusals are 401 and the API router's catch-all answers first |
| ErrorHandler.NotFound | frontend/server/index.js:74-80 | the server's catch-all answer, 404 "Route not found", for a path outside /api that no route took |
| ErrorHandler.Join | frontend/server/index.js:88-91 | `messages.join(", ")`: the messages in order with the separator between consecutive ones; JoinLength and JoinContainsEach state its length and contents |
| ErrorHandler.Classify | frontend/server/index.js:83-123 | validation errors are 400 with the messages joined, duplicate keys 400 "Duplicate field value entered", a bad token 401 "Invalid token", an expired one 401 "Token expired"; any other error keeps a non-zero `statusCode` (else 500) and its message (else "Server Error") |
| ErrorHandler.PlainErrorsPassThrough | frontend/server/index.js:119-122 | an ordinary error keeps its status and message, with 500 and "Server Error" as fallbacks |
| ErrorHandler.JoinLength | frontend/server/index.js:88-91 | the joined message is as long as the messages plus one separator between each pair |
| ErrorHandler.JoinContainsEach | frontend/server/index.js:88-91 | every validation message appears in the joined message |
| CompilerService.ReplaceEscapes | backend/services/compiler_service.py:66 | replacing `\n` escapes never lengthens the text |
| CompilerService.ReplaceLeavesNoEscapes | backend/services/compiler_service.py:66 | after the replacement no `\n` escape is left |
| CompilerService.ReplaceWithoutEscapes | backend/services/compiler_service.py:66 | text without escapes is left unchanged |
| CompilerService.CleanCode | backend/services/compiler_service.py:57-71 | missing or empty output cleans to "" |
| CompilerService.CleanCodeFacts | backend/services/compiler_service.py:57-71 | cleaned output has no escapes left and no white space at either end |
| CompilerService.CleanCodeIdempotent | backend/services/compiler_service.py:57-71 | cleaning cleaned output changes nothing |
| CompilerService.CleanCodeJoinsLines | backend/services/compiler_service.py:57-71 | two escape-free lines without white space at their ends, joined by a literal `\n`, clean to the same lines joined by a line break |
| CompilerService.ReplaceKeepsPrefix | backend/services/compiler_service.py:66 | `replace` copies an escape-free prefix unchanged unless its final backslash completes an escape with what follows |
| CompilerService.ReplaceJoinsLines | backend/services/compiler_service.py:66 | the literal escape between two escape-free lines becomes one line break |
| CompilerService.RunCode | backend/services/compiler_service.py:11-54 | empty code is 400 (exactly then); the service gets the payload with the defaults filled in; a failed call is 401, a reply other than 200 is 500, and a 200 reply succeeds with the cleaned output present exactly when stdout is |
| BehaviorService.FindLog | backend/services/behavior_service.py:50 | the first log with the address, or none |
| BehaviorService.TrackBehavior | backend/services/behavior_service.py:10-39 | no address or no interval is 400 and changes nothing; the stamped interval is pushed onto the first log with the address, or a new log is inserted |
| BehaviorService.TrackAppendsInterval | backend/services/behavior_service.py:10-39 | tracking makes the interval the newest of the address's series and keeps the earlier ones |
| BehaviorService.GraphBehavior | backend/services/behavior_service.py:42-70 | 400 without an address and 404 "no data found" without a log or patterns; `x` numbers the intervals from 1 and each `y[i]` is the mean of the first `i+1` |
| BehaviorService.LastPointIsOverallMean | backend/services/behavior_service.py:64-66 | the last point of the graph is the mean of all intervals |
| BehaviorService.TotalBetween | backend/services/behavior_service.py:64-66 | a sum of values in [lo, hi] lies between `n*lo` and `n*hi` |
| BehaviorService.MeanBetween | backend/services/behavior_service.py:64-66 | every point of the graph lies within any bounds on the intervals |
| BehaviorService.ScoreBehaviorMean | backend/services/behavior_service.py:74-92 | no address is 400 "email required", no document or no patterns 404 "no data found", an empty series 400; otherwise the reported mean is the sum over the count |
| LoginService.Signup | backend/services/login_service.py:10-43 | missing fields are 400 (exactly then), a taken address 409 (checked first), a taken username 409; sign-up succeeds exactly for non-empty fields with a free address and username, and appends one account holding the digest |
| LoginService.Login | backend/services/login_service.py:46-66 | missing fields are 400; success exactly when the first account with the address has a matching digest, returning its creator flag; both failures are the same 401 |
| LoginService.SignupKeepsUnique | backend/services/login_service.py:21-29 | sign-up keeps addresses and usernames unique |
| LoginService.SignupThenLogin | backend/services/login_service.py:10-66 | a new account logs in with its password and gets its creator flag back; any other password is refused |
| QuestionService.Strip | backend/services/question_service.py:10 | Python's `str.strip()`: white space as Python defines it is removed from both ends; the trimming lemmas of `Text` apply with that classifier |
| QuestionService.CreateTest | backend/services/question_service.py:8-20 | the stripped name must be non-empty (400); a new name gets an empty list; a taken name fails and changes nothing |
| QuestionService.CreateQuestion | backend/services/question_service.py:23-47 | a missing name or text is 400; the question is appended to the named test; an unknown name changes nothing and still succeeds |
| QuestionService.GetTestQuestions | backend/services/question_service.py:50-54 | the named test's questions, or 404 |
| QuestionService.CreateThenAddThenGet | backend/services/question_service.py:8-54 | a test created and given one question holds exactly that question |
| QuestionService.QuestionsKeepOrder | backend/services/question_service.py:41-45 | questions added one after another keep the order added |
| ClientStore.ToggleTheme | frontend/src/lib/store.ts:16-22 | toggling always changes the theme |
| ClientStore.SetTheme | frontend/src/lib/store.ts:23-28 | the theme becomes the one given |
| ClientStore.ToggleTwice | frontend/src/lib/store.ts:15-22 | toggling twice restores the theme; from the initial dark theme one toggle gives light |
| ClientStore.SetUser | frontend/src/lib/store.ts:54 | the stored user becomes the one given |
| ClientStore.ClearUser | frontend/src/lib/store.ts:55 | clearing returns the user store to its initial state |
| ClientStore.SetThenClear | frontend/src/lib/store.ts:52-56 | signing in and then out returns to the initial state |
| ClientStore.SetCurrentTest | frontend/src/lib/store.ts:75 | sets the current test and leaves the rest of the state alone |
| ClientStore.SetTimeRemaining | frontend/src/lib/store.ts:76 | sets the remaining time and leaves the rest of the state alone |
| ClientStore.SetFullscreen | frontend/src/lib/store.ts:77 | sets the fullscreen flag and leaves the rest of the state alone |
| ClientStore.SettersIndependent | frontend/src/lib/store.ts:75-84 | setting a field twice keeps the last value, different setters commute, and none interferes with a violation report |
| ClientStore.AddViolation | frontend/src/lib/store.ts:78-84 | appends the violation stamped with the time; earlier entries and other fields are kept |
| ClientStore.ClearViolations | frontend/src/lib/store.ts:85 | empties the violations and changes nothing else |
| ClientStore.AddAll | frontend/src/lib/store.ts:78-85 | a series of `addViolation` calls, oldest first; AddAllAppends states what it leaves |
| ClientStore.AddAllAppends | frontend/src/lib/store.ts:78-85 | a series of reports appends exactly that series in order, and clearing afterwards leaves none |
| Forms.EmailErrors | frontend/src/app/signup-student/page.tsx:35-39 | an address passes exactly when it is non-empty and matches `\S+@\S+\.\S+`; an empty one is "required", never "invalid"; other fields' errors are kept |
| Forms.PasswordErrors | frontend/src/app/signup-student/page.tsx:40-44 | a password passes exactly when it is non-empty and long enough |
| Forms.ConfirmErrors | frontend/src/app/signup-student/page.tsx:45-47 | the confirmation passes exactly when it equals the password |
| Forms.RequiredErrors | frontend/src/app/signup-recruiter/page.tsx:56-57 | a required field passes exactly when it is non-empty |
| Forms.StudentSignupErrors | frontend/src/app/signup-student/page.tsx:30-50 | name, address, password and confirmation are each reported exactly when their check fails (address missing or not matching the pattern, password under 8 characters, confirmation different), and nothing else is reported |
| Forms.StudentSignupValidIff | frontend/src/app/signup-student/page.tsx:30-50 | the student form is valid exactly when the name is set, the address is well-formed, the password has 8 characters and is confirmed |
| Forms.StudentSignupMessages | frontend/src/app/signup-student/page.tsx:35-47 | an empty address is reported as missing; a mismatch is reported alongside a missing password |
| Forms.PasswordStrength | frontend/src/app/signup-student/page.tsx:62-70 | the strength is in 0..4; it is 4 exactly when all four criteria hold and 0 exactly when none does |
| Forms.Label | frontend/src/app/signup-student/page.tsx:208-214 | the label is weak exactly up to 1 and strong exactly from 4 |
| Forms.StrengthGrowsWithText | frontend/src/app/signup-student/page.tsx:62-70 | typing another character never lowers the strength or its label |
| Forms.LowerCaseIsWeak | frontend/src/app/signup-student/page.tsx:62-70 | every password of lower-case letters alone is labelled weak, whatever its length |
| Forms.HandleNext | frontend/src/app/signup-recruiter/page.tsx:62-66 | the wizard moves from step 1 to 2 exactly when step 1 is valid, and never moves otherwise |
| Forms.Step1Errors | frontend/src/app/signup-recruiter/page.tsx:34-44 | step 1 reports the name exactly when it is empty and the address exactly when it is missing or malformed, and nothing else |
| Forms.Step2Errors | frontend/src/app/signup-recruiter/page.tsx:46-60 | step 2 reports a password under 8 characters, a different confirmation, a missing company and a missing job title, each exactly then, and nothing else |
| Forms.Step1ValidIff | frontend/src/app/signup-recruiter/page.tsx:34-44 | step 1 is valid exactly when the name is set and the address is well-formed |
| Forms.Step2ValidIff | frontend/src/app/signup-recruiter/page.tsx:46-60 | step 2 is valid exactly when the password has 8 characters and is confirmed and company and job title are set; it does not look at name or address |
| Forms.StepStaysWithinTwo | frontend/src/app/signup-recruiter/page.tsx:62-66 | the wizard never leaves steps 1 and 2 |
| Forms.SubmitTarget | frontend/src/app/signup-recruiter/page.tsx:68-76 | a form navigates away exactly when it has no errors |
| Forms.LoginSubmitTarget | frontend/src/app/login-student/page.tsx:37-46 | a login form leaves the page exactly when its fields pass the page's checks |
| Forms.StudentLoginErrors | frontend/src/app/login-student/page.tsx:21-35 | the student login reports the address exactly when it is missing or malformed and the password exactly when it is under 6 characters |
| Forms.RecruiterLoginErrors | frontend/src/app/login-recruiter/page.tsx:21-33 | the recruiter login reports the address exactly when it is missing or malformed and the password exactly when it is empty |
| Forms.LoginValidIff | frontend/src/app/login-student/page.tsx:21-34 | the student login needs a well-formed address and 6 characters; the recruiter login a well-formed address and any password |
| Forms.LoginAcceptsShorterThanSignup | frontend/src/app/login-student/page.tsx:28-32 | a 6-character password passes the student login but fails student sign-up |
| Dashboard.TestMatches | frontend/src/app/recruiter/dashboard/page.tsx:188-189 | a test row matches when its lower-cased title or description contains the lower-cased query |
| Dashboard.SubmissionMatches | frontend/src/app/recruiter/dashboard/page.tsx:194-195 | a submission row matches when its lower-cased candidate name or test title contains the lower-cased query |
| Dashboard.FilterTests | frontend/src/app/recruiter/dashboard/page.tsx:186-190 | keeps exactly the tests whose title or description contains the query, ignoring case, in their order |
| Dashboard.FilterSubmissions | frontend/src/app/recruiter/dashboard/page.tsx:192-196 | keeps exactly the submissions whose candidate or test title contains the query, ignoring case, in their order |
| Dashboard.EmptyQueryShowsAll | frontend/src/app/recruiter/dashboard/page.tsx:186-196 | an empty search shows every row in its order |
| Dashboard.QueryCaseIgnored | frontend/src/app/recruiter/dashboard/page.tsx:186-190 | a lower-cased query finds the same tests as the query |
| Dashboard.ScoreBand | frontend/src/app/recruiter/dashboard/page.tsx:569-577 | green from 80, yellow from 60, red above 0, muted otherwise |
| Dashboard.BandMonotone | frontend/src/app/recruiter/dashboard/page.tsx:569-577 | a higher score never gets a worse colour |
| Dashboard.ScoreText | frontend/src/app/recruiter/dashboard/page.tsx:580-582 | an in-progress submission shows a dash; any other shows its score |
| Dashboard.ScoreTextFacts | frontend/src/app/recruiter/dashboard/page.tsx:580-582 | the score cell depends only on status and score; an unfinished attempt hides any score, and a shown score keeps the stored score's colour |

## Left out

- Persistence, networking, `populate`, cookies, JWT signing and CORS/helmet/morgan are not modelled. Token verification is a parameter `verify`, and the database is a value passed in and returned.
- Sorting of listings (`sort('-createdAt')`, and the `sort` query parameter of `getTestSubmissions`, default `'-submittedAt'`) is left out. Listings keep insertion order, oldest first, and the contracts state that order; the source's page 1 holds the newest items instead.
- TestController.GetTests: pages follow stored order, where the source sorts newest first by `createdAt`; membership, count and page count are as in the source, the order within and across pages is reversed. The status filter is a typed value, so unlisted text, which matches no test in the source, is not modelled.
- TestController.GetTestsPagesCoverAll: "in order" is stored order, the reverse of the source's `-createdAt` sort.
- SubmissionController.GetTestSubmissions: pages follow stored order, where the source sorts by the `sort` query parameter, newest `submittedAt` first by default. Its status filter is likewise a typed value.
- SubmissionController.GetTestSubmissionsPagesCoverAll: "in order" is stored order, not the source's sort.
- Query-string parsing of `page` and `limit` is not modelled. `GetTests` and `GetTestSubmissions` require positive values; the source accepts anything and lets Mongo and `Math.ceil` misbehave on zero or negative values.
- `getMe` and `logout` in authController.js only echo the session or clear the cookie; they hold no logic to prove. frontend/server/routes/auth.js is not part of this model, nor is the `/health` endpoint of frontend/server/routes/index.js; of that file only the three mounts and the catch-all 404 are modelled.
- The outer `catch` blocks that answer 500 on an unexpected exception, such as the "Authentication error" of `protect`, are modelled only where a save can fail validation.
- Mongoose's `findOne` on a filter is taken to return the first match in insertion order. Mongo promises no order without a sort.
- Users.FindByEmail: assumes Mongoose runs the lower-case and trim setters on the query value. Otherwise a differently cased address would be missed.
- Lengths are counted in characters. JavaScript's `.length` counts UTF-16 code units, so characters outside the Basic Multilingual Plane count twice there.
- Text.Lower: lower-cases ASCII letters only. JavaScript's `toLowerCase` also maps other scripts.
- TestController.ApplyPatch: `null` for a whitelisted field other than the two schedule bounds is not modelled (Mongoose would cast or reject it on save); such a field, when sent, carries a value of its type.
- AuthController.UpdateProfile: a body field explicitly set to `null` (which would clear phone or avatar) is not modelled. A supplied field is a string.
- Floating point: averages and rates use exact integers and reals. `Math.random()` is a draw `d` with `0 <= d < 1`, so JavaScript's rounding of intermediate doubles is not modelled.
- BehaviorService.ScoreBehaviorMean: the variance, standard deviation and `max(0, 100 - std_dev)` score of `score_behavior` are left out (square roots of floats); only the guards and the mean are modelled.
- The simulated execution time and memory of each test result, and the review rating's storage beyond the range check, are not modelled.
- SubmissionController.GradeAnswer: a question without test cases gives None rather than the `NaN` grade the source computes; the only consequence, that the save fails and the submission answers 500, is modelled in SubmitTest.
- Tests.Build: a question's `difficulty` is a typed value, so text outside its enum (a 500 in the source) cannot be sent, and the question's `languages` list is not modelled; the six proctoring switches are modelled per switch.
- TestController.CreateTest: a question difficulty outside the schema's enum cannot be expressed, so that 500 is not modelled.
- TestController.UpdateTest: likewise for the questions' difficulty; the raw status text is parsed and an unlisted one answers 500.
- TestController.ApplyPatch: the proctoring object of an update is taken as complete; how Mongoose merges a partial object into the stored switches is not modelled.
- SubmissionController.ReportViolation: the body's `screenshot` and `metadata`, which `addViolation` stores, are not modelled.
- Tests.IsAccessible: reads the clock through a parameter `now`. Date objects become milliseconds.
- QuestionService.CreateTest: the duplicate-key failure of `insert_one` surfaces as an unhandled exception. Flask answers it with 500, and the model returns that status with a generic message.
- CompilerService.RunCode: the Piston service is a parameter, and the reply's JSON body is reduced to its status and `run.stdout`.
- The password hash (bcrypt, werkzeug) is symbolic and injective: two different passwords never share a digest, and salting is not modelled.
- The role-guarded React pages, animations and the mock data of the dashboard are not modelled; only the pure helpers are.
- ClientStore.ToggleTheme: the `dark` class on the document root and the theme persistence are side effects left out.

## Findings

| source | as written | input that shows it | evidently intended | confidence | as-written member | corrected member |
|---|---|---|---|---|---|---|
| frontend/server/controllers/testController.js:92-100 | `getTestByCode` loads the test through `.select('title description duration questionCount proctoring instructions company')` and then calls `isAccessible()`, which reads `status`, `scheduledStart` and `scheduledEnd`; none of them is loaded, so `this.status !== 'active'` always holds | the access code of any active test with no schedule | the lookup answers 200 with the test when it is accessible now | not executed; high (a status left out of the projection is never `'active'`) | TestController.GetTestByCodeAsWritten, TestController.KnownCodesAreRefused | TestController.GetTestByCode |

=== FILE: auth_controller.dfy ===
/** The account operations of frontend/server/controllers/authController.js:
    register, login, profile and password updates and the password-reset
    request. The user collection is a sequence indexed by id; token signing,
    cookies and the JSON envelope are left out. */
module AuthController {
  import opened Common
  import opened Users

  /** The collection after an operation, and what the client is told. */
  datatype Reply<T> = Reply(users: seq<User>, result: Result<T>)

  /** The unique index on `email`: no two accounts share an address. */
  predicate EmailsUnique(users: seq<User>) {
    forall i, j :: 0 <= i < j < |users| ==> users[i].email != users[j].email
  }

  /** Every stored password is a digest and no document has an unsaved
      password change. */
  predicate PasswordsHashed(users: seq<User>) {
    forall i :: 0 <= i < |users| ==> users[i].password.Digest? && !users[i].passwordModified
  }

  // ---------------------------------------------------------------------------
  // register

  /** The document `User.create` is given: name and address through their
      setters, the plain password marked modified, the role defaulting to
      student, and company and job title kept only for a recruiter. */
  function NewUser(name: string, email: string, password: string, role: Option<Role>,
                   company: Option<string>, jobTitle: Option<string>): (u: User)
    ensures u.role == role.GetOr(Student)
    ensures u.password == Plain(password) && u.passwordModified
    ensures u.email == NormalizeEmail(email)
    ensures role != Some(Recruiter) ==> u.company.None? && u.jobTitle.None?
    ensures role == Some(Recruiter) ==> u.company == company && u.jobTitle == jobTitle
    ensures u.isActive && !u.isEmailVerified && u.lastLogin.None?
  {
    var recruiter := role == Some(Recruiter);
    User(
      name := NormalizeName(name),
      email := NormalizeEmail(email),
      password := Plain(password),
      passwordModified := true,
      role := role.GetOr(Student),
      company := if recruiter then company else None,
      jobTitle := if recruiter then jobTitle else None,
      avatar := None,
      phone := None,
      isActive := true,
      isEmailVerified := false,
      emailVerificationToken := None,
      passwordResetToken := None,
      passwordResetExpires := None,
      lastLogin := None)
  }

  /** The role `User.create` is given, `role || 'student'`, read against the
      schema's enum: None when the body names something that is no role. */
  function RequestedRole(role: Option<string>): (r: Option<Role>)
    ensures role.None? || role.value == "" ==> r == Some(Student)
    ensures role.Some? && role.value != "" ==> r == RoleNamed(role.value)
  {
    RoleNamed(OrDefault(role, "student"))
  }

  /** `register`: a taken address gives 400, a recruiter without company or
      job title gives 400; a role outside the enum and any other document the
      schema rejects give 500; otherwise the saved user is appended and
      returned. The role is the raw text of the body. */
  function Register(users: seq<User>, name: string, email: string, password: string, role: Option<string>,
                    company: Option<string>, jobTitle: Option<string>): (r: Reply<Id>)
    ensures r.result.Err? ==> r.users == users
    ensures FindByEmail(users, email).Some? <==> r.result == Err(400, "Email already registered")
    ensures FindByEmail(users, email).None? && role == Some("recruiter") && !(Present(company) && Present(jobTitle))
            <==> r.result == Err(400, "Company and job title required for recruiters")
    ensures r.result.Ok? <==>
              (&& FindByEmail(users, email).None?
               && !(role == Some("recruiter") && !(Present(company) && Present(jobTitle)))
               && RequestedRole(role).Some?
               && SchemaValid(NewUser(name, email, password, RequestedRole(role), company, jobTitle)))
    ensures FindByEmail(users, email).None? && role != Some("recruiter") && RequestedRole(role).None?
            ==> r.result == Err(500, "Error creating user")
    ensures r.result.Ok? ==>
              && FindByEmail(users, email).None?
              && RequestedRole(role).Some?
              && r.result.value == |users|
              && r.users == users + [Rehash(NewUser(name, email, password, RequestedRole(role), company, jobTitle))]
              && SchemaValid(NewUser(name, email, password, RequestedRole(role), company, jobTitle))
              && r.users[|users|].role == RequestedRole(role).value
    ensures (r.result.Err? && r.result.status == 500) <==>
              (&& FindByEmail(users, email).None?
               && !(role == Some("recruiter") && !(Present(company) && Present(jobTitle)))
               && (|| RequestedRole(role).None?
                   || !SchemaValid(NewUser(name, email, password, RequestedRole(role), company, jobTitle))))
  {
    if FindByEmail(users, email).Some? then
      Reply(users, Err(400, "Email already registered"))
    else if role == Some("recruiter") && (!Present(company) || !Present(jobTitle)) then
      Reply<Id>.Reply(users, Err(400, "Company and job title required for recruiters"))
    else
      var parsed := RequestedRole(role);
      if parsed.None? then Reply(users, Err(500, "Error creating user"))
      else
        match Save(NewUser(name, email, password, parsed, company, jobTitle), true)
        case None => Reply(users, Err(500, "Error creating user"))
        case Some(u) => Reply(users + [u], Ok(|users|))
  }

  /** Registration keeps addresses unique and passwords hashed. */
  lemma RegisterKeepsInvariants(users: seq<User>, name: string, email: string, password: string,
                                role: Option<string>, company: Option<string>, jobTitle: Option<string>)
    requires EmailsUnique(users) && PasswordsHashed(users)
    ensures var r := Register(users, name, email, password, role, company, jobTitle);
            EmailsUnique(r.users) && PasswordsHashed(r.users)
  {
  }

  /** The role is taken from the body unchecked: whatever details would
      register a student register an admin just as well. */
  lemma AnyoneCanRegisterAsAdmin(users: seq<User>, name: string, email: string, password: string)
    requires FindByEmail(users, email).None?
    requires Register(users, name, email, password, None, None, None).result.Ok?
    ensures var r := Register(users, name, email, password, Some("admin"), None, None);
            r.result.Ok? && r.users[|users|].role == Admin
  {
  }

  // ---------------------------------------------------------------------------
  // login

  /** `login`: an empty address or password gives 400; an unknown address
      and a wrong password give the same 401; a deactivated account gives
      401; otherwise `lastLogin` is stamped and the user returned. */
  function Login(users: seq<User>, email: string, password: string, now: int): (r: Reply<Id>)
    ensures r.result.Err? ==> r.users == users
    ensures email == "" || password == "" ==> r.result == Err(400, "Please provide email and password")
    ensures r.result.Ok? ==>
              && email != "" && password != ""
              && FindByEmail(users, email) == Some(r.result.value)
              && Compare(password, users[r.result.value].password)
              && users[r.result.value].isActive
              && r.users == users[r.result.value := Rehash(users[r.result.value].(lastLogin := Some(now)))]
    ensures email != "" && password != "" && FindByEmail(users, email).None?
            ==> r.result == Err(401, "Invalid email or password")
    ensures email != "" && password != "" && FindByEmail(users, email).Some?
            && !Compare(password, users[FindByEmail(users, email).value].password)
            ==> r.result == Err(401, "Invalid email or password")
    ensures email != "" && password != "" && FindByEmail(users, email).Some?
            && Compare(password, users[FindByEmail(users, email).value].password)
            && !users[FindByEmail(users, email).value].isActive
            ==> r.result == Err(401, "Account has been deactivated")
  {
    if email == "" || password == "" then
      Reply(users, Err(400, "Please provide email and password"))
    else
      match FindByEmail(users, email)
      case None => Reply(users, Err(401, "Invalid email or password"))
      case Some(id) =>
        if !Compare(password, users[id].password) then
          Reply(users, Err(401, "Invalid email or password"))
        else if !users[id].isActive then
          Reply(users, Err(401, "Account has been deactivated"))
        else
          var saved := Save(users[id].(lastLogin := Some(now)), false);
          Reply(users[id := saved.value], Ok(id))
  }

  /** With unique addresses, login succeeds exactly for an active account
      holding that address whose password matches. */
  lemma LoginSucceedsIff(users: seq<User>, email: string, password: string, now: int)
    requires EmailsUnique(users)
    ensures Login(users, email, password, now).result.Ok? <==>
              (&& email != "" && password != ""
               && exists i :: 0 <= i < |users| && users[i].email == NormalizeEmail(email)
                                                 && Compare(password, users[i].password) && users[i].isActive)
  {
    if email != "" && password != "" {
      if i :| 0 <= i < |users| && users[i].email == NormalizeEmail(email)
                && Compare(password, users[i].password) && users[i].isActive {
        var f := FindByEmail(users, email);
        assert f.Some?;
        assert f.value == i;
      }
    }
  }

  /** A fresh registration can log in straight away with the same address,
      in any case and with surrounding spaces, and the same password. */
  lemma RegisterThenLogin(users: seq<User>, name: string, email: string, password: string,
                          role: Option<string>, company: Option<string>, jobTitle: Option<string>, now: int)
    requires email != "" && password != ""
    requires Register(users, name, email, password, role, company, jobTitle).result.Ok?
    ensures var r := Register(users, name, email, password, role, company, jobTitle);
            Login(r.users, email, password, now).result == Ok(|users|)
  {
    var r := Register(users, name, email, password, role, company, jobTitle);
    FindFirstAppend(users, r.users[|users|], (u: User) => u.email == NormalizeEmail(email));
  }

  /** Stamping the login time keeps addresses unique and passwords hashed. */
  lemma LoginKeepsInvariants(users: seq<User>, email: string, password: string, now: int)
    requires EmailsUnique(users) && PasswordsHashed(users)
    ensures var r := Login(users, email, password, now);
            EmailsUnique(r.users) && PasswordsHashed(r.users)
  {
  }

  // ---------------------------------------------------------------------------
  // updateProfile

  /** `updateProfile`: only name, phone and avatar are copied from the body
      (`None` is a field the body leaves out). Validators run on the copied
      fields only, so the name is checked after trimming; an invalid name
      gives 500. A user that no longer exists gives a success with no user. */
  function UpdateProfile(users: seq<User>, id: Id, name: Option<string>, phone: Option<string>,
                         avatar: Option<string>): (r: Reply<Option<User>>)
    ensures r.result.Err? ==> r.users == users && r.result == Err(500, "Error updating profile")
    ensures id >= |users| ==> r == Reply(users, Ok(None))
    ensures r.result.Ok? && id < |users| ==>
              && |r.users| == |users|
              && (forall j :: 0 <= j < |users| && j != id ==> r.users[j] == users[j])
              && r.result.value == Some(r.users[id])
              && r.users[id] == users[id].(name := r.users[id].name, phone := r.users[id].phone,
                                           avatar := r.users[id].avatar)
              && r.users[id].name == (if name.Some? then NormalizeName(name.value) else users[id].name)
              && r.users[id].phone == (if phone.Some? then phone else users[id].phone)
              && r.users[id].avatar == (if avatar.Some? then avatar else users[id].avatar)
    ensures (r.result.Err? <==> id < |users| && name.Some? && !(0 < |NormalizeName(name.value)| <= MaxNameLength))
  {
    if id >= |users| then Reply(users, Ok(None))
    else if name.Some? && !(0 < |NormalizeName(name.value)| <= MaxNameLength) then
      Reply(users, Err(500, "Error updating profile"))
    else
      var u := users[id];
      var u' := u.(name := if name.Some? then NormalizeName(name.value) else u.name,
                   phone := if phone.Some? then phone else u.phone,
                   avatar := if avatar.Some? then avatar else u.avatar);
      Reply(users[id := u'], Ok(Some(u')))
  }

  /** A profile update can neither change a role or an address nor make a
      valid document invalid. */
  lemma UpdateProfileKeepsInvariants(users: seq<User>, id: Id, name: Option<string>, phone: Option<string>,
                                     avatar: Option<string>)
    requires EmailsUnique(users) && PasswordsHashed(users)
    requires id < |users| && SchemaValid(users[id])
    ensures var r := UpdateProfile(users, id, name, phone, avatar);
            && EmailsUnique(r.users) && PasswordsHashed(r.users)
            && SchemaValid(r.users[id])
            && r.users[id].role == users[id].role && r.users[id].email == users[id].email
  {
  }

  // ---------------------------------------------------------------------------
  // updatePassword

  /** `updatePassword`: a missing field gives 400; a user that no longer
      exists gives 500; a wrong current password gives 401; the new password
      is validated with the whole document (too short gives 500) and then
      hashed. */
  function UpdatePassword(users: seq<User>, id: Id, current: string, replacement: string): (r: Reply<Id>)
    ensures r.result.Err? ==> r.users == users
    ensures current == "" || replacement == "" <==> r.result == Err(400, "Please provide current and new password")
    ensures current != "" && replacement != "" && id >= |users| ==> r.result == Err(500, "Error updating password")
    ensures current != "" && replacement != "" && id < |users| && !Compare(current, users[id].password)
            <==> r.result == Err(401, "Current password is incorrect")
    ensures r.result.Ok? <==>
              (&& current != "" && replacement != "" && id < |users|
               && Compare(current, users[id].password)
               && SchemaValid(users[id].(password := Plain(replacement), passwordModified := true)))
    ensures r.result.Ok? ==>
              && id < |users| && r.result.value == id
              && Compare(current, users[id].password)
              && SchemaValid(users[id].(password := Plain(replacement), passwordModified := true))
              && r.users == users[id := users[id].(password := Digest(Plain(replacement)), passwordModified := false)]
  {
    if current == "" || replacement == "" then
      Reply(users, Err(400, "Please provide current and new password"))
    else if id >= |users| then
      Reply(users, Err(500, "Error updating password"))
    else if !Compare(current, users[id].password) then
      Reply(users, Err(401, "Current password is incorrect"))
    else
      match Save(users[id].(password := Plain(replacement), passwordModified := true), true)
      case None => Reply(users, Err(500, "Error updating password"))
      case Some(u) => Reply(users[id := u], Ok(id))
  }

  /** After a password change the new password logs in and the old one
      (unless it is the same) no longer does; other accounts are untouched. */
  lemma UpdatePasswordSwapsPassword(users: seq<User>, id: Id, current: string, replacement: string)
    requires UpdatePassword(users, id, current, replacement).result.Ok?
    ensures var r := UpdatePassword(users, id, current, replacement);
            && Compare(replacement, r.users[id].password)
            && (current != replacement ==> !Compare(current, r.users[id].password))
            && forall j :: 0 <= j < |users| && j != id ==> r.users[j] == users[j]
  {
  }

  /** A password change keeps addresses unique and passwords hashed. */
  lemma UpdatePasswordKeepsInvariants(users: seq<User>, id: Id, current: string, replacement: string)
    requires EmailsUnique(users) && PasswordsHashed(users)
    ensures var r := UpdatePassword(users, id, current, replacement);
            EmailsUnique(r.users) && PasswordsHashed(r.users)
  {
  }

  // ---------------------------------------------------------------------------
  // forgotPassword

  /** Ten minutes, in milliseconds. */
  const ResetWindow := 10 * 60 * 1000

  /** `forgotPassword`: an unknown address gives 404; otherwise the given
      reset token is stored with an expiry ten minutes from `now`, without
      validation. */
  function ForgotPassword(users: seq<User>, email: string, token: string, now: int): (r: Reply<Id>)
    ensures FindByEmail(users, email).None? <==> r.result.Err?
    ensures r.result.Err? ==> r == Reply(users, Err(404, "No user found with that email"))
    ensures r.result.Ok? ==>
              && FindByEmail(users, email) == Some(r.result.value)
              && var id := r.result.value;
              && |r.users| == |users|
              && (forall j :: 0 <= j < |users| && j != id ==> r.users[j] == users[j])
              && r.users[id].passwordResetToken == Some(token)
              && r.users[id].passwordResetExpires == Some(now + ResetWindow)
  {
    match FindByEmail(users, email)
    case None => Reply(users, Err(404, "No user found with that email"))
    case Some(id) =>
      var saved := Save(users[id].(passwordResetToken := Some(token), passwordResetExpires := Some(now + ResetWindow)), false);
      Reply(users[id := saved.value], Ok(id))
  }

  /** Requesting a reset changes neither the password nor anything a client
      sees besides the expiry: the token is redacted from the JSON form. */
  lemma ForgotPasswordKeepsPassword(users: seq<User>, email: string, token: string, now: int, p: string)
    requires PasswordsHashed(users)
    requires ForgotPassword(users, email, token, now).result.Ok?
    ensures var r := ForgotPassword(users, email, token, now);
            var id := r.result.value;
            && (Compare(p, r.users[id].password) <==> Compare(p, users[id].password))
            && "passwordResetToken" !in ToJson(r.users[id])
            && PasswordsHashed(r.users)
  {
  }
}

=== FILE: auth_middleware.dfy ===
/** The request guards of frontend/server/middleware/auth.js: where the token
    comes from, `protect`, `authorize`, `optionalAuth`, and the fixed-window
    rate limiter. Token verification is a parameter: `verify` maps a token to
    the id it was signed for, or to `None` when the signature or expiry
    check fails. */
module Auth {
  import opened Common
  import Text
  import Users

  // ---------------------------------------------------------------------------
  // Token extraction

  /** An Authorization header that is present, non-empty and starts with
      "Bearer" decides alone: the token is its second space-separated word.
      Otherwise a non-empty `jwt` cookie is the token. */
  function ExtractToken(authorization: Option<string>, cookie: Option<string>): (r: Option<string>)
    ensures authorization.Some? && Text.StartsWith(authorization.value, "Bearer") ==>
              r == Text.SecondField(authorization.value)
    ensures r.Some? && authorization.Some? && Text.StartsWith(authorization.value, "Bearer") ==>
              ' ' !in r.value
    ensures (authorization.None? || !Text.StartsWith(authorization.value, "Bearer")) ==>
              r == (if cookie.Some? && cookie.value != "" then cookie else None)
  {
    if authorization.Some? && authorization.value != "" && Text.StartsWith(authorization.value, "Bearer") then
      Text.SecondField(authorization.value)
    else if cookie.Some? && cookie.value != "" then cookie
    else None
  }

  /** The header wins over the cookie: "Bearer <token>" yields the token
      whatever cookie is sent. */
  lemma BearerHeaderShadowsCookie(token: string, cookie: Option<string>)
    requires ' ' !in token
    ensures ExtractToken(Some("Bearer " + token), cookie) == Some(token)
  {
    var h := "Bearer " + token;
    assert h == "Bearer" + " " + token;
    assert h[..6] == "Bearer";
    Text.SecondFieldOfPair("Bearer", token);
  }

  /** A bare "Bearer" header carries no token, and it still keeps a valid
      cookie from being read. */
  lemma BareBearerHidesCookie(cookie: string)
    ensures ExtractToken(Some("Bearer"), Some(cookie)).None?
  {
    assert ' ' !in "Bearer";
  }

  /** A header of another scheme is ignored in favour of the cookie. */
  lemma OtherSchemeFallsBackToCookie(header: string, cookie: string)
    requires |header| > 0 && header[0] != 'B'
    requires cookie != ""
    ensures ExtractToken(Some(header), Some(cookie)) == Some(cookie)
  {
  }

  // ---------------------------------------------------------------------------
  // protect

  const NotAuthorized := "Not authorized to access this route"

  /** `protect`: no token (or an empty one) and a token that fails
      verification both give 401; so do a token whose user no longer exists
      and a deactivated user. Otherwise the request proceeds as that user. */
  function Protect(authorization: Option<string>, cookie: Option<string>, verify: string -> Option<Id>,
                   users: seq<Users.User>): (r: Result<Id>)
    ensures r.Err? ==> r.status == 401
    ensures r.Ok? ==> r.value < |users| && users[r.value].isActive
    ensures r.Ok? ==> var t := ExtractToken(authorization, cookie);
                      t.Some? && t.value != "" && verify(t.value) == Some(r.value)
    ensures var t := ExtractToken(authorization, cookie);
            (t.None? || t.value == "" || verify(t.value).None?) <==> r == Err(401, NotAuthorized)
    ensures var t := ExtractToken(authorization, cookie);
            (&& t.Some? && t.value != "" && verify(t.value).Some?
             && verify(t.value).value >= |users|) <==> r == Err(401, "User no longer exists")
    ensures var t := ExtractToken(authorization, cookie);
            (&& t.Some? && t.value != "" && verify(t.value).Some? && verify(t.value).value < |users|
             && !users[verify(t.value).value].isActive) <==> r == Err(401, "User account is deactivated")
  {
    var token := ExtractToken(authorization, cookie);
    if token.None? || token.value == "" then Err(401, NotAuthorized)
    else
      match verify(token.value)
      case None => Err(401, NotAuthorized)
      case Some(id) =>
        if id >= |users| then Err(401, "User no longer exists")
        else if !users[id].isActive then Err(401, "User account is deactivated")
        else Ok(id)
  }

  /** Protect admits a request exactly when it carries a token that verifies
      to an existing, active user. */
  lemma ProtectAdmitsIff(authorization: Option<string>, cookie: Option<string>, verify: string -> Option<Id>,
                         users: seq<Users.User>, id: Id)
    ensures Protect(authorization, cookie, verify, users) == Ok(id) <==>
              (var t := ExtractToken(authorization, cookie);
               && t.Some? && t.value != "" && verify(t.value) == Some(id)
               && id < |users| && users[id].isActive)
  {
  }

  // ---------------------------------------------------------------------------
  // authorize

  /** `authorize(...roles)`: no user gives 401, a role outside the list gives
      403 naming the role, and any listed role passes. */
  function Authorize(user: Option<Role>, roles: set<Role>): (r: Result<()>)
    ensures r.Ok? <==> user.Some? && user.value in roles
    ensures user.None? ==> r == Err(401, "Not authenticated")
    ensures user.Some? && user.value !in roles ==>
              r == Err(403, "Role '" + RoleName(user.value) + "' is not authorized to access this route")
  {
    if user.None? then Err(401, "Not authenticated")
    else if user.value !in roles then
      Err(403, "Role '" + RoleName(user.value) + "' is not authorized to access this route")
    else Ok(())
  }

  // ---------------------------------------------------------------------------
  // optionalAuth

  /** `optionalAuth`: a token that verifies to an existing user attaches that
      user; anything else continues anonymously. Unlike `protect`, it does
      not check that the account is active. */
  function OptionalAuth(authorization: Option<string>, cookie: Option<string>, verify: string -> Option<Id>,
                        users: seq<Users.User>): (r: Option<Id>)
    ensures r.Some? ==> r.value < |users|
    ensures r.Some? ==> var t := ExtractToken(authorization, cookie);
                        t.Some? && t.value != "" && verify(t.value) == r
  {
    var token := ExtractToken(authorization, cookie);
    if token.None? || token.value == "" then None
    else
      match verify(token.value)
      case None => None
      case Some(id) => if id < |users| then Some(id) else None
  }

  /** Whoever protect admits, optionalAuth attaches; a deactivated account is
      attached by optionalAuth although protect turns it away. */
  lemma OptionalAuthIsLaxer(authorization: Option<string>, cookie: Option<string>, verify: string -> Option<Id>,
                            users: seq<Users.User>)
    ensures Protect(authorization, cookie, verify, users).Ok? ==>
              OptionalAuth(authorization, cookie, verify, users) == Some(Protect(authorization, cookie, verify, users).value)
    ensures Protect(authorization, cookie, verify, users) == Err(401, "User account is deactivated") ==>
              (var id := OptionalAuth(authorization, cookie, verify, users);
               id.Some? && !users[id.value].isActive)
  {
  }

  // ---------------------------------------------------------------------------
  // rateLimit

  /** The counter kept per client key. */
  datatype Window = Window(count: nat, resetTime: int)

  const DefaultMaxRequests := 100
  const DefaultWindowMs := 60000

  /** The limiter's table after a request, and whether the request passes. */
  datatype Limited = Limited(table: map<string, Window>, result: Result<()>)

  /** One request from `key` at time `now`: a new key or an expired window
      starts a window with count 1 and lets the request through; within a
      window a request passes and increments the count while the count is
      below `maxRequests`, and is refused with 429 otherwise. */
  function RateLimit(table: map<string, Window>, key: string, now: int, maxRequests: nat, windowMs: int): (r: Limited)
    ensures forall k :: k in table && k != key ==> k in r.table && r.table[k] == table[k]
    ensures r.table.Keys == table.Keys + {key}
    ensures key !in table || now > table[key].resetTime ==>
              r.result.Ok? && r.table[key] == Window(1, now + windowMs)
    ensures key in table && now <= table[key].resetTime ==>
              (r.result.Ok? <==> table[key].count < maxRequests)
    ensures r.result.Err? ==> r.table == table && r.result == Err(429, "Too many requests, please try again later")
    ensures r.result.Ok? && key in table && now <= table[key].resetTime ==>
              r.table[key] == table[key].(count := table[key].count + 1)
  {
    if key !in table then
      Limited(table[key := Window(1, now + windowMs)], Ok(()))
    else if now > table[key].resetTime then
      Limited(table[key := Window(1, now + windowMs)], Ok(()))
    else if table[key].count >= maxRequests then
      Limited(table, Err(429, "Too many requests, please try again later"))
    else
      Limited(table[key := table[key].(count := table[key].count + 1)], Ok(()))
  }

  /** How many of a series of requests from one key pass, and the table after
      them. */
  function Run(table: map<string, Window>, key: string, times: seq<int>, maxRequests: nat, windowMs: int)
    : (r: (map<string, Window>, nat))
    ensures r.1 <= |times|
    decreases |times|
  {
    if |times| == 0 then (table, 0)
    else
      var step := RateLimit(table, key, times[0], maxRequests, windowMs);
      var rest := Run(step.table, key, times[1..], maxRequests, windowMs);
      (rest.0, rest.1 + (if step.result.Ok? then 1 else 0))
  }

  /** Within one window (no request later than its reset time) exactly
      `maxRequests - count` further requests pass, or all of them if there
      are fewer; the window's reset time does not move. */
  lemma {:induction false} RunWithinWindow(table: map<string, Window>, key: string, times: seq<int>,
                                           maxRequests: nat, windowMs: int)
    requires key in table
    requires forall i :: 0 <= i < |times| ==> times[i] <= table[key].resetTime
    ensures var r := Run(table, key, times, maxRequests, windowMs);
            && r.1 == Min(|times|, if maxRequests >= table[key].count then maxRequests - table[key].count else 0)
            && key in r.0 && r.0[key].resetTime == table[key].resetTime
    decreases |times|
  {
    if |times| > 0 {
      var step := RateLimit(table, key, times[0], maxRequests, windowMs);
      assert key in step.table && step.table[key].resetTime == table[key].resetTime;
      RunWithinWindow(step.table, key, times[1..], maxRequests, windowMs);
    }
  }

  /** A client's first request opens a window; however many requests follow
      inside it, at most `maxRequests` pass in total (and the opening one
      always passes, even when `maxRequests` is 0). */
  lemma AtMostMaxPerWindow(table: map<string, Window>, key: string, first: int, later: seq<int>,
                           maxRequests: nat, windowMs: int)
    requires key !in table
    requires forall i :: 0 <= i < |later| ==> later[i] <= first + windowMs
    ensures Run(table, key, [first] + later, maxRequests, windowMs).1
            == 1 + Min(|later|, if maxRequests >= 1 then maxRequests - 1 else 0)
    ensures Run(table, key, [first] + later, maxRequests, windowMs).1 <= if maxRequests >= 1 then maxRequests else 1
  {
    var times := [first] + later;
    var step := RateLimit(table, key, first, maxRequests, windowMs);
    assert times[1..] == later;
    RunWithinWindow(step.table, key, later, maxRequests, windowMs);
  }
}

=== FILE: behavior_service.dfy ===
/** backend/services/behavior_service.py: the per-address log of typing
    intervals (`track_behavior`), the running-mean series drawn from it
    (`graph_behavior`) and the guards of `score_behavior`. The collection
    is a sequence of documents; `update_one` and `find_one` take the first
    document with the address. Intervals are exact reals. */
module BehaviorService {
  import opened Common

  datatype Entry = Entry(interval: real, timestamp: int)

  /** A `behavior_logs` document; `patterns` is `None` for a document that
      lacks the field. */
  datatype Log = Log(email: string, patterns: Option<seq<Entry>>)

  function FindLog(logs: seq<Log>, email: string): (r: Option<Id>)
    ensures r.Some? ==> r.value < |logs| && logs[r.value].email == email
    ensures r.None? ==> forall i :: 0 <= i < |logs| ==> logs[i].email != email
  {
    FindFirst(logs, (l: Log) => l.email == email)
  }

  datatype Tracked = Tracked(logs: seq<Log>, result: Result<()>)

  /** `$push` onto `patterns`: a document without the field gets a list of
      one. */
  function Push(patterns: Option<seq<Entry>>, e: Entry): seq<Entry> {
    if patterns.Some? then patterns.value + [e] else [e]
  }

  /** `track_behavior`: no address (None or "") or no interval gives 400 (an
      interval of 0 is accepted); the entry, stamped `now`, is appended to
      the first document with the address, or a new document holding just
      that entry is inserted. */
  function TrackBehavior(logs: seq<Log>, email: Option<string>, interval: Option<real>, now: int): (r: Tracked)
    ensures r.result.Err? <==> email.None? || email.value == "" || interval.None?
    ensures r.result.Err? ==> r == Tracked(logs, Err(400, "email and time_interval required"))
    ensures r.result.Ok? && FindLog(logs, email.value).Some? ==>
              var k := FindLog(logs, email.value).value;
              && |r.logs| == |logs|
              && r.logs[k] == logs[k].(patterns := Some(Push(logs[k].patterns, Entry(interval.value, now))))
              && forall j :: 0 <= j < |logs| && j != k ==> r.logs[j] == logs[j]
    ensures r.result.Ok? && FindLog(logs, email.value).None? ==>
              r.logs == logs + [Log(email.value, Some([Entry(interval.value, now)]))]
  {
    if email.None? || email.value == "" || interval.None? then
      Tracked(logs, Err(400, "email and time_interval required"))
    else
      var entry := Entry(interval.value, now);
      match FindLog(logs, email.value)
      case Some(k) => Tracked(logs[k := logs[k].(patterns := Some(Push(logs[k].patterns, entry)))], Ok(()))
      case None => Tracked(logs + [Log(email.value, Some([entry]))], Ok(()))
  }

  /** The intervals of an address's log, oldest first. */
  function IntervalsOf(logs: seq<Log>, email: string): seq<real> {
    var k := FindLog(logs, email);
    if k.None? || logs[k.value].patterns.None? then []
    else Intervals(logs[k.value].patterns.value)
  }

  function Intervals(ps: seq<Entry>): (r: seq<real>)
    ensures |r| == |ps|
    ensures forall i :: 0 <= i < |ps| ==> r[i] == ps[i].interval
  {
    seq(|ps|, i requires 0 <= i < |ps| => ps[i].interval)
  }

  /** Tracking an interval makes it the newest of the address's series and
      leaves the earlier ones as they were. */
  lemma TrackAppendsInterval(logs: seq<Log>, email: string, interval: real, now: int)
    requires email != ""
    ensures var r := TrackBehavior(logs, Some(email), Some(interval), now);
            IntervalsOf(r.logs, email) == IntervalsOf(logs, email) + [interval]
  {
    var r := TrackBehavior(logs, Some(email), Some(interval), now);
    var k := FindLog(logs, email);
    if k.None? {
      FindFirstAppend(logs, Log(email, Some([Entry(interval, now)])), (l: Log) => l.email == email);
    } else {
      assert FindLog(r.logs, email) == k by {
        FindFirstUnique(r.logs, (l: Log) => l.email == email, k.value);
      }
    }
  }

  // ---------------------------------------------------------------------------
  // graph_behavior

  /** Sum of a series. */
  function Total(xs: seq<real>): real {
    if |xs| == 0 then 0.0 else Total(xs[..|xs| - 1]) + xs[|xs| - 1]
  }

  /** The mean of the first `n` intervals. */
  function MeanOfFirst(xs: seq<real>, n: nat): real
    requires 0 < n <= |xs|
  {
    Total(xs[..n]) / n as real
  }

  datatype Graph = Graph(x: seq<int>, y: seq<real>)

  /** `graph_behavior`: no address gives 400; no document or one without
      `patterns` gives 404; otherwise `x` numbers the intervals from 1 and
      `y[i]` is the mean of the first i+1 of them. */
  method GraphBehavior(logs: seq<Log>, email: Option<string>) returns (r: Result<Graph>)
    ensures email.None? || email.value == "" ==> r == Err(400, "email required")
    ensures email.Some? && email.value != "" ==>
              (r.Err? <==> FindLog(logs, email.value).None? || logs[FindLog(logs, email.value).value].patterns.None?)
    ensures (&& email.Some? && email.value != ""
             && (FindLog(logs, email.value).None? || logs[FindLog(logs, email.value).value].patterns.None?))
            ==> r == Err(404, "no data found")
    ensures r.Ok? ==> var xs := IntervalsOf(logs, email.value);
                      && |r.value.x| == |xs| && |r.value.y| == |xs|
                      && (forall i :: 0 <= i < |xs| ==> r.value.x[i] == i + 1)
                      && (forall i :: 0 <= i < |xs| ==> r.value.y[i] == MeanOfFirst(xs, i + 1))
  {
    if email.None? || email.value == "" {
      return Err(400, "email required");
    }
    var k := FindLog(logs, email.value);
    if k.None? || logs[k.value].patterns.None? {
      return Err(404, "no data found");
    }
    var xs := Intervals(logs[k.value].patterns.value);
    var runningSum := 0.0;
    var ys: seq<real> := [];
    var i := 0;
    while i < |xs|
      invariant 0 <= i <= |xs|
      invariant |ys| == i
      invariant runningSum == Total(xs[..i])
      invariant forall j :: 0 <= j < i ==> ys[j] == MeanOfFirst(xs, j + 1)
    {
      runningSum := runningSum + xs[i];
      assert xs[..i + 1][..i] == xs[..i];
      ys := ys + [runningSum / (i + 1) as real];
      i := i + 1;
    }
    var x := seq(|ys|, j requires 0 <= j < |ys| => j + 1);
    return Ok(Graph(x, ys));
  }

  /** The last point of the series is the mean of all intervals. */
  lemma LastPointIsOverallMean(xs: seq<real>)
    requires |xs| > 0
    ensures MeanOfFirst(xs, |xs|) == Total(xs) / |xs| as real
  {
    assert xs[..|xs|] == xs;
  }

  /** A sum of values in [lo, hi] lies between n·lo and n·hi. */
  lemma {:induction false} TotalBetween(xs: seq<real>, lo: real, hi: real)
    requires forall i :: 0 <= i < |xs| ==> lo <= xs[i] <= hi
    ensures |xs| as real * lo <= Total(xs) <= |xs| as real * hi
    decreases |xs|
  {
    if |xs| > 0 {
      var init := xs[..|xs| - 1];
      assert forall i :: 0 <= i < |init| ==> init[i] == xs[i];
      TotalBetween(init, lo, hi);
      var n := |init| as real;
      assert |xs| as real == n + 1.0;
      assert (n + 1.0) * lo == n * lo + lo && (n + 1.0) * hi == n * hi + hi;
    }
  }

  /** Every point of the series lies within any bounds on the intervals. */
  lemma MeanBetween(xs: seq<real>, n: nat, lo: real, hi: real)
    requires 0 < n <= |xs|
    requires forall i :: 0 <= i < |xs| ==> lo <= xs[i] <= hi
    ensures lo <= MeanOfFirst(xs, n) <= hi
  {
    TotalBetween(xs[..n], lo, hi);
    var t := Total(xs[..n]);
    var m := n as real;
    assert m * lo <= t <= m * hi;
    assert t / m * m == t;
  }

  // ---------------------------------------------------------------------------
  // score_behavior

  /** The guards of `score_behavior` and the mean it reports: no address gives
      400, no document or no `patterns` gives 404, an empty series gives
      400. */
  function ScoreBehaviorMean(logs: seq<Log>, email: Option<string>): (r: Result<real>)
    ensures email.None? || email.value == "" <==> r == Err(400, "email required")
    ensures email.Some? && email.value != "" ==>
              var k := FindLog(logs, email.value);
              && (k.None? || logs[k.value].patterns.None? <==> r == Err(404, "no data found"))
              && (r.Ok? <==> k.Some? && logs[k.value].patterns.Some? && |IntervalsOf(logs, email.value)| > 0)
    ensures r.Ok? ==> email.Some? && |IntervalsOf(logs, email.value)| > 0
                      && r.value == Total(IntervalsOf(logs, email.value)) / |IntervalsOf(logs, email.value)| as real
    ensures email.Some? && email.value != "" && FindLog(logs, email.value).Some?
            && logs[FindLog(logs, email.value).value].patterns == Some([]) ==>
              r == Err(400, "no intervals recorded")
  {
    if email.None? || email.value == "" then Err(400, "email required")
    else
      var k := FindLog(logs, email.value);
      if k.None? || logs[k.value].patterns.None? then Err(404, "no data found")
      else
        var xs := IntervalsOf(logs, email.value);
        if |xs| == 0 then Err(400, "no intervals recorded")
        else Ok(Total(xs) / |xs| as real)
  }
}

=== FILE: client_store.dfy ===
/** The three client stores of frontend/src/lib/store.ts: the colour theme,
    the signed-in user and the state of the test being taken. Each action is
    a function from the old state to the new one; persisting the theme and
    toggling the page's `dark` class are left out. */
module ClientStore {
  import opened Common

  datatype Theme = Light | Dark

  datatype ThemeState = ThemeState(theme: Theme)

  const InitialTheme := ThemeState(Dark)

  /** `toggleTheme`: light becomes dark and anything else becomes light. */
  function ToggleTheme(s: ThemeState): (r: ThemeState)
    ensures r.theme != s.theme
  {
    ThemeState(if s.theme == Light then Dark else Light)
  }

  /** `setTheme(t)`. */
  function SetTheme(s: ThemeState, t: Theme): (r: ThemeState)
    ensures r.theme == t
  {
    ThemeState(t)
  }

  /** Toggling twice restores the theme; the first toggle from the initial
      state gives light. */
  lemma ToggleTwice(s: ThemeState)
    ensures ToggleTheme(ToggleTheme(s)) == s
    ensures ToggleTheme(InitialTheme).theme == Light
  {
  }

  // ---------------------------------------------------------------------------
  // User

  datatype ClientRole = StudentRole | RecruiterRole

  datatype ClientUser = ClientUser(id: string, email: string, name: string, role: ClientRole)

  datatype UserState = UserState(user: Option<ClientUser>)

  const InitialUser := UserState(None)

  function SetUser(s: UserState, u: Option<ClientUser>): (r: UserState)
    ensures r.user == u
  {
    UserState(u)
  }

  function ClearUser(s: UserState): (r: UserState)
    ensures r.user.None?
    ensures r == InitialUser
  {
    UserState(None)
  }

  /** Signing in and then out returns the store to its initial state. */
  lemma SetThenClear(s: UserState, u: ClientUser)
    ensures ClearUser(SetUser(s, Some(u))) == InitialUser
    ensures SetUser(s, Some(u)).user.value == u
  {
  }

  // ---------------------------------------------------------------------------
  // Test session

  datatype ClientViolation = ClientViolation(kind: string, description: string, timestamp: int)

  datatype TestState = TestState(
    currentTestId: Option<string>,
    timeRemaining: int,
    isFullscreen: bool,
    violations: seq<ClientViolation>)

  const InitialTest := TestState(None, 0, false, [])

  /** `setCurrentTest`, `setTimeRemaining` and `setFullscreen`: each sets its
      own field and leaves the rest of the state, violations included, alone. */
  function SetCurrentTest(s: TestState, id: Option<string>): (r: TestState)
    ensures r.currentTestId == id
    ensures r.violations == s.violations
    ensures r.(currentTestId := s.currentTestId) == s
  {
    s.(currentTestId := id)
  }

  function SetTimeRemaining(s: TestState, t: int): (r: TestState)
    ensures r.timeRemaining == t
    ensures r.violations == s.violations
    ensures r.(timeRemaining := s.timeRemaining) == s
  {
    s.(timeRemaining := t)
  }

  function SetFullscreen(s: TestState, b: bool): (r: TestState)
    ensures r.isFullscreen == b
    ensures r.violations == s.violations
    ensures r.(isFullscreen := s.isFullscreen) == s
  {
    s.(isFullscreen := b)
  }

  /** The setters act on separate fields: setting one field twice keeps the
      last value, two different setters commute, and none of them interferes
      with a violation report. */
  lemma SettersIndependent(s: TestState, id: Option<string>, t: int, t2: int, b: bool,
                           kind: string, description: string, now: int)
    ensures SetTimeRemaining(SetTimeRemaining(s, t), t2) == SetTimeRemaining(s, t2)
    ensures SetCurrentTest(SetTimeRemaining(s, t), id) == SetTimeRemaining(SetCurrentTest(s, id), t)
    ensures SetFullscreen(SetTimeRemaining(s, t), b) == SetTimeRemaining(SetFullscreen(s, b), t)
    ensures SetFullscreen(SetCurrentTest(s, id), b) == SetCurrentTest(SetFullscreen(s, b), id)
    ensures AddViolation(SetFullscreen(s, b), kind, description, now)
            == SetFullscreen(AddViolation(s, kind, description, now), b)
    ensures SetCurrentTest(SetCurrentTest(s, id), s.currentTestId) == s
  {
  }

  /** `addViolation`: the reported violation, stamped `now`, is appended;
      earlier entries and the other fields are kept. */
  function AddViolation(s: TestState, kind: string, description: string, now: int): (r: TestState)
    ensures |r.violations| == |s.violations| + 1
    ensures r.violations[..|s.violations|] == s.violations
    ensures r.violations[|s.violations|] == ClientViolation(kind, description, now)
    ensures r.(violations := s.violations) == s
  {
    s.(violations := s.violations + [ClientViolation(kind, description, now)])
  }

  /** `clearViolations`: the list is emptied; nothing else changes. */
  function ClearViolations(s: TestState): (r: TestState)
    ensures r.violations == []
    ensures r.(violations := s.violations) == s
  {
    s.(violations := [])
  }

  /** A series of reports, oldest first, each with its time. */
  function AddAll(s: TestState, reports: seq<ClientViolation>): TestState
    decreases |reports|
  {
    if |reports| == 0 then s
    else AddAll(AddViolation(s, reports[0].kind, reports[0].description, reports[0].timestamp), reports[1..])
  }

  /** Reporting a series appends exactly that series, in order, and clearing
      afterwards leaves no violation behind. */
  lemma {:induction false} AddAllAppends(s: TestState, reports: seq<ClientViolation>)
    ensures AddAll(s, reports).violations == s.violations + reports
    ensures AddAll(s, reports).(violations := s.violations) == s
    ensures ClearViolations(AddAll(s, reports)).violations == []
    decreases |reports|
  {
    if |reports| > 0 {
      var s1 := AddViolation(s, reports[0].kind, reports[0].description, reports[0].timestamp);
      AddAllAppends(s1, reports[1..]);
      assert s.violations + [reports[0]] + reports[1..] == s.violations + reports;
    }
  }
}

=== FILE: common.dfy ===
/** Shared vocabulary of the model: identifiers, optional values, handler
    results, the rounding the server applies to quotients, and the folds
    (sums and counts) every aggregate in the system is built from. */
module Common {

  /** Identifier of a stored document. Every collection is a sequence in
      insertion order and a document's id is its index. */
  type Id = nat

  datatype Option<+T> = None | Some(value: T) {
    function GetOr(default: T): T {
      match this
      case Some(v) => v
      case None => default
    }
  }

  /** What a request handler produces: a value, or the HTTP status and the
      error message it answers with. */
  datatype Result<+T> = Ok(value: T) | Err(status: int, message: string) {
    predicate IsFailure() {
      Err?
    }

    function PropagateFailure<U>(): Result<U>
      requires Err?
    {
      Err(status, message)
    }

    function Extract(): T
      requires Ok?
    {
      value
    }
  }

  /** The role of an account: `student` (the default), `recruiter` or `admin`. */
  datatype Role = Student | Recruiter | Admin

  /** The role as the documents and messages spell it. */
  function RoleName(r: Role): string {
    match r
    case Student => "student"
    case Recruiter => "recruiter"
    case Admin => "admin"
  }

  /** The role a request body names, read against the schema's enum: None
      when the text names no role. */
  function RoleNamed(s: string): (r: Option<Role>)
    ensures forall k :: r == Some(k) <==> RoleName(k) == s
  {
    if s == "student" then Some(Student)
    else if s == "recruiter" then Some(Recruiter)
    else if s == "admin" then Some(Admin)
    else None
  }

  /** JavaScript's `s || d` on an optional string: an absent or empty value
      gives way to the default. */
  function OrDefault(s: Option<string>, d: string): (r: string)
    ensures r == d <==> s.None? || s.value == "" || s.value == d
    ensures r != d ==> s == Some(r)
  {
    if s.None? || s.value == "" then d else s.value
  }

  /** Status and message of the generic failure every controller answers when
      a save or a lookup throws inside its try block. */
  function ServerError<T>(message: string): (r: Result<T>)
    ensures r.Err? && r.status == 500
  {
    Err(500, message)
  }

  // ---------------------------------------------------------------------------
  // Rounding

  /** `Math.round(n / d)` on the exact quotient: the nearest integer, and a tie
      goes up (towards positive infinity), as `Math.round` does. */
  function RoundDiv(n: int, d: int): (r: int)
    requires d > 0
    ensures 2 * d * r <= 2 * n + d < 2 * d * r + 2 * d
  {
    (2 * n + d) / (2 * d)
  }

  /** `Math.round(part / whole * 100)`, the percentage the server reports. */
  function Percent(part: int, whole: int): int
    requires whole > 0
  {
    RoundDiv(100 * part, whole)
  }

  /** `Math.ceil(a / b)` on the exact quotient. */
  function CeilDiv(a: int, b: int): (r: int)
    requires b != 0
    ensures b > 0 ==> b * (r - 1) < a <= b * r
    ensures b < 0 ==> b * r <= a < b * r - b
  {
    if b > 0 then -((-a) / b) else -(a / (-b))
  }

  lemma MulStrictMonotone(d: int, a: int, b: int)
    requires d > 0 && d * a < d * b
    ensures a < b
  {
    assert d * (b - a) > 0 by {
      assert d * (b - a) == d * b - d * a;
    }
  }

  /** The rounded quotient is determined by the two inequalities of its
      contract: no other integer satisfies them. */
  lemma RoundDivUnique(n: int, d: int, r: int)
    requires d > 0
    requires 2 * d * r <= 2 * n + d < 2 * d * r + 2 * d
    ensures r == RoundDiv(n, d)
  {
    var q := RoundDiv(n, d);
    assert 2 * d * r < 2 * d * (q + 1);
    MulStrictMonotone(2 * d, r, q + 1);
    assert 2 * d * q < 2 * d * (r + 1);
    MulStrictMonotone(2 * d, q, r + 1);
  }

  /** A rounded mean stays between any lower and upper bound of the values
      averaged: if `lo * d <= n <= hi * d` then `lo <= round(n / d) <= hi`. */
  lemma RoundDivBetween(n: int, d: int, lo: int, hi: int)
    requires d > 0
    requires lo * d <= n <= hi * d
    ensures lo <= RoundDiv(n, d) <= hi
  {
    var r := RoundDiv(n, d);
    assert 2 * d * lo < 2 * d * (r + 1) by {
      assert 2 * d * lo == 2 * (lo * d);
    }
    MulStrictMonotone(2 * d, lo, r + 1);
    assert 2 * d * r < 2 * d * (hi + 1) by {
      assert 2 * d * hi == 2 * (hi * d);
    }
    MulStrictMonotone(2 * d, r, hi + 1);
  }

  /** A share of a whole, as a rounded percentage, lies in [0, 100]. */
  lemma PercentInRange(part: int, whole: int)
    requires 0 <= part <= whole && whole > 0
    ensures 0 <= Percent(part, whole) <= 100
  {
    RoundDivBetween(100 * part, whole, 0, 100);
  }

  // ---------------------------------------------------------------------------
  // Folds

  /** `xs.reduce((sum, x) => sum + f(x), 0)`: a left fold, as JavaScript's
      `reduce` and Python's loops compute it. */
  function SumBy<T>(xs: seq<T>, f: T -> int): int
  {
    if |xs| == 0 then 0 else SumBy(xs[..|xs| - 1], f) + f(xs[|xs| - 1])
  }

  /** `xs.filter(p).length`. */
  function CountIf<T>(xs: seq<T>, p: T -> bool): nat
  {
    if |xs| == 0 then 0 else CountIf(xs[..|xs| - 1], p) + (if p(xs[|xs| - 1]) then 1 else 0)
  }

  /** `xs.filter(p)`, keeping the order of the kept elements. */
  function Filter<T>(xs: seq<T>, p: T -> bool): seq<T>
  {
    if |xs| == 0 then [] else Filter(xs[..|xs| - 1], p) + (if p(xs[|xs| - 1]) then [xs[|xs| - 1]] else [])
  }

  /** The position of the first element satisfying `p`: `findIndex`, and the
      document `findOne` returns when a collection is read in insertion order. */
  function FindFirst<T>(xs: seq<T>, p: T -> bool): (r: Option<nat>)
    ensures r.Some? ==> r.value < |xs| && p(xs[r.value])
                        && forall k :: 0 <= k < r.value ==> !p(xs[k])
    ensures r.None? ==> forall k :: 0 <= k < |xs| ==> !p(xs[k])
  {
    if |xs| == 0 then None
    else if p(xs[0]) then Some(0)
    else
      var k := FindFirst(xs[1..], p);
      if k.None? then None else Some(k.value + 1)
  }

  /** `FindFirst` is characterised by its contract: the first position where
      `p` holds is the answer. */
  lemma {:induction false} FindFirstUnique<T>(xs: seq<T>, p: T -> bool, k: nat)
    requires k < |xs| && p(xs[k]) && forall j :: 0 <= j < k ==> !p(xs[j])
    ensures FindFirst(xs, p) == Some(k)
  {
    if k > 0 {
      FindFirstUnique(xs[1..], p, k - 1);
    }
  }

  /** Appending never changes a match found earlier, and with no earlier
      match a matching new last element is found. */
  lemma FindFirstAppend<T>(xs: seq<T>, y: T, p: T -> bool)
    ensures FindFirst(xs, p).Some? ==> FindFirst(xs + [y], p) == FindFirst(xs, p)
    ensures FindFirst(xs, p).None? && p(y) ==> FindFirst(xs + [y], p) == Some(|xs|)
    ensures FindFirst(xs, p).None? && !p(y) ==> FindFirst(xs + [y], p).None?
  {
    var zs := xs + [y];
    var f := FindFirst(xs, p);
    if f.Some? {
      FindFirstUnique(zs, p, f.value);
    } else if p(y) {
      FindFirstUnique(zs, p, |xs|);
    } else {
      assert forall k :: 0 <= k < |xs| ==> zs[k] == xs[k];
    }
  }

  // ---------------------------------------------------------------------------
  // Pagination

  /** The `page`-th block of `limit` items: `skip((page - 1) * limit)` followed
      by `limit(limit)`. */
  function PageOf<T>(xs: seq<T>, page: int, limit: int): (r: seq<T>)
    requires page >= 1 && limit >= 1
    ensures |r| <= limit
    ensures (page - 1) * limit >= |xs| ==> r == []
    ensures (page - 1) * limit < |xs| ==> r == xs[(page - 1) * limit..Min(page * limit, |xs|)]
  {
    var lo := Min((page - 1) * limit, |xs|);
    var hi := Min(page * limit, |xs|);
    xs[lo..hi]
  }

  function Min(a: int, b: int): int {
    if a <= b then a else b
  }

  /** `Math.ceil(total / limit)`, the number of pages reported. */
  function PageCount(total: nat, limit: int): (n: int)
    requires limit >= 1
    ensures n >= 0 && (n - 1) * limit < total <= n * limit
  {
    CeilDiv(total, limit)
  }

  /** Pages 1 to `n`, one after another. */
  function FirstPages<T>(xs: seq<T>, limit: int, n: nat): seq<T>
    requires limit >= 1
  {
    if n == 0 then [] else FirstPages(xs, limit, n - 1) + PageOf(xs, n, limit)
  }

  /** Reading the reported number of pages in order yields every item exactly
      once, in order: the pages partition the list. */
  lemma PagesCoverAll<T>(xs: seq<T>, limit: int)
    requires limit >= 1
    ensures FirstPages(xs, limit, PageCount(|xs|, limit)) == xs
  {
    var n := PageCount(|xs|, limit);
    FirstPagesPrefix(xs, limit, n);
    assert n * limit >= |xs|;
    assert xs[..|xs|] == xs;
  }

  lemma {:induction false} FirstPagesPrefix<T>(xs: seq<T>, limit: int, n: nat)
    requires limit >= 1
    ensures FirstPages(xs, limit, n) == xs[..Min(n * limit, |xs|)]
  {
    if n > 0 {
      FirstPagesPrefix(xs, limit, n - 1);
      assert (n - 1) * limit + limit == n * limit;
      if (n - 1) * limit < |xs| {
        var a := Min((n - 1) * limit, |xs|);
        var b := Min(n * limit, |xs|);
        assert xs[..a] + xs[a..b] == xs[..b];
      }
    }
  }

  lemma {:induction false} SumByAppend<T>(xs: seq<T>, ys: seq<T>, f: T -> int)
    ensures SumBy(xs + ys, f) == SumBy(xs, f) + SumBy(ys, f)
    decreases |ys|
  {
    if |ys| == 0 {
      assert xs + ys == xs;
    } else {
      var last := ys[|ys| - 1];
      assert (xs + ys)[..|xs + ys| - 1] == xs + ys[..|ys| - 1];
      SumByAppend(xs, ys[..|ys| - 1], f);
    }
  }

  /** Summing from the front gives the same total as the left fold. */
  lemma {:induction false} SumByCons<T>(x: T, xs: seq<T>, f: T -> int)
    ensures SumBy([x] + xs, f) == f(x) + SumBy(xs, f)
  {
    SumByAppend([x], xs, f);
    assert [x][..0] == [];
  }

  /** Changing one element changes the sum by exactly the difference. */
  lemma {:induction false} SumByUpdate<T>(xs: seq<T>, i: nat, y: T, f: T -> int)
    requires i < |xs|
    ensures SumBy(xs[i := y], f) == SumBy(xs, f) - f(xs[i]) + f(y)
  {
    assert xs == xs[..i] + [xs[i]] + xs[i + 1..];
    assert xs[i := y] == xs[..i] + [y] + xs[i + 1..];
    SumByAppend(xs[..i] + [xs[i]], xs[i + 1..], f);
    SumByAppend(xs[..i] + [y], xs[i + 1..], f);
    SumByAppend(xs[..i], [xs[i]], f);
    SumByAppend(xs[..i], [y], f);
    assert [xs[i]][..0] == [] && [y][..0] == [];
  }

  /** If every element's value lies in [lo, hi] the sum lies in
      [lo * |xs|, hi * |xs|]. */
  lemma {:induction false} SumByBounds<T>(xs: seq<T>, f: T -> int, lo: int, hi: int)
    requires forall i :: 0 <= i < |xs| ==> lo <= f(xs[i]) <= hi
    ensures lo * |xs| <= SumBy(xs, f) <= hi * |xs|
  {
    if |xs| > 0 {
      var init := xs[..|xs| - 1];
      assert forall i :: 0 <= i < |init| ==> init[i] == xs[i];
      SumByBounds(init, f, lo, hi);
      var n := |init|;
      assert lo * (n + 1) == lo * n + lo && hi * (n + 1) == hi * n + hi;
    }
  }

  lemma {:induction false} CountIfAppend<T>(xs: seq<T>, ys: seq<T>, p: T -> bool)
    ensures CountIf(xs + ys, p) == CountIf(xs, p) + CountIf(ys, p)
    decreases |ys|
  {
    if |ys| > 0 {
      assert (xs + ys)[..|xs + ys| - 1] == xs + ys[..|ys| - 1];
      CountIfAppend(xs, ys[..|ys| - 1], p);
    } else {
      assert xs + ys == xs;
    }
  }

  /** Counting agrees with the length of the filtered sequence, and the
      filtered sequence holds exactly the elements satisfying `p`. */
  lemma {:induction false} FilterCount<T>(xs: seq<T>, p: T -> bool)
    ensures |Filter(xs, p)| == CountIf(xs, p) <= |xs|
    ensures forall y :: y in Filter(xs, p) <==> y in xs && p(y)
  {
    if |xs| > 0 {
      var init := xs[..|xs| - 1];
      FilterCount(init, p);
      assert xs == init + [xs[|xs| - 1]];
    }
  }

  /** `ys` is `xs` with some elements left out and the rest in order. */
  predicate IsSubsequence<T(==)>(ys: seq<T>, xs: seq<T>)
    decreases |xs|
  {
    if |ys| == 0 then true
    else if |xs| == 0 then false
    else if ys[|ys| - 1] == xs[|xs| - 1] then IsSubsequence(ys[..|ys| - 1], xs[..|xs| - 1])
    else IsSubsequence(ys, xs[..|xs| - 1])
  }

  /** Dropping the last element of a subsequence leaves a subsequence. */
  lemma {:induction false} SubsequenceDropLast<T>(ys: seq<T>, xs: seq<T>)
    requires IsSubsequence(ys, xs) && |ys| > 0
    ensures IsSubsequence(ys[..|ys| - 1], xs)
    decreases |xs|, 1
  {
    var init := xs[..|xs| - 1];
    if ys[|ys| - 1] == xs[|xs| - 1] {
      SubsequenceExtend(ys[..|ys| - 1], init, xs[|xs| - 1]);
    } else {
      SubsequenceDropLast(ys, init);
      SubsequenceExtend(ys[..|ys| - 1], init, xs[|xs| - 1]);
    }
    assert init + [xs[|xs| - 1]] == xs;
  }

  /** A subsequence stays one when the sequence grows at the end. */
  lemma {:induction false} SubsequenceExtend<T>(ys: seq<T>, xs: seq<T>, x: T)
    requires IsSubsequence(ys, xs)
    ensures IsSubsequence(ys, xs + [x])
    decreases |xs|, 2
  {
    var zs := xs + [x];
    assert zs[..|zs| - 1] == xs;
    if |ys| > 0 && ys[|ys| - 1] == x {
      SubsequenceDropLast(ys, xs);
    }
  }

  /** Growing both sequences by the same element keeps a subsequence. */
  lemma SubsequenceAppendBoth<T>(ys: seq<T>, xs: seq<T>, x: T)
    requires IsSubsequence(ys, xs)
    ensures IsSubsequence(ys + [x], xs + [x])
  {
    assert (ys + [x])[..|ys|] == ys;
    assert (xs + [x])[..|xs|] == xs;
  }

  /** Filtering keeps the order of what it keeps, and keeps everything when
      every element qualifies. */
  lemma {:induction false} FilterIsSubsequence<T>(xs: seq<T>, p: T -> bool)
    ensures IsSubsequence(Filter(xs, p), xs)
    ensures (forall i :: 0 <= i < |xs| ==> p(xs[i])) ==> Filter(xs, p) == xs
  {
    if |xs| > 0 {
      var init := xs[..|xs| - 1];
      var last := xs[|xs| - 1];
      var fi := Filter(init, p);
      FilterIsSubsequence(init, p);
      assert init + [last] == xs;
      if p(last) {
        assert Filter(xs, p) == fi + [last];
        SubsequenceAppendBoth(fi, init, last);
      } else {
        assert Filter(xs, p) == fi;
        SubsequenceExtend(fi, init, last);
      }
      if forall i :: 0 <= i < |xs| ==> p(xs[i]) {
        assert forall i :: 0 <= i < |init| ==> p(init[i]) by {
          forall i | 0 <= i < |init| ensures p(init[i]) {
            assert init[i] == xs[i];
          }
        }
      }
    }
  }

  /** Filtering by two predicates that agree on the elements gives the same
      result. */
  lemma {:induction false} FilterAgree<T>(xs: seq<T>, p: T -> bool, q: T -> bool)
    requires forall i :: 0 <= i < |xs| ==> p(xs[i]) == q(xs[i])
    ensures Filter(xs, p) == Filter(xs, q)
  {
    if |xs| > 0 {
      var init := xs[..|xs| - 1];
      assert forall i :: 0 <= i < |init| ==> init[i] == xs[i];
      FilterAgree(init, p, q);
    }
  }

  /** Counting by a predicate and by its negation splits the sequence. */
  lemma {:induction false} CountIfComplement<T>(xs: seq<T>, p: T -> bool, q: T -> bool)
    requires forall x :: q(x) == !p(x)
    ensures CountIf(xs, p) + CountIf(xs, q) == |xs|
  {
    if |xs| > 0 {
      CountIfComplement(xs[..|xs| - 1], p, q);
    }
  }

  /** A count is at most the length. */
  lemma {:induction false} CountIfAtMost<T>(xs: seq<T>, p: T -> bool)
    ensures CountIf(xs, p) <= |xs|
  {
    if |xs| > 0 {
      CountIfAtMost(xs[..|xs| - 1], p);
    }
  }

  /** If `p` implies `q` on every element, fewer elements satisfy `p`. */
  lemma {:induction false} CountIfMonotone<T>(xs: seq<T>, p: T -> bool, q: T -> bool)
    requires forall i :: 0 <= i < |xs| ==> p(xs[i]) ==> q(xs[i])
    ensures CountIf(xs, p) <= CountIf(xs, q)
  {
    if |xs| > 0 {
      var init := xs[..|xs| - 1];
      assert forall i :: 0 <= i < |init| ==> init[i] == xs[i];
      CountIfMonotone(init, p, q);
    }
  }
}

=== FILE: compiler_service.dfy ===
/** backend/services/compiler_service.py: the output cleaner `clean_code` and
    the request guard of `run_Code`. The compiler itself is reached over HTTP
    and is a parameter here. */
module CompilerService {
  import opened Common
  import Text

  // ---------------------------------------------------------------------------
  // clean_code

  /** The two-character escape `\n` (a backslash, then the letter n) starts
      at position `i`. */
  predicate EscapeAt(s: string, i: int) {
    0 <= i && i + 1 < |s| && s[i] == '\\' && s[i + 1] == 'n'
  }

  predicate NoEscapes(s: string) {
    forall i :: 0 <= i < |s| ==> !EscapeAt(s, i)
  }

  /** `s.replace("\\n", "\n")`: scanning left to right, each escape is
      replaced by one newline character; everything else is copied. */
  function ReplaceEscapes(s: string): (r: string)
    ensures |r| <= |s|
    decreases |s|
  {
    if |s| == 0 then ""
    else if EscapeAt(s, 0) then "\n" + ReplaceEscapes(s[2..])
    else [s[0]] + ReplaceEscapes(s[1..])
  }

  /** `clean_code(output)`: no output (None or "") gives ""; otherwise the
      escapes are replaced and white space is stripped from both ends. */
  function CleanCode(output: Option<string>): (r: string)
    ensures output.None? || output.value == "" ==> r == ""
  {
    if output.None? || output.value == "" then ""
    else Text.Trim(ReplaceEscapes(output.value), Text.IsPySpace)
  }

  /** After replacement no escape is left: every backslash that was followed
      by an n was consumed, and a newline is not a backslash. */
  lemma {:induction false} ReplaceLeavesNoEscapes(s: string)
    ensures NoEscapes(ReplaceEscapes(s))
    ensures |s| > 0 && s[0] != '\\' ==> |ReplaceEscapes(s)| > 0 && ReplaceEscapes(s)[0] == s[0]
    ensures |s| > 0 && s[0] == '\\' ==> |ReplaceEscapes(s)| > 0 && ReplaceEscapes(s)[0] in {'\\', '\n'}
    decreases |s|
  {
    if |s| == 0 {
    } else if EscapeAt(s, 0) {
      ReplaceLeavesNoEscapes(s[2..]);
      var r := ReplaceEscapes(s);
      assert r == "\n" + ReplaceEscapes(s[2..]);
      forall i | 0 <= i < |r|
        ensures !EscapeAt(r, i)
      {
        if i > 0 {
          assert EscapeAt(r, i) ==> EscapeAt(ReplaceEscapes(s[2..]), i - 1);
        }
      }
    } else {
      ReplaceLeavesNoEscapes(s[1..]);
      var t := ReplaceEscapes(s[1..]);
      var r := ReplaceEscapes(s);
      assert r == [s[0]] + t;
      forall i | 0 <= i < |r|
        ensures !EscapeAt(r, i)
      {
        if i > 0 {
          assert EscapeAt(r, i) ==> EscapeAt(t, i - 1);
        } else if |r| > 1 && s[0] == '\\' {
          // the next input character is not an 'n', and neither is what it becomes
          assert |s[1..]| > 0 && s[1] != 'n';
          assert t[0] != 'n';
        }
      }
    }
  }

  /** Replacement changes nothing in a string without escapes. */
  lemma {:induction false} ReplaceWithoutEscapes(s: string)
    requires NoEscapes(s)
    ensures ReplaceEscapes(s) == s
    decreases |s|
  {
    if |s| > 0 {
      assert !EscapeAt(s, 0);
      assert NoEscapes(s[1..]) by {
        forall i | 0 <= i < |s[1..]|
          ensures !EscapeAt(s[1..], i)
        {
          assert EscapeAt(s[1..], i) ==> EscapeAt(s, i + 1);
        }
      }
      ReplaceWithoutEscapes(s[1..]);
      assert s == [s[0]] + s[1..];
    }
  }

  /** A contiguous piece of an escape-free string is escape-free. */
  lemma SliceKeepsNoEscapes(t: string, s: string)
    requires NoEscapes(s) && Text.IsSlice(t, s)
    ensures NoEscapes(t)
  {
    var i, j :| 0 <= i <= j <= |s| && t == s[i..j];
    forall k | 0 <= k < |t|
      ensures !EscapeAt(t, k)
    {
      assert EscapeAt(t, k) ==> EscapeAt(s, i + k);
    }
  }

  /** The cleaned text holds no escape and no white space at either end. */
  lemma CleanCodeFacts(output: Option<string>)
    ensures NoEscapes(CleanCode(output))
    ensures Text.Trimmed(CleanCode(output), Text.IsPySpace)
  {
    if output.Some? && output.value != "" {
      var r := ReplaceEscapes(output.value);
      ReplaceLeavesNoEscapes(output.value);
      Text.TrimFacts(r, Text.IsPySpace);
      SliceKeepsNoEscapes(Text.Trim(r, Text.IsPySpace), r);
    }
  }

  /** Cleaning is idempotent. */
  lemma CleanCodeIdempotent(output: Option<string>)
    ensures CleanCode(Some(CleanCode(output))) == CleanCode(output)
  {
    var c := CleanCode(output);
    if c != "" {
      CleanCodeFacts(output);
      ReplaceWithoutEscapes(c);
      Text.TrimFacts(c, Text.IsPySpace);
    }
  }

  /** Replacement copies an escape-free prefix unchanged, provided the prefix
      does not end in a backslash that the rest would complete. */
  lemma {:induction false} ReplaceKeepsPrefix(a: string, t: string)
    requires NoEscapes(a)
    requires !(|a| > 0 && a[|a| - 1] == '\\' && |t| > 0 && t[0] == 'n')
    ensures ReplaceEscapes(a + t) == a + ReplaceEscapes(t)
    decreases |a|
  {
    if |a| > 0 {
      var s := a + t;
      assert !EscapeAt(s, 0) by {
        if |a| > 1 { assert !EscapeAt(a, 0); }
      }
      assert NoEscapes(a[1..]) by {
        forall k | 0 <= k < |a[1..]|
          ensures !EscapeAt(a[1..], k)
        {
          assert EscapeAt(a[1..], k) ==> EscapeAt(a, k + 1);
        }
      }
      assert s[1..] == a[1..] + t;
      ReplaceKeepsPrefix(a[1..], t);
      assert ReplaceEscapes(s) == [a[0]] + ReplaceEscapes(a[1..] + t);
      assert a == [a[0]] + a[1..];
    } else {
      assert a + t == t;
    }
  }

  /** Replacement turns the literal escape between two escape-free lines
      into a line break. */
  lemma ReplaceJoinsLines(a: string, b: string)
    requires NoEscapes(a) && NoEscapes(b)
    ensures ReplaceEscapes(a + "\\n" + b) == a + "\n" + b
  {
    var t := "\\n" + b;
    assert EscapeAt(t, 0);
    assert t[2..] == b;
    ReplaceWithoutEscapes(b);
    ReplaceKeepsPrefix(a, t);
    assert a + "\\n" + b == a + t;
    assert a + "\n" + b == a + ("\n" + b);
  }

  /** Two escape-free lines joined by a literal escape clean to the same two
      lines joined by a real line break, whenever neither line has white
      space at its ends. */
  lemma CleanCodeJoinsLines(a: string, b: string)
    requires |a| > 0 && |b| > 0
    requires NoEscapes(a) && NoEscapes(b)
    requires Text.Trimmed(a, Text.IsPySpace) && Text.Trimmed(b, Text.IsPySpace)
    ensures CleanCode(Some(a + "\\n" + b)) == a + "\n" + b
  {
    ReplaceJoinsLines(a, b);
    var r := a + "\n" + b;
    assert r[0] == a[0] && r[|r| - 1] == b[|b| - 1];
    assert Text.Trimmed(r, Text.IsPySpace);
    Text.TrimFacts(r, Text.IsPySpace);
  }

  // ---------------------------------------------------------------------------
  // run_Code

  datatype SourceFile = SourceFile(name: string, content: string)

  /** The body posted to the code-execution service. */
  datatype Payload = Payload(language: string, version: string, files: seq<SourceFile>)

  /** What the service answered: its HTTP status and the program's standard
      output, if any. */
  datatype ServiceReply = ServiceReply(status: int, stdout: Option<string>)

  /** What `run_Code` answers. */
  datatype RunOutput = RunOutput(stdout: Option<string>, stdoutClean: Option<string>)

  /** `run_Code`: empty or missing code gives 400 before the service is
      called; language and version default to "python" and "3.10.0"; a
      service status other than 200 gives 500; a failed call gives 401; a
      reported standard output is cleaned. `call` is the service, `None`
      when the request raises. */
  function RunCode(code: Option<string>, language: Option<string>, version: Option<string>,
                   call: Payload -> Option<ServiceReply>): (r: Result<RunOutput>)
    ensures code.None? || code.value == "" <==> r == Err(400, "code is empty")
    ensures code.Some? && code.value != "" ==>
              var p := Payload(language.GetOr("python"), version.GetOr("3.10.0"), [SourceFile("main.py", code.value)]);
              && (call(p).None? <==> r == Err(401, " error in getting the code "))
              && (call(p).Some? && call(p).value.status != 200 <==> r == Err(500, "Compiler API error"))
              && (r.Ok? <==> call(p).Some? && call(p).value.status == 200)
    ensures r.Ok? ==> var p := Payload(language.GetOr("python"), version.GetOr("3.10.0"),
                                       [SourceFile("main.py", code.value)]);
                      && code.Some? && code.value != ""
                      && call(p).Some? && call(p).value.status == 200
                      && r.value.stdout == call(p).value.stdout
                      && (r.value.stdoutClean.Some? <==> r.value.stdout.Some?)
                      && (r.value.stdoutClean.Some? ==> r.value.stdoutClean.value == CleanCode(r.value.stdout))
                      && (r.value.stdoutClean.Some? ==> NoEscapes(r.value.stdoutClean.value))
  {
    if code.None? || code.value == "" then Err(400, "code is empty")
    else
      var p := Payload(language.GetOr("python"), version.GetOr("3.10.0"), [SourceFile("main.py", code.value)]);
      match call(p)
      case None => Err(401, " error in getting the code ")
      case Some(reply) =>
        if reply.status != 200 then Err(500, "Compiler API error")
        else
          CleanCodeFacts(reply.stdout);
          Ok(RunOutput(reply.stdout, if reply.stdout.Some? then Some(CleanCode(reply.stdout)) else None))
  }
}

=== FILE: dashboard.dfy ===
/** The pure helpers of the recruiter dashboard
    (frontend/src/app/recruiter/dashboard/page.tsx): the search box that
    narrows the tests and submissions tables, and the colour band and text of
    a submission's score. Scores are whole percentages here. */
module Dashboard {
  import opened Common
  import Text

  datatype TestStatus = Active | Draft | Completed

  datatype DashTest = DashTest(id: string, title: string, description: string, status: TestStatus)

  datatype SubmissionStatus = Done | InProgress | Flagged

  datatype DashSubmission = DashSubmission(
    id: string, candidateName: string, testTitle: string, score: int, status: SubmissionStatus)

  /** `a.toLowerCase().includes(q.toLowerCase())`. */
  predicate Mentions(a: string, query: string) {
    Text.Contains(Text.Lower(a), Text.Lower(query))
  }

  predicate TestMatches(query: string, t: DashTest) {
    Mentions(t.title, query) || Mentions(t.description, query)
  }

  predicate SubmissionMatches(query: string, s: DashSubmission) {
    Mentions(s.candidateName, query) || Mentions(s.testTitle, query)
  }

  /** `filteredTests`. */
  function FilterTests(tests: seq<DashTest>, query: string): (r: seq<DashTest>)
    ensures |r| <= |tests|
    ensures forall t :: t in r <==> t in tests && TestMatches(query, t)
    ensures IsSubsequence(r, tests)
  {
    var p := (t: DashTest) => TestMatches(query, t);
    FilterCount(tests, p);
    FilterIsSubsequence(tests, p);
    Filter(tests, p)
  }

  /** `filteredSubmissions`. */
  function FilterSubmissions(subs: seq<DashSubmission>, query: string): (r: seq<DashSubmission>)
    ensures |r| <= |subs|
    ensures forall s :: s in r <==> s in subs && SubmissionMatches(query, s)
    ensures IsSubsequence(r, subs)
  {
    var p := (s: DashSubmission) => SubmissionMatches(query, s);
    FilterCount(subs, p);
    FilterIsSubsequence(subs, p);
    Filter(subs, p)
  }

  /** An empty search box shows every row, in the original order. */
  lemma EmptyQueryShowsAll(tests: seq<DashTest>, subs: seq<DashSubmission>)
    ensures FilterTests(tests, "") == tests
    ensures FilterSubmissions(subs, "") == subs
  {
    forall i | 0 <= i < |tests| ensures TestMatches("", tests[i]) {
      Text.ContainsEmpty(Text.Lower(tests[i].title));
    }
    forall i | 0 <= i < |subs| ensures SubmissionMatches("", subs[i]) {
      Text.ContainsEmpty(Text.Lower(subs[i].candidateName));
    }
    FilterIsSubsequence(tests, (t: DashTest) => TestMatches("", t));
    FilterIsSubsequence(subs, (s: DashSubmission) => SubmissionMatches("", s));
  }

  /** The search ignores the case of ASCII letters in the query. */
  lemma QueryCaseIgnored(tests: seq<DashTest>, query: string)
    ensures FilterTests(tests, Text.Lower(query)) == FilterTests(tests, query)
  {
    Text.LowerIdempotent(query);
    FilterAgree(tests, (t: DashTest) => TestMatches(Text.Lower(query), t), (t: DashTest) => TestMatches(query, t));
  }

  // ---------------------------------------------------------------------------
  // Score column

  datatype Band = Green | Yellow | Red | Muted

  /** The colour of the score: 80 and over green, 60 and over yellow, any
      other positive score red, and zero or less muted. */
  function ScoreBand(score: int): (r: Band)
    ensures r == Green <==> score >= 80
    ensures r == Yellow <==> 60 <= score < 80
    ensures r == Red <==> 0 < score < 60
    ensures r == Muted <==> score <= 0
  {
    if score >= 80 then Green
    else if score >= 60 then Yellow
    else if score > 0 then Red
    else Muted
  }

  function BandRank(b: Band): nat {
    match b
    case Muted => 0
    case Red => 1
    case Yellow => 2
    case Green => 3
  }

  /** A higher score never gets a worse colour. */
  lemma BandMonotone(a: int, b: int)
    requires a <= b
    ensures BandRank(ScoreBand(a)) <= BandRank(ScoreBand(b))
  {
  }

  /** The score cell: a submission still in progress shows "-" (None here),
      any other shows its score as a percentage. */
  function ScoreText(s: DashSubmission): (r: Option<int>)
    ensures r.None? <==> s.status == InProgress
    ensures r.Some? ==> r.value == s.score
  {
    if s.status == InProgress then None else Some(s.score)
  }

  /** The score cell depends only on the status and the score: renaming the
      candidate or the test changes nothing, an unfinished attempt hides
      whatever score it holds, and a shown score keeps the colour of the
      stored one. */
  lemma ScoreTextFacts(s: DashSubmission, name: string, title: string, score: int)
    ensures ScoreText(s.(candidateName := name, testTitle := title)) == ScoreText(s)
    ensures s.status == InProgress ==> ScoreText(s.(score := score)) == ScoreText(s)
    ensures s.status != InProgress ==> ScoreBand(ScoreText(s).value) == ScoreBand(s.score)
  {
  }
}

=== FILE: database.dfy ===
/** The two collections the server controllers read and write. A document's
    id is its position; nothing is ever removed (archiving a test only changes
    its status), so ids stay valid. */
module Database {
  import opened Common
  import Tests
  import Submissions

  datatype Db = Db(tests: seq<Tests.Test>, submissions: seq<Submissions.Submission>)

  /** `Test.findOne({ accessCode })`: the first test carrying the code. */
  function TestByCode(db: Db, code: string): (r: Option<Id>)
    ensures r.Some? ==> r.value < |db.tests| && db.tests[r.value].accessCode == Some(code)
    ensures r.None? ==> forall i :: 0 <= i < |db.tests| ==> db.tests[i].accessCode != Some(code)
  {
    FindFirst(db.tests, (t: Tests.Test) => t.accessCode == Some(code))
  }
}

=== FILE: error_handler.dfy ===
/** The two handlers at the end of frontend/server/index.js: the 404 answer
    for a request outside /api that no route took (under /api the API
    router's own catch-all answers first), and the global classifier that turns a
    thrown error into a status and a message. */
module ErrorHandler {
  import opened Common
  import Text

  /** The parts of a thrown error the classifier reads: `err.name`,
      `err.code`, `err.statusCode` (absent or 0 count as unset, as `||` does),
      `err.message` and the messages of a validation error's `errors`, in
      order. */
  datatype ThrownError = ThrownError(
    name: string,
    code: Option<int>,
    statusCode: Option<int>,
    message: string,
    errors: seq<string>)

  datatype Response = Response(status: int, message: string)

  /** The answer of the catch-all handler. */
  function NotFound(): (r: Response)
    ensures r.status == 404 && r.message == "Route not found"
  {
    Response(404, "Route not found")
  }

  /** `messages.join(sep)`. */
  function Join(ms: seq<string>, sep: string): string
  {
    if |ms| == 0 then ""
    else if |ms| == 1 then ms[0]
    else ms[0] + sep + Join(ms[1..], sep)
  }

  /** The classifier, first match wins: a validation error gives 400 with its
      messages joined by ", "; a duplicate key (code 11000) gives 400; a bad
      and an expired token give 401; anything else gives its own status code
      or 500, with its own message or "Server Error". */
  function Classify(e: ThrownError): (r: Response)
    ensures e.name == "ValidationError" ==> r == Response(400, Join(e.errors, ", "))
    ensures e.name != "ValidationError" && e.code == Some(11000) ==> r == Response(400, "Duplicate field value entered")
    ensures e.name != "ValidationError" && e.code != Some(11000) && e.name == "JsonWebTokenError" ==>
              r == Response(401, "Invalid token")
    ensures e.name != "ValidationError" && e.code != Some(11000) && e.name == "TokenExpiredError" ==>
              r == Response(401, "Token expired")
    ensures e.name !in {"ValidationError", "JsonWebTokenError", "TokenExpiredError"} && e.code != Some(11000) ==>
              r.message == (if e.message != "" then e.message else "Server Error")
    ensures r.status == 401 ==> e.name in {"JsonWebTokenError", "TokenExpiredError"} || e.statusCode == Some(401)
    ensures r.status != 0
    ensures r.message == "" ==> e.name == "ValidationError"
    ensures r.status !in {400, 401} ==> r.status == (if e.statusCode.Some? && e.statusCode.value != 0 then e.statusCode.value else 500)
  {
    if e.name == "ValidationError" then Response(400, Join(e.errors, ", "))
    else if e.code == Some(11000) then Response(400, "Duplicate field value entered")
    else if e.name == "JsonWebTokenError" then Response(401, "Invalid token")
    else if e.name == "TokenExpiredError" then Response(401, "Token expired")
    else
      Response(if e.statusCode.Some? && e.statusCode.value != 0 then e.statusCode.value else 500,
               if e.message != "" then e.message else "Server Error")
  }

  /** An error of no special kind keeps its status and message when it has
      them; a bare one becomes a 500 "Server Error". */
  lemma PlainErrorsPassThrough(name: string, status: int, message: string)
    requires name !in {"ValidationError", "JsonWebTokenError", "TokenExpiredError"}
    ensures Classify(ThrownError(name, None, Some(status), message, [])).status == (if status != 0 then status else 500)
    ensures Classify(ThrownError(name, None, None, message, [])).message == (if message != "" then message else "Server Error")
    ensures Classify(ThrownError(name, None, None, "", [])) == Response(500, "Server Error")
  {
  }

  /** The joined text is the messages and separators laid end to end. */
  lemma {:induction false} JoinLength(ms: seq<string>, sep: string)
    ensures |Join(ms, sep)| == SumBy(ms, (m: string) => |m|) + (if |ms| == 0 then 0 else (|ms| - 1) * |sep|)
    decreases |ms|
  {
    if |ms| > 1 {
      JoinLength(ms[1..], sep);
      SumByCons(ms[0], ms[1..], (m: string) => |m|);
      assert [ms[0]] + ms[1..] == ms;
    } else if |ms| == 1 {
      SumByCons(ms[0], ms[1..], (m: string) => |m|);
      assert [ms[0]] + ms[1..] == ms;
    }
  }

  /** Every individual message appears in the joined text. */
  lemma {:induction false} JoinContainsEach(ms: seq<string>, sep: string, i: nat)
    requires i < |ms|
    ensures Text.Contains(Join(ms, sep), ms[i])
    decreases |ms|
  {
    var j := Join(ms, sep);
    if |ms| == 1 {
      assert Text.OccursAt(j, ms[0], 0);
    } else if i == 0 {
      assert j[0..|ms[0]|] == ms[0];
      assert Text.OccursAt(j, ms[0], 0);
    } else {
      var rest := Join(ms[1..], sep);
      JoinContainsEach(ms[1..], sep, i - 1);
      var k :| 0 <= k <= |rest| && Text.OccursAt(rest, ms[1..][i - 1], k);
      var off := |ms[0]| + |sep|;
      assert j == ms[0] + sep + rest;
      assert j[off + k..off + k + |ms[i]|] == rest[k..k + |ms[i]|];
      assert Text.OccursAt(j, ms[i], off + k);
    }
  }
}

=== FILE: forms.dfy ===
/** The client-side form checks of the sign-up and login pages
    (frontend/src/app/signup-student, signup-recruiter, login-student and
    login-recruiter): each builds a map from field name to error message and
    the form is valid when the map is empty. Lengths are counted in
    characters. */
module Forms {
  import opened Common
  import Text

  type Errors = map<string, string>

  /** The e-mail check all four pages share: empty gives "required", and only
      a non-empty address is checked against `\S+@\S+\.\S+`. */
  function EmailErrors(e: Errors, email: string): (r: Errors)
    ensures "email" !in r <==> email != "" && Text.MatchesEmailPattern(email)
    ensures email == "" ==> r == e["email" := "Email is required"]
    ensures forall k :: k in e && k != "email" ==> k in r && r[k] == e[k]
    ensures forall k :: k in r && k != "email" ==> k in e
    ensures "email" !in e ==> (r.Keys == e.Keys <==> email != "" && Text.MatchesEmailPattern(email))
  {
    if email == "" then e["email" := "Email is required"]
    else if !Text.MatchesEmailPattern(email) then e["email" := "Invalid email format"]
    else e - {"email"}
  }

  /** The password check with a minimum length: empty gives "required", a
      short one the length message. */
  function PasswordErrors(e: Errors, password: string, minLength: nat, message: string): (r: Errors)
    ensures "password" !in r <==> password != "" && |password| >= minLength
    ensures forall k :: k in e && k != "password" ==> k in r && r[k] == e[k]
    ensures forall k :: k in r && k != "password" ==> k in e
  {
    if password == "" then e["password" := "Password is required"]
    else if |password| < minLength then e["password" := message]
    else e - {"password"}
  }

  /** The confirmation check, made whatever the password check found. */
  function ConfirmErrors(e: Errors, password: string, confirm: string): (r: Errors)
    ensures "confirmPassword" !in r <==> password == confirm
    ensures forall k :: k in e && k != "confirmPassword" ==> k in r && r[k] == e[k]
    ensures forall k :: k in r && k != "confirmPassword" ==> k in e
  {
    if password != confirm then e["confirmPassword" := "Passwords do not match"] else e - {"confirmPassword"}
  }

  /** A required text field. */
  function RequiredErrors(e: Errors, field: string, value: string, message: string): (r: Errors)
    ensures field !in r <==> value != ""
    ensures forall k :: k in e && k != field ==> k in r && r[k] == e[k]
    ensures forall k :: k in r && k != field ==> k in e
  {
    if value == "" then e[field := message] else e - {field}
  }

  // ---------------------------------------------------------------------------
  // Student sign-up

  datatype StudentSignup = StudentSignup(name: string, email: string, password: string, confirmPassword: string)

  /** `validateForm` of the student sign-up page: each field is reported
      exactly when its check fails, and no other field is reported. */
  function StudentSignupErrors(f: StudentSignup): (r: Errors)
    ensures "name" in r <==> f.name == ""
    ensures "email" in r <==> !(f.email != "" && Text.MatchesEmailPattern(f.email))
    ensures "password" in r <==> |f.password| < 8
    ensures "confirmPassword" in r <==> f.password != f.confirmPassword
    ensures r.Keys <= {"name", "email", "password", "confirmPassword"}
  {
    var e0: Errors := map[];
    var e1 := RequiredErrors(e0, "name", f.name, "Name is required");
    var e2 := EmailErrors(e1, f.email);
    var e3 := PasswordErrors(e2, f.password, 8, "Password must be at least 8 characters");
    ConfirmErrors(e3, f.password, f.confirmPassword)
  }

  /** The student form is valid exactly when the name is set, the address is
      set and well-formed, the password has at least 8 characters and the
      confirmation matches. */
  lemma StudentSignupValidIff(f: StudentSignup)
    ensures |StudentSignupErrors(f)| == 0 <==>
              (&& f.name != ""
               && f.email != "" && Text.MatchesEmailPattern(f.email)
               && |f.password| >= 8
               && f.password == f.confirmPassword)
  {
    var e := StudentSignupErrors(f);
    if |e| == 0 {
      assert "name" !in e && "email" !in e && "password" !in e && "confirmPassword" !in e;
    } else {
      var k :| k in e;
    }
  }

  /** An empty address is reported as missing, never as malformed; a
      mismatched confirmation is reported alongside a password error. */
  lemma StudentSignupMessages(f: StudentSignup)
    ensures f.email == "" ==> StudentSignupErrors(f)["email"] == "Email is required"
    ensures f.password == "" && f.confirmPassword != "" ==>
              && StudentSignupErrors(f)["password"] == "Password is required"
              && StudentSignupErrors(f)["confirmPassword"] == "Passwords do not match"
  {
  }

  /** `passwordStrength`: one point each for at least 8 characters, an
      upper-case letter, a digit and a character that is neither. */
  function PasswordStrength(p: string): (r: nat)
    ensures r <= 4
    ensures r == 4 <==> |p| >= 8 && HasUpper(p) && HasDigit(p) && HasSymbol(p)
    ensures r == 0 <==> |p| < 8 && !HasUpper(p) && !HasDigit(p) && !HasSymbol(p)
  {
    (if |p| >= 8 then 1 else 0) + (if HasUpper(p) then 1 else 0)
    + (if HasDigit(p) then 1 else 0) + (if HasSymbol(p) then 1 else 0)
  }

  predicate HasUpper(p: string) {
    exists i :: 0 <= i < |p| && 'A' <= p[i] <= 'Z'
  }

  predicate HasDigit(p: string) {
    exists i :: 0 <= i < |p| && '0' <= p[i] <= '9'
  }

  predicate HasSymbol(p: string) {
    exists i :: 0 <= i < |p| && !IsAlphanumeric(p[i])
  }

  predicate IsAlphanumeric(c: char) {
    ('A' <= c <= 'Z') || ('a' <= c <= 'z') || ('0' <= c <= '9')
  }

  datatype StrengthLabel = Weak | Fair | Good | Strong

  /** The label under the strength bar. */
  function Label(strength: nat): (r: StrengthLabel)
    ensures r == Weak <==> strength <= 1
    ensures r == Strong <==> strength >= 4
  {
    if strength <= 1 then Weak
    else if strength <= 2 then Fair
    else if strength <= 3 then Good
    else Strong
  }

  /** Adding a character never lowers the strength, and the label follows. */
  lemma StrengthGrowsWithText(p: string, c: char)
    ensures PasswordStrength(p + [c]) >= PasswordStrength(p)
    ensures LabelRank(Label(PasswordStrength(p + [c]))) >= LabelRank(Label(PasswordStrength(p)))
  {
    var q := p + [c];
    assert forall i :: 0 <= i < |p| ==> q[i] == p[i];
  }

  function LabelRank(l: StrengthLabel): nat {
    match l
    case Weak => 0
    case Fair => 1
    case Good => 2
    case Strong => 3
  }

  /** A password of lower-case letters alone is weak however long it is:
      length counts once and no other criterion is met. */
  lemma LowerCaseIsWeak(p: string)
    requires forall i :: 0 <= i < |p| ==> 'a' <= p[i] <= 'z'
    ensures Label(PasswordStrength(p)) == Weak
  {
    assert !HasUpper(p) && !HasDigit(p);
    assert !HasSymbol(p) by {
      forall i | 0 <= i < |p| ensures IsAlphanumeric(p[i]) {}
    }
  }

  // ---------------------------------------------------------------------------
  // Recruiter sign-up

  datatype RecruiterSignup = RecruiterSignup(
    name: string, email: string, password: string, confirmPassword: string, company: string, role: string)

  /** `validateStep1`: name and address, each reported exactly when its
      check fails. */
  function Step1Errors(f: RecruiterSignup): (r: Errors)
    ensures "name" in r <==> f.name == ""
    ensures "email" in r <==> !(f.email != "" && Text.MatchesEmailPattern(f.email))
    ensures r.Keys <= {"name", "email"}
  {
    var e0: Errors := map[];
    EmailErrors(RequiredErrors(e0, "name", f.name, "Name is required"), f.email)
  }

  /** `validateStep2`: password, confirmation, company and job title, each
      reported exactly when its check fails. */
  function Step2Errors(f: RecruiterSignup): (r: Errors)
    ensures "password" in r <==> |f.password| < 8
    ensures "confirmPassword" in r <==> f.password != f.confirmPassword
    ensures "company" in r <==> f.company == ""
    ensures "role" in r <==> f.role == ""
    ensures r.Keys <= {"password", "confirmPassword", "company", "role"}
  {
    var e0: Errors := map[];
    var e1 := PasswordErrors(e0, f.password, 8, "Password must be at least 8 characters");
    var e2 := ConfirmErrors(e1, f.password, f.confirmPassword);
    var e3 := RequiredErrors(e2, "company", f.company, "Company name is required");
    RequiredErrors(e3, "role", f.role, "Job title is required")
  }

  /** `handleNext`: step 1 advances to 2 when its fields are valid; any
      other step stays where it is. */
  function HandleNext(step: int, f: RecruiterSignup): (r: int)
    ensures r == 2 <==> step == 2 || (step == 1 && |Step1Errors(f)| == 0)
    ensures r != step ==> step == 1 && r == 2
  {
    if step == 1 && |Step1Errors(f)| == 0 then 2 else step
  }

  /** Step 1 is valid exactly when a name and a well-formed address are set. */
  lemma Step1ValidIff(f: RecruiterSignup)
    ensures |Step1Errors(f)| == 0 <==> f.name != "" && f.email != "" && Text.MatchesEmailPattern(f.email)
  {
    var e := Step1Errors(f);
    if |e| != 0 {
      var k :| k in e;
    }
  }

  /** Step 2 is valid exactly when the password has 8 characters and is
      confirmed and company and job title are set; it does not look at name
      or address again. */
  lemma Step2ValidIff(f: RecruiterSignup)
    ensures |Step2Errors(f)| == 0 <==>
              (&& |f.password| >= 8 && f.password == f.confirmPassword
               && f.company != "" && f.role != "")
    ensures Step2Errors(f) == Step2Errors(f.(name := "", email := ""))
  {
    var e0: Errors := map[];
    var e1 := PasswordErrors(e0, f.password, 8, "Password must be at least 8 characters");
    var e2 := ConfirmErrors(e1, f.password, f.confirmPassword);
    var e3 := RequiredErrors(e2, "company", f.company, "Company name is required");
    var e := RequiredErrors(e3, "role", f.role, "Job title is required");
    assert e == Step2Errors(f);
    assert e1.Keys <= {"password"};
    assert e2.Keys <= {"password", "confirmPassword"};
    assert e3.Keys <= {"password", "confirmPassword", "company"};
    assert e.Keys <= {"password", "confirmPassword", "company", "role"};
    if |e| != 0 {
      var k :| k in e;
    }
  }

  /** The wizard never goes beyond step 2, however often "next" is pressed. */
  lemma StepStaysWithinTwo(step: int, f: RecruiterSignup)
    requires 1 <= step <= 2
    ensures 1 <= HandleNext(step, f) <= 2
    ensures HandleNext(HandleNext(step, f), f) == HandleNext(step, f) || step == 1
  {
  }

  // ---------------------------------------------------------------------------
  // Login pages

  datatype Credentials = Credentials(email: string, password: string)

  /** The student login: password at least 6 characters. */
  function StudentLoginErrors(f: Credentials): (r: Errors)
    ensures "email" in r <==> !(f.email != "" && Text.MatchesEmailPattern(f.email))
    ensures "password" in r <==> |f.password| < 6
    ensures r.Keys <= {"email", "password"}
  {
    var e0: Errors := map[];
    PasswordErrors(EmailErrors(e0, f.email), f.password, 6, "Password must be at least 6 characters")
  }

  /** The recruiter login: the password need only be non-empty. */
  function RecruiterLoginErrors(f: Credentials): (r: Errors)
    ensures "email" in r <==> !(f.email != "" && Text.MatchesEmailPattern(f.email))
    ensures "password" in r <==> f.password == ""
    ensures r.Keys <= {"email", "password"}
  {
    var e0: Errors := map[];
    RequiredErrors(EmailErrors(e0, f.email), "password", f.password, "Password is required")
  }

  /** Where a submitted form navigates, if anywhere: only a form without
      errors leaves the page. */
  function SubmitTarget(errors: Errors, target: string): (r: Option<string>)
    ensures r.Some? <==> |errors| == 0
    ensures r.Some? ==> r.value == target
  {
    if |errors| == 0 then Some(target) else None
  }

  /** The student login accepts a 6-character password; the recruiter login
      accepts any non-empty one; both need a well-formed address. */
  lemma LoginValidIff(f: Credentials)
    ensures |StudentLoginErrors(f)| == 0 <==>
              f.email != "" && Text.MatchesEmailPattern(f.email) && |f.password| >= 6
    ensures |RecruiterLoginErrors(f)| == 0 <==>
              f.email != "" && Text.MatchesEmailPattern(f.email) && f.password != ""
  {
    var s := StudentLoginErrors(f);
    var r := RecruiterLoginErrors(f);
    if |s| != 0 { var k :| k in s; }
    if |r| != 0 { var k :| k in r; }
    if |s| == 0 { assert "email" !in s && "password" !in s; }
    if |r| == 0 { assert "email" !in r && "password" !in r; }
  }

  /** Submitting a login form leaves the page exactly when the form is valid,
      and then for the given target. */
  lemma LoginSubmitTarget(f: Credentials, target: string)
    ensures SubmitTarget(StudentLoginErrors(f), target) == Some(target) <==>
              f.email != "" && Text.MatchesEmailPattern(f.email) && |f.password| >= 6
    ensures SubmitTarget(RecruiterLoginErrors(f), target) == Some(target) <==>
              f.email != "" && Text.MatchesEmailPattern(f.email) && f.password != ""
  {
    LoginValidIff(f);
  }

  /** The thresholds differ: a 6-character password passes the student login
      but would fail student sign-up. */
  lemma LoginAcceptsShorterThanSignup()
    ensures |StudentLoginErrors(Credentials("a@b.c", "abcdef"))| == 0
    ensures "password" in StudentSignupErrors(StudentSignup("A", "a@b.c", "abcdef", "abcdef"))
  {
    var e := "a@b.c";
    assert e[1] == '@' && e[3] == '.';
    assert Text.NoSpaceIn(e, 0, 5);
    LoginValidIff(Credentials(e, "abcdef"));
  }
}

=== FILE: login_service.dfy ===
/** backend/services/login_service.py: sign-up and login over the Python
    backend's own `users` collection. Lookups are exact (no normalisation);
    the password is stored only as a digest, with the same symbolic hashing
    as the account documents. */
module LoginService {
  import opened Common
  import Users

  /** A `users` document; `creator` is the `creator` flag the client sent,
      if any. */
  datatype Account = Account(username: string, email: string, passwordHash: Users.Secret, creator: Option<bool>)

  datatype Registry = Registry(accounts: seq<Account>, result: Result<Option<bool>>)

  function ByEmail(accounts: seq<Account>, email: string): Option<Id> {
    FindFirst(accounts, (a: Account) => a.email == email)
  }

  function ByUsername(accounts: seq<Account>, username: string): Option<Id> {
    FindFirst(accounts, (a: Account) => a.username == username)
  }

  /** `signup`: a missing username, address or password gives 400; a taken
      address gives 409 (checked first), then a taken username gives 409;
      otherwise exactly one account is appended holding the digest of the
      password and the creator flag. */
  function Signup(accounts: seq<Account>, username: string, email: string, password: string,
                  creator: Option<bool>): (r: Registry)
    ensures r.result.Err? ==> r.accounts == accounts
    ensures username == "" || email == "" || password == "" <==>
              r.result == Err(400, "username, email & password required")
    ensures r.result.Ok? <==>
              && username != "" && email != "" && password != ""
              && forall i :: 0 <= i < |accounts| ==> accounts[i].email != email && accounts[i].username != username
    ensures username != "" && email != "" && password != "" ==>
              && ((exists i :: 0 <= i < |accounts| && accounts[i].email == email) ==>
                    r.result == Err(409, "Email already registered"))
              && ((forall i :: 0 <= i < |accounts| ==> accounts[i].email != email)
                  && (exists i :: 0 <= i < |accounts| && accounts[i].username == username) ==>
                    r.result == Err(409, "Username already taken"))
    ensures r.result.Ok? ==>
              && (forall i :: 0 <= i < |accounts| ==> accounts[i].email != email && accounts[i].username != username)
              && r.accounts == accounts + [Account(username, email, Users.Digest(Users.Plain(password)), creator)]
  {
    if username == "" || email == "" || password == "" then
      Registry(accounts, Err(400, "username, email & password required"))
    else if ByEmail(accounts, email).Some? then
      Registry(accounts, Err(409, "Email already registered"))
    else if ByUsername(accounts, username).Some? then
      Registry(accounts, Err(409, "Username already taken"))
    else
      Registry(accounts + [Account(username, email, Users.Digest(Users.Plain(password)), creator)], Ok(None))
  }

  /** `login`: a missing address or password gives 400; an unknown address and
      a wrong password both give the same 401; otherwise the stored creator
      flag is returned. */
  function Login(accounts: seq<Account>, email: string, password: string): (r: Result<Option<bool>>)
    ensures email == "" || password == "" ==> r == Err(400, "email & password required")
    ensures r.Err? && email != "" && password != "" ==> r == Err(401, "Invalid email or password")
    ensures r.Ok? <==>
              (&& email != "" && password != ""
               && ByEmail(accounts, email).Some?
               && Users.Compare(password, accounts[ByEmail(accounts, email).value].passwordHash))
    ensures r.Ok? ==> r.value == accounts[ByEmail(accounts, email).value].creator
  {
    if email == "" || password == "" then Err(400, "email & password required")
    else
      match ByEmail(accounts, email)
      case None => Err(401, "Invalid email or password")
      case Some(k) =>
        if !Users.Compare(password, accounts[k].passwordHash) then Err(401, "Invalid email or password")
        else Ok(accounts[k].creator)
  }

  /** No two accounts share an address or a username. */
  predicate Unique(accounts: seq<Account>) {
    forall i, j :: 0 <= i < j < |accounts| ==>
      accounts[i].email != accounts[j].email && accounts[i].username != accounts[j].username
  }

  /** Sign-up keeps addresses and usernames unique. */
  lemma SignupKeepsUnique(accounts: seq<Account>, username: string, email: string, password: string,
                          creator: Option<bool>)
    requires Unique(accounts)
    ensures Unique(Signup(accounts, username, email, password, creator).accounts)
  {
  }

  /** A new account logs in with its password, and gets back the creator flag
      it signed up with; any other password is refused. */
  lemma SignupThenLogin(accounts: seq<Account>, username: string, email: string, password: string,
                        creator: Option<bool>, attempt: string)
    requires Signup(accounts, username, email, password, creator).result.Ok?
    ensures var r := Signup(accounts, username, email, password, creator);
            && Login(r.accounts, email, password) == Ok(creator)
            && (attempt != password ==> Login(r.accounts, email, attempt).Err?)
  {
    var r := Signup(accounts, username, email, password, creator);
    var a := Account(username, email, Users.Digest(Users.Plain(password)), creator);
    FindFirstAppend(accounts, a, (x: Account) => x.email == email);
  }
}

=== FILE: question_service.dfy ===
/** backend/services/question_service.py: the question bank, a collection of
    `assessments` documents keyed by test name, each holding a list of
    questions. */
module QuestionService {
  import opened Common
  import Text

  datatype BankQuestion = BankQuestion(text: string, testcases: seq<string>, output: string)

  datatype Bank = Bank(tests: map<string, seq<BankQuestion>>, result: Result<string>)

  /** Python's `str.strip()`. */
  function Strip(s: string): string {
    Text.Trim(s, Text.IsPySpace)
  }

  /** `create_test`: the name is stripped and must not be empty (400); a new
      name gets an empty question list; a name already in use fails the
      insert, and the exception surfaces as a 500. */
  function CreateTest(tests: map<string, seq<BankQuestion>>, testname: string): (r: Bank)
    ensures r.result.Err? ==> r.tests == tests
    ensures Strip(testname) == "" ==> r.result == Err(400, "testname is required")
    ensures r.result.Ok? ==>
              && r.result.value == Strip(testname) != ""
              && Strip(testname) !in tests
              && r.tests == tests[Strip(testname) := []]
    ensures Strip(testname) != "" && Strip(testname) !in tests ==> r.result.Ok?
  {
    var name := Strip(testname);
    if name == "" then Bank(tests, Err(400, "testname is required"))
    else if name in tests then Bank(tests, Err(500, "Internal Server Error"))
    else Bank(tests[name := []], Ok(name))
  }

  /** `create_question`: a name that strips to nothing or an empty question
      text gives 400; otherwise the question is pushed onto the end of the
      named test's list. A name with no test matches nothing, changes
      nothing, and still answers 201. */
  function CreateQuestion(tests: map<string, seq<BankQuestion>>, testname: string, question: string,
                          testcases: seq<string>, output: string): (r: Bank)
    ensures r.result.Err? <==> Strip(testname) == "" || question == ""
    ensures r.result.Err? ==> r == Bank(tests, Err(400, "testname and question are required"))
    ensures r.result.Ok? ==> r.result.value == Strip(testname) && r.tests.Keys == tests.Keys
    ensures r.result.Ok? && Strip(testname) in tests ==>
              r.tests[Strip(testname)] == tests[Strip(testname)] + [BankQuestion(question, testcases, output)]
    ensures forall name :: name in tests && name != Strip(testname) ==> r.tests[name] == tests[name]
    ensures Strip(testname) !in tests ==> r.tests == tests
  {
    var name := Strip(testname);
    if name == "" || question == "" then Bank(tests, Err(400, "testname and question are required"))
    else if name in tests then Bank(tests[name := tests[name] + [BankQuestion(question, testcases, output)]], Ok(name))
    else Bank(tests, Ok(name))
  }

  /** `get_test_questions`: the named test's questions, or 404. The name is
      taken as given, without stripping. */
  function GetTestQuestions(tests: map<string, seq<BankQuestion>>, testname: string): (r: Result<seq<BankQuestion>>)
    ensures r.Ok? <==> testname in tests
    ensures r.Ok? ==> r.value == tests[testname]
    ensures r.Err? ==> r == Err(404, "Test not found")
  {
    if testname in tests then Ok(tests[testname]) else Err(404, "Test not found")
  }

  /** Creating a test and adding a question to it leaves exactly that one
      question under the stripped name. */
  lemma CreateThenAddThenGet(tests: map<string, seq<BankQuestion>>, testname: string, question: string,
                             testcases: seq<string>, output: string)
    requires Strip(testname) != "" && Strip(testname) !in tests && question != ""
    ensures var t1 := CreateTest(tests, testname).tests;
            var t2 := CreateQuestion(t1, testname, question, testcases, output).tests;
            GetTestQuestions(t2, Strip(testname)) == Ok([BankQuestion(question, testcases, output)])
  {
    var q := BankQuestion(question, testcases, output);
    assert [] + [q] == [q];
  }

  /** Adding questions one after another keeps them in the order added. */
  lemma QuestionsKeepOrder(tests: map<string, seq<BankQuestion>>, testname: string, q1: string, q2: string)
    requires Strip(testname) != "" && Strip(testname) in tests && q1 != "" && q2 != ""
    ensures var t1 := CreateQuestion(tests, testname, q1, [], "").tests;
            var t2 := CreateQuestion(t1, testname, q2, [], "").tests;
            t2[Strip(testname)] == tests[Strip(testname)] + [BankQuestion(q1, [], ""), BankQuestion(q2, [], "")]
  {
    var a := tests[Strip(testname)];
    assert (a + [BankQuestion(q1, [], "")]) + [BankQuestion(q2, [], "")]
        == a + [BankQuestion(q1, [], ""), BankQuestion(q2, [], "")];
  }
}

=== FILE: routes.dfy ===
/** The two route tables, frontend/server/routes/tests.js (mounted at
    /api/tests) and frontend/server/routes/submissions.js (mounted at
    /api/submissions), behind the API router of
    frontend/server/routes/index.js, whose catch-all answers whatever they
    leave unmatched. A path is the list of its segments
    after the mount point; a `:param` segment matches any non-empty text. The
    outcome of `protect` is an input: the caller's role, or the 401 it gave. */
module Routes {
  import opened Common
  import Auth
  import Text
  import ErrorHandler

  datatype Verb = Get | Post | Put | Delete

  datatype Mount = TestsMount | SubmissionsMount

  datatype Endpoint =
    | GetTestByCode | GetTests | CreateTest | GetTest | UpdateTest | DeleteTest | PublishTest
    | GetTestAnalytics | GetTestSubmissions
    | StartTest | SaveAnswer | ReportViolation | SubmitTest | GetSubmission | ReviewSubmission

  /** What a route asks of the caller before its handler runs. */
  datatype Guard = Public | Authenticated | RolesOnly(roles: set<Role>)

  const Staff: set<Role> := {Recruiter, Admin}

  /** A path segment matches a fixed, lower-case segment of a pattern. */
  predicate Fixed(segment: string, literal: string) {
    Text.Lower(segment) == literal
  }

  /** The handler Express picks: the first registration whose verb and
      pattern match, in the order the router file lists them. Routers are
      not case-sensitive, so a fixed segment matches in any letter case. */
  function Route(mount: Mount, verb: Verb, path: seq<string>): (r: Option<Endpoint>)
    ensures r.Some? ==> MountOf(r.value) == mount
  {
    match mount
    case TestsMount =>
      if verb == Get && |path| == 2 && Fixed(path[0], "code") && path[1] != "" then Some(GetTestByCode)
      else if verb == Get && |path| == 0 then Some(GetTests)
      else if verb == Post && |path| == 0 then Some(CreateTest)
      else if verb == Get && |path| == 1 && path[0] != "" then Some(GetTest)
      else if verb == Put && |path| == 1 && path[0] != "" then Some(UpdateTest)
      else if verb == Delete && |path| == 1 && path[0] != "" then Some(DeleteTest)
      else if verb == Put && |path| == 2 && path[0] != "" && Fixed(path[1], "publish") then Some(PublishTest)
      else if verb == Get && |path| == 2 && path[0] != "" && Fixed(path[1], "analytics") then Some(GetTestAnalytics)
      else if verb == Get && |path| == 2 && path[0] != "" && Fixed(path[1], "submissions") then Some(GetTestSubmissions)
      else None
    case SubmissionsMount =>
      if verb == Post && |path| == 1 && Fixed(path[0], "start") then Some(StartTest)
      else if verb == Put && |path| == 2 && path[0] != "" && Fixed(path[1], "answer") then Some(SaveAnswer)
      else if verb == Post && |path| == 2 && path[0] != "" && Fixed(path[1], "violation") then Some(ReportViolation)
      else if verb == Post && |path| == 2 && path[0] != "" && Fixed(path[1], "submit") then Some(SubmitTest)
      else if verb == Get && |path| == 1 && path[0] != "" then Some(GetSubmission)
      else if verb == Put && |path| == 2 && path[0] != "" && Fixed(path[1], "review") then Some(ReviewSubmission)
      else None
  }

  function MountOf(e: Endpoint): Mount {
    match e
    case StartTest | SaveAnswer | ReportViolation | SubmitTest | GetSubmission | ReviewSubmission =>
      SubmissionsMount
    case _ => TestsMount
  }

  /** The middleware in front of each handler: only the access-code lookup is
      registered before `router.use(protect)`. */
  function GuardOf(e: Endpoint): Guard {
    match e
    case GetTestByCode => Public
    case GetTest | GetSubmission => Authenticated
    case StartTest | SaveAnswer | ReportViolation | SubmitTest => RolesOnly({Student})
    case _ => RolesOnly(Staff)
  }

  /** A request through its router: a public route runs at once; anything
      else (unmatched paths included) first passes `protect`, whose refusal
      is final; an unmatched path then falls through to the API router's
      catch-all 404; a role guard is `authorize`. */
  function Handle(mount: Mount, verb: Verb, path: seq<string>, caller: Result<Role>): (r: Result<Endpoint>)
    ensures r.Ok? ==> Route(mount, verb, path) == Some(r.value)
    ensures Route(mount, verb, path).None? ==>
              r == if caller.Err? then Err(caller.status, caller.message) else Err(404, "API endpoint not found")
  {
    var route := Route(mount, verb, path);
    if route.Some? && GuardOf(route.value) == Public then Ok(route.value)
    else if caller.Err? then Err(caller.status, caller.message)
    else if route.None? then Err(404, "API endpoint not found")
    else
      var guard := GuardOf(route.value);
      if guard.RolesOnly? then
        var a := Auth.Authorize(Some(caller.value), guard.roles);
        if a.Err? then Err(a.status, a.message) else Ok(route.value)
      else Ok(route.value)
  }

  /** No request under the two mounts reaches the server's own 404 handler:
      whatever `protect` refuses is a 401, and every path it lets through
      either runs a handler, is refused by `authorize`, or gets the API
      router's "API endpoint not found". */
  lemma ServerNotFoundIsUnreachable(mount: Mount, verb: Verb, path: seq<string>, caller: Result<Role>)
    requires caller.Err? ==> caller.status == 401
    ensures Handle(mount, verb, path, caller) != Err(ErrorHandler.NotFound().status, ErrorHandler.NotFound().message)
  {
  }

  /** Without a valid login only the access-code lookup is reachable, and an
      unknown path answers with protect's refusal rather than 404. */
  lemma OnlyCodeLookupIsPublic(mount: Mount, verb: Verb, path: seq<string>, status: int, message: string)
    ensures Handle(mount, verb, path, Err(status, message)).Ok? ==>
              Handle(mount, verb, path, Err(status, message)) == Ok(GetTestByCode)
    ensures Route(mount, verb, path) != Some(GetTestByCode) ==>
              Handle(mount, verb, path, Err(status, message)) == Err(status, message)
  {
  }

  /** The handler runs for a logged-in caller exactly when the route exists
      and the caller's role is one its guard admits; the student routes admit
      only students and the management routes only recruiters and admins. */
  lemma HandlerRunsIff(mount: Mount, verb: Verb, path: seq<string>, role: Role, e: Endpoint)
    ensures Handle(mount, verb, path, Ok(role)) == Ok(e) <==>
              (&& Route(mount, verb, path) == Some(e)
               && (GuardOf(e).RolesOnly? ==> role in GuardOf(e).roles))
    ensures Handle(mount, verb, path, Ok(role)) == Ok(e) && e in {StartTest, SaveAnswer, ReportViolation, SubmitTest}
            ==> role == Student
    ensures Handle(mount, verb, path, Ok(role)) == Ok(e) && e in {GetTests, CreateTest, UpdateTest, DeleteTest,
              PublishTest, GetTestAnalytics, GetTestSubmissions, ReviewSubmission}
            ==> role in Staff
  {
  }

  /** A role the guard refuses gets 403 from `authorize`; a logged-in caller on
      an unknown path gets 404. */
  lemma RefusalStatuses(mount: Mount, verb: Verb, path: seq<string>, role: Role)
    ensures var r := Handle(mount, verb, path, Ok(role));
            r.Err? ==> (r.status == 403 <==> Route(mount, verb, path).Some?)
    ensures var r := Handle(mount, verb, path, Ok(role));
            r.Err? ==> (r.status == 404 <==> Route(mount, verb, path).None?)
  {
  }

  datatype Request = Request(verb: Verb, path: seq<string>)

  /** A request that reaches each endpoint. */
  function PathTo(e: Endpoint, id: string): Request
  {
    match e
    case GetTestByCode => Request(Get, ["code", id])
    case GetTests => Request(Get, [])
    case CreateTest => Request(Post, [])
    case GetTest => Request(Get, [id])
    case UpdateTest => Request(Put, [id])
    case DeleteTest => Request(Delete, [id])
    case PublishTest => Request(Put, [id, "publish"])
    case GetTestAnalytics => Request(Get, [id, "analytics"])
    case GetTestSubmissions => Request(Get, [id, "submissions"])
    case StartTest => Request(Post, ["start"])
    case SaveAnswer => Request(Put, [id, "answer"])
    case ReportViolation => Request(Post, [id, "violation"])
    case SubmitTest => Request(Post, [id, "submit"])
    case GetSubmission => Request(Get, [id])
    case ReviewSubmission => Request(Put, [id, "review"])
  }

  /** No registration is shadowed by an earlier one: for every id that is not
      itself a fixed segment, each endpoint is reached by its own path. */
  lemma EveryEndpointIsReachable(e: Endpoint, id: string)
    requires id != "" && !Fixed(id, "code") && !Fixed(id, "start")
    ensures Route(MountOf(e), PathTo(e, id).verb, PathTo(e, id).path) == Some(e)
  {
    LowerCaseFixed("code");
    LowerCaseFixed("start");
    LowerCaseFixed("publish");
    LowerCaseFixed("analytics");
    LowerCaseFixed("submissions");
    LowerCaseFixed("answer");
    LowerCaseFixed("violation");
    LowerCaseFixed("submit");
    LowerCaseFixed("review");
  }

  /** A segment written in lower case matches itself. */
  lemma LowerCaseFixed(literal: string)
    requires forall i :: 0 <= i < |literal| ==> !('A' <= literal[i] <= 'Z')
    ensures Fixed(literal, literal)
  {
    assert Text.Lower(literal) == literal;
  }

  /** The access-code pattern shadows nothing but is itself partly shadowed:
      `GET /api/tests/code` with no code is a request for the test with id
      "code", and `GET /api/submissions/start` one for the submission with
      id "start". */
  lemma FixedSegmentsAsIds()
    ensures Route(TestsMount, Get, ["code"]) == Some(GetTest)
    ensures Route(SubmissionsMount, Get, ["start"]) == Some(GetSubmission)
  {
  }

  /** Every segment lower-cased. */
  function LowerPath(path: seq<string>): (r: seq<string>)
    ensures |r| == |path| && forall i :: 0 <= i < |path| ==> r[i] == Text.Lower(path[i])
  {
    seq(|path|, i requires 0 <= i < |path| => Text.Lower(path[i]))
  }

  /** Letter case in the path never changes which handler is picked. */
  lemma RouteIgnoresCase(mount: Mount, verb: Verb, path: seq<string>)
    ensures Route(mount, verb, path) == Route(mount, verb, LowerPath(path))
  {
    var lp := LowerPath(path);
    forall i | 0 <= i < |path|
      ensures Text.Lower(lp[i]) == Text.Lower(path[i]) && (lp[i] == "" <==> path[i] == "")
    {
      Text.LowerIdempotent(path[i]);
    }
  }

  /** For instance `POST /api/submissions/START` starts a test. */
  lemma UpperCaseStartStarts()
    ensures Route(SubmissionsMount, Post, ["START"]) == Some(StartTest)
  {
    assert Text.Lower("START") == "start";
  }
}

=== FILE: submission_controller.dfy ===
/** The request handlers of frontend/server/controllers/submissionController.js
    as pure functions over the database: starting or resuming an attempt,
    auto-saving an answer, reporting a proctoring violation, submitting with
    simulated grading, viewing, listing and reviewing. Time is a parameter;
    the random numbers of the simulated grading are passed in as draws. */
module SubmissionController {
  import opened Common
  import Tests
  import opened Submissions
  import opened Database

  // ---------------------------------------------------------------------------
  // startTest

  /** The test a start request names: by id when one is given, otherwise by a
      non-empty access code, otherwise none. */
  function LocateTest(db: Db, testId: Option<Id>, accessCode: Option<string>): (r: Option<Id>)
    ensures testId.Some? ==> (r.Some? <==> testId.value < |db.tests|) && (r.Some? ==> r.value == testId.value)
    ensures testId.None? && (accessCode.None? || accessCode.value == "") ==> r.None?
    ensures testId.None? && accessCode.Some? && accessCode.value != "" ==> r == TestByCode(db, accessCode.value)
    ensures r.Some? ==> r.value < |db.tests|
  {
    if testId.Some? then
      (if testId.value < |db.tests| then testId else None)
    else if accessCode.Some? && accessCode.value != "" then
      TestByCode(db, accessCode.value)
    else
      None
  }

  /** The prior attempts the retake check sees: only in-progress and completed
      submissions by the same student for the same test. Flagged,
      disqualified and reviewed attempts are invisible to it. */
  predicate CountsAsAttempt(s: Submission, test: Id, student: Id) {
    s.test == test && s.student == student && (s.status == InProgress || s.status == Completed)
  }

  function PriorAttempt(db: Db, test: Id, student: Id): (r: Option<Id>)
    ensures r.Some? ==> r.value < |db.submissions| && CountsAsAttempt(db.submissions[r.value], test, student)
    ensures r.None? ==> forall i :: 0 <= i < |db.submissions| ==> !CountsAsAttempt(db.submissions[i], test, student)
  {
    FindFirst(db.submissions, (s: Submission) => CountsAsAttempt(s, test, student))
  }

  datatype Started = Started(db: Db, submission: Id, created: bool)

  /** The submission a successful start creates: a new attempt with one blank
      answer per question, saved, with a `start` entry logged and saved again. */
  function FreshAttempt(t: Tests.Test, test: Id, student: Id, attempt: int, now: int): Submission {
    Recompute(LogActivity(Recompute(NewSubmission(t, test, student, attempt, now)), Start, now))
  }

  /** `startTest`. An unknown test is 404 and an inaccessible one 403. An
      in-progress attempt of the student is resumed unchanged. A completed
      prior attempt whose number has reached the test's maximum is 403.
      Otherwise one new submission is appended, numbered one past the prior
      attempt, or 1 when the retake check sees none. */
  function StartTest(db: Db, student: Id, testId: Option<Id>, accessCode: Option<string>, now: int): (r: Result<Started>)
    ensures LocateTest(db, testId, accessCode).None? <==> r == Err(404, "Test not found")
    ensures (LocateTest(db, testId, accessCode).Some?
             && !Tests.IsAccessible(db.tests[LocateTest(db, testId, accessCode).value], now))
            <==> r == Err(403, "Test is not currently available")
    ensures r.Ok? && !r.value.created ==>
              r.value.db == db && r.value.submission < |db.submissions|
              && db.submissions[r.value.submission].status == InProgress
              && db.submissions[r.value.submission].student == student
    ensures r.Ok? && r.value.created ==>
              var tid := LocateTest(db, testId, accessCode).value;
              var prior := PriorAttempt(db, tid, student);
              && r.value.db.tests == db.tests
              && r.value.submission == |db.submissions|
              && |r.value.db.submissions| == |db.submissions| + 1
              && r.value.db.submissions[..|db.submissions|] == db.submissions
              && r.value.db.submissions[r.value.submission]
                 == FreshAttempt(db.tests[tid], tid, student,
                                 if prior.Some? then db.submissions[prior.value].attemptNumber + 1 else 1, now)
    ensures var found := LocateTest(db, testId, accessCode);
            found.Some? && Tests.IsAccessible(db.tests[found.value], now) ==>
              var p := PriorAttempt(db, found.value, student);
              && (p.Some? && db.submissions[p.value].status == InProgress ==> r == Ok(Started(db, p.value, false)))
              && ((&& p.Some? && db.submissions[p.value].status != InProgress
                   && db.submissions[p.value].attemptNumber >= db.tests[found.value].maxAttempts)
                  <==> r == Err(403, "Maximum attempts reached for this test"))
              && ((r.Ok? && r.value.created) <==>
                  (|| p.None?
                   || (&& db.submissions[p.value].status != InProgress
                       && db.submissions[p.value].attemptNumber < db.tests[found.value].maxAttempts)))
    ensures r.Err? ==> r.status in {403, 404}
  {
    var found := LocateTest(db, testId, accessCode);
    if found.None? then Err(404, "Test not found")
    else
      var tid := found.value;
      var t := db.tests[tid];
      if !Tests.IsAccessible(t, now) then Err(403, "Test is not currently available")
      else
        var prior := PriorAttempt(db, tid, student);
        if prior.Some? && db.submissions[prior.value].status == InProgress then
          Ok(Started(db, prior.value, false))
        else if prior.Some? && db.submissions[prior.value].attemptNumber >= t.maxAttempts then
          Err(403, "Maximum attempts reached for this test")
        else
          var attempt := if prior.Some? then db.submissions[prior.value].attemptNumber + 1 else 1;
          var s := FreshAttempt(t, tid, student, attempt, now);
          Ok(Started(db.(submissions := db.submissions + [s]), |db.submissions|, true))
  }

  /** The attempt a start creates is in progress, belongs to the student and
      the test, logs exactly one `start` entry, has one blank answer per
      question and the test's total maximum score. */
  lemma FreshAttemptShape(t: Tests.Test, test: Id, student: Id, attempt: int, now: int)
    ensures var s := FreshAttempt(t, test, student, attempt, now);
            && s.status == InProgress && s.test == test && s.student == student
            && s.attemptNumber == attempt && s.activityLog == [Activity(Start, now)]
            && s.answers == AnswersFor(t.questions)
            && s.maxTotalScore == Tests.TotalMaxScore(t) == SumBy(s.answers, MaxScoreOf)
            && s.totalScore == 0 && s.violations == []
  {
    var s0 := NewSubmission(t, test, student, attempt, now);
    NewSubmissionIsStable(t, test, student, attempt, now);
    assert LogActivity(s0, Start, now).activityLog == [Activity(Start, now)];
  }

  /** Starting the same test again right after a first attempt was created
      resumes that attempt and changes nothing. */
  lemma StartThenResume(db: Db, student: Id, testId: Option<Id>, accessCode: Option<string>, now: int, later: int)
    requires StartTest(db, student, testId, accessCode, now).Ok?
    requires StartTest(db, student, testId, accessCode, now).value.created
    requires PriorAttempt(db, LocateTest(db, testId, accessCode).value, student).None?
    requires Tests.IsAccessible(db.tests[LocateTest(db, testId, accessCode).value], later)
    ensures var st := StartTest(db, student, testId, accessCode, now).value;
            StartTest(st.db, student, testId, accessCode, later) == Ok(Started(st.db, st.submission, false))
  {
    var st := StartTest(db, student, testId, accessCode, now).value;
    var tid := LocateTest(db, testId, accessCode).value;
    var s := st.db.submissions[st.submission];
    FreshAttemptShape(db.tests[tid], tid, student, 1, now);
    assert st.db.submissions == db.submissions + [s];
    FindFirstAppend(db.submissions, s, (x: Submission) => CountsAsAttempt(x, tid, student));
    assert st.db.tests == db.tests;
    if testId.None? {
      assert TestByCode(st.db, accessCode.value) == TestByCode(db, accessCode.value);
    }
  }

  /** A flagged attempt is not seen by the retake check: a student whose only
      attempt at a test was flagged starts over with attempt number 1, even
      when the test allows a single attempt. */
  lemma FlaggedAttemptIsNotCounted(db: Db, student: Id, tid: Id, now: int)
    requires tid < |db.tests| && Tests.IsAccessible(db.tests[tid], now)
    requires forall i :: 0 <= i < |db.submissions| && db.submissions[i].test == tid && db.submissions[i].student == student
               ==> db.submissions[i].status == Flagged
    ensures var r := StartTest(db, student, Some(tid), None, now);
            r.Ok? && r.value.created && r.value.db.submissions[r.value.submission].attemptNumber == 1
  {
    FreshAttemptShape(db.tests[tid], tid, student, 1, now);
  }

  /** The retake check reads the first matching attempt in insertion order.
      While the first completed attempt is below the maximum, every start
      that does not find an in-progress attempt first creates another attempt
      with the same number, so starting twice creates two submissions. */
  lemma RepeatedStartCreatesTwice(db: Db, student: Id, tid: Id, now: int, later: int)
    requires tid < |db.tests|
    requires Tests.IsAccessible(db.tests[tid], now) && Tests.IsAccessible(db.tests[tid], later)
    requires PriorAttempt(db, tid, student).Some?
    requires db.submissions[PriorAttempt(db, tid, student).value].status == Completed
    requires db.submissions[PriorAttempt(db, tid, student).value].attemptNumber < db.tests[tid].maxAttempts
    ensures var first := StartTest(db, student, Some(tid), None, now);
            && first.Ok? && first.value.created
            && var second := StartTest(first.value.db, student, Some(tid), None, later);
            && second.Ok? && second.value.created
            && |second.value.db.submissions| == |db.submissions| + 2
            && second.value.db.submissions[|db.submissions|].attemptNumber
               == second.value.db.submissions[|db.submissions| + 1].attemptNumber
  {
    var p := PriorAttempt(db, tid, student);
    var first := StartTest(db, student, Some(tid), None, now);
    var s := first.value.db.submissions[|db.submissions|];
    assert first.value.db.submissions == db.submissions + [s];
    FindFirstAppend(db.submissions, s, (x: Submission) => CountsAsAttempt(x, tid, student));
    assert PriorAttempt(first.value.db, tid, student) == p;
  }

  // ---------------------------------------------------------------------------
  // saveAnswer

  /** `saveAnswer`. In this order: an unknown submission is 404, another
      student's submission 403, one no longer in progress 400, and a question
      the submission has no answer for 404. Otherwise only the first answer
      for the question changes: its code, its language (`language ||
      'typescript'`), its last-attempt time, and its first-attempt time if it
      had none. The submission is then saved; a language the schema's enum
      does not list fails validation there (500) and nothing changes. The
      language is the raw text of the body. */
  function SaveAnswer(db: Db, user: Id, sid: Id, questionId: Id, code: string, language: Option<string>, now: int)
    : (r: Result<Db>)
    ensures sid >= |db.submissions| <==> r == Err(404, "Submission not found")
    ensures sid < |db.submissions| && db.submissions[sid].student != user <==> r == Err(403, "Not authorized")
    ensures (sid < |db.submissions| && db.submissions[sid].student == user && db.submissions[sid].status != InProgress)
            <==> r == Err(400, "Submission already completed")
    ensures (&& sid < |db.submissions| && db.submissions[sid].student == user
             && db.submissions[sid].status == InProgress && AnswerIndex(db.submissions[sid], questionId).None?)
            <==> r == Err(404, "Question not found in submission")
    ensures (&& sid < |db.submissions| && db.submissions[sid].student == user
             && db.submissions[sid].status == InProgress && AnswerIndex(db.submissions[sid], questionId).Some?
             && LanguageNamed(OrDefault(language, "typescript")).None?)
            <==> r == Err(500, "Error saving answer")
    ensures r.Ok? <==> sid < |db.submissions| && db.submissions[sid].student == user
                       && db.submissions[sid].status == InProgress
                       && (exists k :: 0 <= k < |db.submissions[sid].answers| && db.submissions[sid].answers[k].question == questionId)
                       && LanguageNamed(OrDefault(language, "typescript")).Some?
    ensures r.Ok? ==>
              var s := db.submissions[sid];
              var k := AnswerIndex(s, questionId).value;
              var a := s.answers[k];
              && r.value.tests == db.tests
              && |r.value.submissions| == |db.submissions|
              && (forall j :: 0 <= j < |db.submissions| && j != sid ==> r.value.submissions[j] == db.submissions[j])
              && var s' := r.value.submissions[sid];
              && |s'.answers| == |s.answers|
              && (forall j :: 0 <= j < |s.answers| && j != k ==> s'.answers[j] == s.answers[j])
              && s'.answers[k] == a.(code := code, language := LanguageNamed(OrDefault(language, "typescript")).value,
                                     lastAttempt := Some(now),
                                     firstAttempt := if a.firstAttempt.Some? then a.firstAttempt else Some(now))
              && s'.totalScore == SumBy(s.answers, ScoreOf)
              && s'.status == s.status && s'.violations == s.violations
  {
    if sid >= |db.submissions| then Err(404, "Submission not found")
    else
      var s := db.submissions[sid];
      if s.student != user then Err(403, "Not authorized")
      else if s.status != InProgress then Err(400, "Submission already completed")
      else
        var found := AnswerIndex(s, questionId);
        if found.None? then Err(404, "Question not found in submission")
        else
          var lang := LanguageNamed(OrDefault(language, "typescript"));
          if lang.None? then Err(500, "Error saving answer")
          else
            var k := found.value;
            var a := s.answers[k];
            var a' := a.(code := code, language := lang.value, lastAttempt := Some(now),
                         firstAttempt := if a.firstAttempt.Some? then a.firstAttempt else Some(now));
            SumByUpdate(s.answers, k, a', ScoreOf);
            Ok(db.(submissions := db.submissions[sid := Recompute(s.(answers := s.answers[k := a']))]))
  }

  function AnswerIndex(s: Submission, questionId: Id): (r: Option<nat>)
    ensures r.Some? ==> r.value < |s.answers| && s.answers[r.value].question == questionId
    ensures r.None? ==> forall k :: 0 <= k < |s.answers| ==> s.answers[k].question != questionId
  {
    FindFirst(s.answers, (a: Answer) => a.question == questionId)
  }

  /** What was saved is what is read back: after a successful save the
      question's answer holds the code and language just sent. */
  lemma SaveAnswerRoundTrip(db: Db, user: Id, sid: Id, questionId: Id, code: string, language: Language, now: int)
    requires SaveAnswer(db, user, sid, questionId, code, Some(LanguageName(language)), now).Ok?
    ensures var db' := SaveAnswer(db, user, sid, questionId, code, Some(LanguageName(language)), now).value;
            var k := AnswerIndex(db'.submissions[sid], questionId);
            && k.Some?
            && db'.submissions[sid].answers[k.value].code == code
            && db'.submissions[sid].answers[k.value].language == language
  {
    var s := db.submissions[sid];
    var k := AnswerIndex(s, questionId).value;
    var s' := SaveAnswer(db, user, sid, questionId, code, Some(LanguageName(language)), now).value.submissions[sid];
    FindFirstUnique(s'.answers, (a: Answer) => a.question == questionId, k);
  }

  // ---------------------------------------------------------------------------
  // reportViolation

  datatype Reported = Reported(db: Db, violationCount: int)

  /** `reportViolation`. Only an unknown submission is refused (404): there is
      no check of who reports nor of the submission's status. The violation
      (`severity || 'medium'`) is added and the submission saved; a report
      whose type is missing or not in the schema's enum, whose description is
      missing or empty, or whose severity is not in the enum fails validation
      there (500) and changes nothing. Type and severity are the raw text of
      the body. On success the answer carries the new violation count. */
  function ReportViolation(db: Db, user: Id, sid: Id, kind: Option<string>, description: Option<string>,
                           severity: Option<string>, screenshot: Option<string>, now: int)
    : (r: Result<Reported>)
    ensures sid >= |db.submissions| <==> r == Err(404, "Submission not found")
    ensures r.Ok? <==> && sid < |db.submissions| && ReportedKind(kind).Some?
                       && description.Some? && description.value != ""
                       && SeverityNamed(OrDefault(severity, "medium")).Some?
    ensures r.Err? && sid < |db.submissions| ==> r == Err(500, "Error reporting violation")
    ensures r.Ok? ==>
              var s := db.submissions[sid];
              var v := Violation(ReportedKind(kind).value, description.value, now,
                                 SeverityNamed(OrDefault(severity, "medium")).value, screenshot);
              && r.value.db.tests == db.tests
              && r.value.db.submissions == db.submissions[sid := Recompute(AddViolation(s, v, now))]
              && r.value.violationCount == |s.violations| + 1
  {
    if sid >= |db.submissions| then Err(404, "Submission not found")
    else
      var k := ReportedKind(kind);
      var sev := SeverityNamed(OrDefault(severity, "medium"));
      if k.None? || description.None? || description.value == "" || sev.None? then
        Err(500, "Error reporting violation")
      else
        var s := db.submissions[sid];
        var v := Violation(k.value, description.value, now, sev.value, screenshot);
        var s' := Recompute(AddViolation(s, v, now));
        Ok(Reported(db.(submissions := db.submissions[sid := s']), s'.violationCount))
  }

  /** The violation type a report names: absent (the required check fails)
      or text outside the enum give None. */
  function ReportedKind(kind: Option<string>): (r: Option<ViolationType>)
    ensures r.Some? <==> kind.Some? && ViolationTypeNamed(kind.value).Some?
    ensures r.Some? ==> ViolationTypeName(r.value) == kind.value
  {
    if kind.None? then None else ViolationTypeNamed(kind.value)
  }

  /** Who reports a violation makes no difference to the outcome. */
  lemma ReportViolationIgnoresReporter(db: Db, u1: Id, u2: Id, sid: Id, kind: Option<string>,
                                       description: Option<string>, severity: Option<string>,
                                       screenshot: Option<string>, now: int)
    ensures ReportViolation(db, u1, sid, kind, description, severity, screenshot, now)
         == ReportViolation(db, u2, sid, kind, description, severity, screenshot, now)
  {
  }

  /** A third high-severity report against a completed submission flags it. */
  lemma ReportFlagsCompletedSubmission(db: Db, user: Id, sid: Id, description: string, now: int)
    requires sid < |db.submissions| && description != ""
    requires db.submissions[sid].status == Completed
    requires HighSeverityCount(db.submissions[sid].violations) == 2
    ensures var r := ReportViolation(db, user, sid, Some("tab_switch"), Some(description), Some("high"), None, now);
            r.Ok? && r.value.db.submissions[sid].status == Flagged
  {
  }

  // ---------------------------------------------------------------------------
  // submitTest

  /** A number drawn from [0, 1), as `Math.random()` returns. */
  type Unit = r: real | 0.0 <= r < 1.0

  /** The two draws that grade one answer: passed test cases and similarity. */
  datatype Draw = Draw(passed: Unit, similarity: Unit)

  /** A draw from [0, 1) scales a positive bound to something below it. */
  lemma BelowOneScales(d: Unit, m: real)
    requires m > 0.0
    ensures 0.0 <= d * m < m
  {
    assert m - d * m == (1.0 - d) * m;
    assert (1.0 - d) * m > 0.0;
  }

  /** `Math.floor(Math.random() * (n + 1))`: between 0 and n passed cases. */
  function PassedCount(d: Unit, n: nat): (k: nat)
    ensures k <= n
  {
    var x := d * ((n + 1) as real);
    BelowOneScales(d, (n + 1) as real);
    x.Floor
  }

  /** `Math.floor(Math.random() * 60)`: a similarity below 60. */
  function SimilarityDraw(d: Unit): (s: nat)
    ensures s < 60
  {
    var x := d * 60.0;
    BelowOneScales(d, 60.0);
    x.Floor
  }

  predicate IsPassed(t: TestResult) {
    t.passed
  }

  function ResultsFor(cases: seq<Tests.TestCase>, k: nat): (rs: seq<TestResult>)
    ensures |rs| == |cases|
    ensures forall i :: 0 <= i < |cases| ==> rs[i].testCase == i && (rs[i].passed <==> i < k)
  {
    seq(|cases|, i requires 0 <= i < |cases| =>
      TestResult(i, i < k, if i < k then cases[i].expectedOutput else "undefined"))
  }

  /** When exactly the first k results pass, k of them pass. */
  lemma {:induction false} PrefixPassCount(rs: seq<TestResult>, k: nat)
    requires k <= |rs|
    requires forall i :: 0 <= i < |rs| ==> (rs[i].passed <==> i < k)
    ensures CountIf(rs, IsPassed) == k
  {
    if |rs| > 0 {
      var init := rs[..|rs| - 1];
      if k == |rs| {
        PrefixPassCount(init, k - 1);
      } else {
        PrefixPassCount(init, k);
      }
    }
  }

  /** Simulated grading of one answer against its question: a prefix of the
      test cases passes, the score is the rounded share of the maximum that
      the passed cases earn, and a similarity below 60 is recorded. Nothing
      else on the answer changes. A question without test cases makes the
      share 0/0, a NaN score that Mongoose's number cast refuses: None. */
  function GradeAnswer(a: Answer, q: Tests.Question, d: Draw): (r: Option<Answer>)
    ensures r.None? <==> |q.testCases| == 0
    ensures r.Some? ==> |r.value.testResults| == |q.testCases|
    ensures r.Some? ==> forall i, j :: 0 <= i < j < |r.value.testResults| && r.value.testResults[j].passed
                                       ==> r.value.testResults[i].passed
    ensures r.Some? ==> var n := |q.testCases|;
                        2 * n * r.value.score <= 2 * a.maxScore * CountIf(r.value.testResults, IsPassed) + n
                                              < 2 * n * r.value.score + 2 * n
    ensures r.Some? && a.maxScore >= 0 ==> 0 <= r.value.score <= a.maxScore
    ensures r.Some? ==> 0 <= r.value.aiSimilarity < 60
    ensures r.Some? ==> r.value.(score := a.score, testResults := a.testResults, aiSimilarity := a.aiSimilarity) == a
  {
    var n := |q.testCases|;
    if n == 0 then None
    else
      var k := PassedCount(d.passed, n);
      var rs := ResultsFor(q.testCases, k);
      PrefixPassCount(rs, k);
      var score := RoundDiv(a.maxScore * k, n);
      ShareBounds(a.maxScore, k, n);
      Some(a.(score := score, testResults := rs, aiSimilarity := SimilarityDraw(d.similarity)))
  }

  /** The rounded share of a maximum: within half a point of `max * k / n`,
      and between 0 and a non-negative maximum. */
  lemma ShareBounds(max: int, k: nat, n: nat)
    requires k <= n && n > 0
    ensures var s := RoundDiv(max * k, n);
            2 * n * s <= 2 * max * k + n < 2 * n * s + 2 * n
    ensures max >= 0 ==> 0 <= RoundDiv(max * k, n) <= max
  {
    var s := RoundDiv(max * k, n);
    assert 2 * (max * k) == 2 * max * k;
    if max >= 0 {
      assert 0 <= max * k <= max * n by {
        assert max * n - max * k == max * (n - k);
      }
      RoundDivBetween(max * k, n, 0, max);
    }
  }

  /** `test.questions.id(answerQuestion)`: the question with that id. */
  function QuestionById(t: Tests.Test, id: Id): (r: Option<nat>)
    ensures r.Some? ==> r.value < |t.questions| && t.questions[r.value].id == id
    ensures r.None? ==> forall i :: 0 <= i < |t.questions| ==> t.questions[i].id != id
  {
    FindFirst(t.questions, (q: Tests.Question) => q.id == id)
  }

  predicate Gradable(a: Answer, t: Tests.Test) {
    QuestionById(t, a.question).Some? && |a.code| > 0
  }

  /** The question an answer is graded against. */
  function QuestionOf(a: Answer, t: Tests.Test): Tests.Question
    requires Gradable(a, t)
  {
    t.questions[QuestionById(t, a.question).value]
  }

  /** Every answer the loop grades has a question with test cases, so no
      score becomes NaN. */
  predicate GradesDefined(answers: seq<Answer>, t: Tests.Test) {
    forall i :: 0 <= i < |answers| && Gradable(answers[i], t) ==> |QuestionOf(answers[i], t).testCases| > 0
  }

  /** The grading loop: answers with code whose question still exists are
      graded, each with its own draws; every other answer is left as it is.
      None when some graded answer's question has no test cases. */
  function Grade(answers: seq<Answer>, t: Tests.Test, draw: nat -> Draw): (r: Option<seq<Answer>>)
    ensures r.Some? <==> GradesDefined(answers, t)
    ensures r.Some? ==> |r.value| == |answers|
    ensures r.Some? ==> forall i :: 0 <= i < |answers| && !Gradable(answers[i], t) ==> r.value[i] == answers[i]
    ensures r.Some? ==> forall i :: 0 <= i < |answers| && Gradable(answers[i], t) ==>
              Some(r.value[i]) == GradeAnswer(answers[i], QuestionOf(answers[i], t), draw(i))
  {
    if !GradesDefined(answers, t) then None
    else
      Some(seq(|answers|, i requires 0 <= i < |answers| =>
        if Gradable(answers[i], t)
        then GradeAnswer(answers[i], QuestionOf(answers[i], t), draw(i)).value
        else answers[i]))
  }

  /** Grading followed by the document's `submit`: every answer keeps its
      maximum, gradable answers score within [0, maximum], the status is
      decided by the violation count and the submission time is set. None
      when grading produced a NaN score. */
  function FinishAttempt(s: Submission, t: Tests.Test, draw: nat -> Draw, now: int): (r: Option<Submission>)
    ensures r.Some? <==> GradesDefined(s.answers, t)
    ensures r.Some? ==> (r.value.status == Flagged <==> s.violationCount >= FlagAfterViolations)
    ensures r.Some? ==> (r.value.status == Completed <==> s.violationCount < FlagAfterViolations)
    ensures r.Some? ==> r.value.submittedAt == Some(now)
    ensures r.Some? ==> |r.value.answers| == |s.answers|
    ensures r.Some? ==> forall i :: 0 <= i < |s.answers| ==> r.value.answers[i].maxScore == s.answers[i].maxScore
    ensures r.Some? ==> forall i :: 0 <= i < |s.answers| && !Gradable(s.answers[i], t) ==> r.value.answers[i] == s.answers[i]
    ensures r.Some? ==> forall i :: 0 <= i < |s.answers| && s.answers[i].maxScore >= 0 && Gradable(s.answers[i], t)
                          ==> 0 <= r.value.answers[i].score <= r.value.answers[i].maxScore
    ensures r.Some? ==> r.value.violations == s.violations && r.value.test == s.test && r.value.student == s.student
  {
    var g := Grade(s.answers, t, draw);
    if g.None? then None else Some(Submit(s.(answers := g.value), now))
  }

  /** `submitTest`. In this order: an unknown submission is 404, another
      student's 403, one no longer in progress 400. When the submission has
      answers but its test cannot be read, or a graded answer's question has
      no test cases (its score is NaN and the save is refused), the handler
      fails with 500 and nothing is stored. Otherwise the answers are graded,
      the submission is submitted, and, when its test exists, the test's
      analytics record the new percentage; no other test or submission
      changes. */
  function SubmitTest(db: Db, user: Id, sid: Id, draw: nat -> Draw, now: int): (r: Result<Db>)
    ensures sid >= |db.submissions| <==> r == Err(404, "Submission not found")
    ensures sid < |db.submissions| && db.submissions[sid].student != user <==> r == Err(403, "Not authorized")
    ensures (sid < |db.submissions| && db.submissions[sid].student == user && db.submissions[sid].status != InProgress)
            <==> r == Err(400, "Submission already completed")
    ensures r.Ok? <==> && sid < |db.submissions| && db.submissions[sid].student == user
                       && db.submissions[sid].status == InProgress
                       && (db.submissions[sid].test < |db.tests| || |db.submissions[sid].answers| == 0)
                       && (db.submissions[sid].test < |db.tests| ==>
                             GradesDefined(db.submissions[sid].answers, db.tests[db.submissions[sid].test]))
    ensures (r.Err? && sid < |db.submissions| && db.submissions[sid].student == user
             && db.submissions[sid].status == InProgress) ==> r == Err(500, "Error submitting test")
    ensures r.Ok? && db.submissions[sid].test < |db.tests| ==>
              var s := db.submissions[sid];
              var done := FinishAttempt(s, db.tests[s.test], draw, now).value;
              r.value == Db(db.tests[s.test := Tests.UpdateAnalytics(db.tests[s.test], done.percentage)],
                            db.submissions[sid := done])
    ensures r.Ok? && db.submissions[sid].test >= |db.tests| ==>
              r.value == db.(submissions := db.submissions[sid := Submit(db.submissions[sid], now)])
  {
    if sid >= |db.submissions| then Err(404, "Submission not found")
    else
      var s := db.submissions[sid];
      if s.student != user then Err(403, "Not authorized")
      else if s.status != InProgress then Err(400, "Submission already completed")
      else if s.test >= |db.tests| then
        (if |s.answers| > 0 then Err(500, "Error submitting test")
         else Ok(db.(submissions := db.submissions[sid := Submit(s, now)])))
      else
        var t := db.tests[s.test];
        var done := FinishAttempt(s, t, draw, now);
        if done.None? then Err(500, "Error submitting test")
        else Ok(Db(db.tests[s.test := Tests.UpdateAnalytics(t, done.value.percentage)], db.submissions[sid := done.value]))
  }

  /** An answer with code to a question that has no test cases makes the
      submission fail with 500, even though the schema lets such a test be
      stored and published. */
  lemma CaselessQuestionFailsSubmit(db: Db, user: Id, sid: Id, draw: nat -> Draw, now: int, i: nat)
    requires sid < |db.submissions| && db.submissions[sid].student == user
    requires db.submissions[sid].status == InProgress && db.submissions[sid].test < |db.tests|
    requires i < |db.submissions[sid].answers|
    requires Gradable(db.submissions[sid].answers[i], db.tests[db.submissions[sid].test])
    requires |QuestionOf(db.submissions[sid].answers[i], db.tests[db.submissions[sid].test]).testCases| == 0
    ensures SubmitTest(db, user, sid, draw, now) == Err(500, "Error submitting test")
  {
  }

  /** Submitting records the new percentage in the test's running mean:
      one more submission, and mean times count grows by the percentage. */
  lemma SubmitTestUpdatesAnalytics(db: Db, user: Id, sid: Id, draw: nat -> Draw, now: int)
    requires SubmitTest(db, user, sid, draw, now).Ok?
    requires db.submissions[sid].test < |db.tests|
    ensures var tid := db.submissions[sid].test;
            var db' := SubmitTest(db, user, sid, draw, now).value;
            && db'.tests[tid].totalSubmissions == db.tests[tid].totalSubmissions + 1
            && db'.tests[tid].averageScore * (db'.tests[tid].totalSubmissions as real)
               == db.tests[tid].averageScore * (db.tests[tid].totalSubmissions as real)
                  + db'.submissions[sid].percentage as real
  {
  }

  /** A submission started by `startTest` and then graded and submitted ends
      with a percentage in [0, 100], provided its questions' maxima are
      non-negative and their total positive. */
  lemma SubmittedPercentageInRange(db: Db, user: Id, sid: Id, draw: nat -> Draw, now: int)
    requires SubmitTest(db, user, sid, draw, now).Ok?
    requires var s := db.submissions[sid];
             && |s.answers| > 0 && s.test < |db.tests|
             && s.maxTotalScore == SumBy(s.answers, MaxScoreOf) > 0
             && (forall i :: 0 <= i < |s.answers| ==> 0 <= s.answers[i].score <= s.answers[i].maxScore)
    ensures 0 <= SubmitTest(db, user, sid, draw, now).value.submissions[sid].percentage <= 100
  {
    var s := db.submissions[sid];
    var t := db.tests[s.test];
    var g := Grade(s.answers, t, draw).value;
    var pending := s.(answers := g, status := if s.violationCount >= FlagAfterViolations then Flagged else Completed,
                      submittedAt := Some(now), duration := MinutesBetween(s.startedAt, now));
    forall i | 0 <= i < |g|
      ensures 0 <= g[i].score <= g[i].maxScore
    {
    }
    assert forall i :: 0 <= i < |g| ==> MaxScoreOf(g[i]) == MaxScoreOf(s.answers[i]);
    SumByPointwise(g, s.answers);
    PercentageInRange(pending);
  }

  lemma {:induction false} SumByPointwise(xs: seq<Answer>, ys: seq<Answer>)
    requires |xs| == |ys|
    requires forall i :: 0 <= i < |xs| ==> MaxScoreOf(xs[i]) == MaxScoreOf(ys[i])
    ensures SumBy(xs, MaxScoreOf) == SumBy(ys, MaxScoreOf)
  {
    if |xs| > 0 {
      SumByPointwise(xs[..|xs| - 1], ys[..|ys| - 1]);
    }
  }

  // ---------------------------------------------------------------------------
  // getSubmission, getTestSubmissions

  /** `getSubmission`. An unknown submission is 404. The viewer must be the
      student who owns it or the creator of its test; the viewer's role plays
      no part, so an administrator who is neither is refused (403). A
      submission whose test cannot be read fails (500). */
  function GetSubmission(db: Db, viewer: Id, role: Role, sid: Id): (r: Result<Submission>)
    ensures sid >= |db.submissions| <==> r == Err(404, "Submission not found")
    ensures r.Ok? <==> sid < |db.submissions| && db.submissions[sid].test < |db.tests|
                       && (db.submissions[sid].student == viewer || db.tests[db.submissions[sid].test].createdBy == viewer)
    ensures r.Ok? ==> r.value == db.submissions[sid]
    ensures (r.Err? && sid < |db.submissions| && db.submissions[sid].test < |db.tests|)
            ==> r == Err(403, "Not authorized to view this submission")
  {
    if sid >= |db.submissions| then Err(404, "Submission not found")
    else
      var s := db.submissions[sid];
      if s.test >= |db.tests| then Err(500, "Error fetching submission")
      else if s.student != viewer && db.tests[s.test].createdBy != viewer then
        Err(403, "Not authorized to view this submission")
      else Ok(s)
  }

  /** Whether a submission can be viewed does not depend on the viewer's role. */
  lemma GetSubmissionIgnoresRole(db: Db, viewer: Id, sid: Id, r1: Role, r2: Role)
    ensures GetSubmission(db, viewer, r1, sid) == GetSubmission(db, viewer, r2, sid)
  {
  }

  datatype Listing = Listing(items: seq<Submission>, total: nat, pages: int)

  predicate ListedFor(s: Submission, test: Id, status: Option<SubmissionStatus>) {
    s.test == test && (status.None? || s.status == status.value)
  }

  /** The test's submissions of the requested status, in insertion order:
      the list `getTestSubmissions` pages through. */
  function TestSubmissions(db: Db, test: Id, status: Option<SubmissionStatus>): (r: seq<Submission>)
    ensures forall s :: s in r <==> s in db.submissions && ListedFor(s, test, status)
    ensures |r| == CountIf(db.submissions, (s: Submission) => ListedFor(s, test, status))
    ensures IsSubsequence(r, db.submissions)
  {
    var p := (s: Submission) => ListedFor(s, test, status);
    FilterCount(db.submissions, p);
    FilterIsSubsequence(db.submissions, p);
    Filter(db.submissions, p)
  }

  /** `getTestSubmissions`: the test's submissions, optionally of one status,
      one page at a time (page 1 and 20 per page by default), with the total
      number of matches and the number of pages. No check is made of who
      asks. */
  function GetTestSubmissions(db: Db, test: Id, status: Option<SubmissionStatus>, page: Option<int>, limit: Option<int>)
    : (r: Listing)
    requires page.GetOr(1) >= 1 && limit.GetOr(20) >= 1
    ensures r.total == CountIf(db.submissions, (s: Submission) => ListedFor(s, test, status))
    ensures |r.items| <= limit.GetOr(20)
    ensures forall s :: s in r.items ==> s in db.submissions && ListedFor(s, test, status)
    ensures r.pages >= 0 && (r.pages - 1) * limit.GetOr(20) < r.total <= r.pages * limit.GetOr(20)
  {
    var matching := TestSubmissions(db, test, status);
    var items := PageOf(matching, page.GetOr(1), limit.GetOr(20));
    assert forall s :: s in items ==> s in matching;
    Listing(items, |matching|, PageCount(|matching|, limit.GetOr(20)))
  }

  /** The items of pages 1 to `n` of `getTestSubmissions`, read one after
      another. */
  function ListedSubmissions(db: Db, test: Id, status: Option<SubmissionStatus>, limit: int, n: nat): seq<Submission>
    requires limit >= 1
  {
    if n == 0 then []
    else ListedSubmissions(db, test, status, limit, n - 1) + GetTestSubmissions(db, test, status, Some(n), Some(limit)).items
  }

  lemma {:induction false} ListedSubmissionsArePages(db: Db, test: Id, status: Option<SubmissionStatus>, limit: int, n: nat)
    requires limit >= 1
    ensures ListedSubmissions(db, test, status, limit, n) == FirstPages(TestSubmissions(db, test, status), limit, n)
  {
    if n > 0 {
      ListedSubmissionsArePages(db, test, status, limit, n - 1);
    }
  }

  /** Reading `getTestSubmissions` from page 1 to the reported number of
      pages yields each matching submission exactly once, in insertion
      order. */
  lemma GetTestSubmissionsPagesCoverAll(db: Db, test: Id, status: Option<SubmissionStatus>, limit: int)
    requires limit >= 1
    ensures ListedSubmissions(db, test, status, limit, GetTestSubmissions(db, test, status, Some(1), Some(limit)).pages)
            == TestSubmissions(db, test, status)
  {
    var matching := TestSubmissions(db, test, status);
    ListedSubmissionsArePages(db, test, status, limit, PageCount(|matching|, limit));
    PagesCoverAll(matching, limit);
  }

  // ---------------------------------------------------------------------------
  // reviewSubmission

  /** `reviewSubmission`. An unknown submission is 404; no ownership check is
      made. The review record is replaced by the reviewer, the time and the
      given decision, notes and rating; the status becomes reviewed exactly
      when the decision is `approved` or `rejected` and is otherwise
      unchanged. The decision is the raw text of the body: one the schema's
      enum does not list, or a rating outside [1, 5], fails validation on
      save (500) and changes nothing. */
  function ReviewSubmission(db: Db, reviewer: Id, sid: Id, decision: Option<string>, notes: Option<string>,
                            rating: Option<int>, now: int): (r: Result<Db>)
    ensures sid >= |db.submissions| <==> r == Err(404, "Submission not found")
    ensures r.Ok? <==> && sid < |db.submissions| && (rating.None? || 1 <= rating.value <= 5)
                       && (decision.None? || DecisionNamed(decision.value).Some?)
    ensures r.Err? && sid < |db.submissions| ==> r == Err(500, "Error reviewing submission")
    ensures r.Ok? ==>
              var s := db.submissions[sid];
              && r.value.tests == db.tests
              && |r.value.submissions| == |db.submissions|
              && (forall j :: 0 <= j < |db.submissions| && j != sid ==> r.value.submissions[j] == db.submissions[j])
              && var s' := r.value.submissions[sid];
              && s'.review.reviewedBy == Some(reviewer) && s'.review.reviewedAt == Some(now)
              && s'.review.notes == notes && s'.review.rating == rating
              && (decision.None? <==> s'.review.decision.None?)
              && (decision.Some? ==> DecisionName(s'.review.decision.value) == decision.value)
              && (decision == Some("approved") || decision == Some("rejected") ==> s'.status == Reviewed)
              && (decision != Some("approved") && decision != Some("rejected") ==> s'.status == s.status)
              && s'.answers == s.answers && s'.violations == s.violations
  {
    if sid >= |db.submissions| then Err(404, "Submission not found")
    else if rating.Some? && !(1 <= rating.value <= 5) then Err(500, "Error reviewing submission")
    else if decision.Some? && DecisionNamed(decision.value).None? then Err(500, "Error reviewing submission")
    else
      var s := db.submissions[sid];
      var stored := if decision.Some? then DecisionNamed(decision.value) else None;
      var decided := decision == Some("approved") || decision == Some("rejected");
      var s' := s.(review := Review(Some(reviewer), Some(now), stored, notes, rating),
                   status := if decided then Reviewed else s.status);
      Ok(db.(submissions := db.submissions[sid := Recompute(s')]))
  }

  predicate Decides(decision: Option<string>) {
    decision == Some("approved") || decision == Some("rejected")
  }

  /** Repeating a review with the same arguments changes nothing more. */
  lemma ReviewSubmissionIdempotent(db: Db, reviewer: Id, sid: Id, decision: Option<string>, notes: Option<string>,
                                   rating: Option<int>, now: int)
    requires ReviewSubmission(db, reviewer, sid, decision, notes, rating, now).Ok?
    ensures var db' := ReviewSubmission(db, reviewer, sid, decision, notes, rating, now).value;
            ReviewSubmission(db', reviewer, sid, decision, notes, rating, now) == Ok(db')
  {
    var s := db.submissions[sid];
    var stored := if decision.Some? then DecisionNamed(decision.value) else None;
    var s' := s.(review := Review(Some(reviewer), Some(now), stored, notes, rating),
                 status := if Decides(decision) then Reviewed else s.status);
    var db' := db.(submissions := db.submissions[sid := Recompute(s')]);
    var s2 := Recompute(s');
    assert s2.review == s'.review && s2.status == s'.status;
    assert s2.(review := s'.review, status := if Decides(decision) then Reviewed else s2.status) == s2;
    RecomputeIdempotent(s');
    assert db'.submissions[sid := Recompute(s2)] == db'.submissions;
  }

  /** A second review replaces the first: reviewing twice is reviewing once
      with the second arguments, unless only the first decided the outcome,
      whose status then stays. */
  lemma LaterReviewOverrides(db: Db, sid: Id,
                             rv1: Id, d1: Option<string>, n1: Option<string>, g1: Option<int>, t1: int,
                             rv2: Id, d2: Option<string>, n2: Option<string>, g2: Option<int>, t2: int)
    requires ReviewSubmission(db, rv1, sid, d1, n1, g1, t1).Ok?
    requires Decides(d2) || !Decides(d1)
    ensures var db' := ReviewSubmission(db, rv1, sid, d1, n1, g1, t1).value;
            ReviewSubmission(db', rv2, sid, d2, n2, g2, t2) == ReviewSubmission(db, rv2, sid, d2, n2, g2, t2)
  {
    var s := db.submissions[sid];
    var stored1 := if d1.Some? then DecisionNamed(d1.value) else None;
    var stored2 := if d2.Some? then DecisionNamed(d2.value) else None;
    var s1 := s.(review := Review(Some(rv1), Some(t1), stored1, n1, g1),
                 status := if Decides(d1) then Reviewed else s.status);
    var r2 := Review(Some(rv2), Some(t2), stored2, n2, g2);
    var st2 := if Decides(d2) then Reviewed else s.status;
    var u1 := Recompute(s1);
    assert u1.status == s1.status;
    var st2' := if Decides(d2) then Reviewed else u1.status;
    assert st2' == st2;
    var x := Recompute(s.(review := r2, status := st2));
    assert Recompute(u1.(review := r2, status := st2)) == x;
    var db' := db.(submissions := db.submissions[sid := u1]);
    assert db'.(submissions := db'.submissions[sid := x]) == db.(submissions := db.submissions[sid := x]);
  }
}

=== FILE: submissions_model.dfy ===
/** A candidate's attempt at a test (frontend/server/models/Submission.js):
    answers, proctoring violations, the activity log, the recruiter review,
    the derived totals the pre-save hook recomputes, and the document's own
    transitions `addViolation`, `submit` and `logActivity`. */
module Submissions {
  import opened Common
  import Tests

  datatype Language = JavaScript | TypeScript | Python | Java | Cpp | Go

  /** One graded test case; `testCase` is the case's position in its question. */
  datatype TestResult = TestResult(testCase: nat, passed: bool, actualOutput: string)

  datatype Answer = Answer(
    question: Id,
    code: string,
    language: Language,
    testResults: seq<TestResult>,
    score: int,
    maxScore: int,
    timeSpent: int,
    aiSimilarity: int,
    firstAttempt: Option<int>,
    lastAttempt: Option<int>)

  datatype ViolationType =
    | TabSwitch | FullscreenExit | Copy | Paste | Screenshot
    | MultipleFaces | NoFace | PhoneDetected | VoiceDetected | BrowserResize

  datatype Severity = Low | Medium | High

  datatype Violation = Violation(
    kind: ViolationType,
    description: string,
    timestamp: int,
    severity: Severity,
    screenshot: Option<string>)

  datatype ActivityType = Start | SubmitActivity | Focus | Blur | Keystroke | RunCode | Navigate

  datatype Activity = Activity(kind: ActivityType, timestamp: int)

  datatype SubmissionStatus = InProgress | Completed | Flagged | Disqualified | Reviewed

  datatype Decision = Pending | Approved | Rejected | NeedsReview

  datatype Review = Review(
    reviewedBy: Option<Id>,
    reviewedAt: Option<int>,
    decision: Option<Decision>,
    notes: Option<string>,
    rating: Option<int>)

  const DefaultReview := Review(None, None, Some(Pending), None, None)

  // ---------------------------------------------------------------------------
  // The schema's enums as request bodies spell them. A body carries raw text;
  // text outside an enum fails validation when the document is saved.

  function LanguageName(l: Language): string {
    match l
    case JavaScript => "javascript"
    case TypeScript => "typescript"
    case Python => "python"
    case Java => "java"
    case Cpp => "cpp"
    case Go => "go"
  }

  function LanguageNamed(s: string): (r: Option<Language>)
    ensures forall l :: r == Some(l) <==> LanguageName(l) == s
  {
    if s == "javascript" then Some(JavaScript)
    else if s == "typescript" then Some(TypeScript)
    else if s == "python" then Some(Python)
    else if s == "java" then Some(Java)
    else if s == "cpp" then Some(Cpp)
    else if s == "go" then Some(Go)
    else None
  }

  function ViolationTypeName(v: ViolationType): string {
    match v
    case TabSwitch => "tab_switch"
    case FullscreenExit => "fullscreen_exit"
    case Copy => "copy"
    case Paste => "paste"
    case Screenshot => "screenshot"
    case MultipleFaces => "multiple_faces"
    case NoFace => "no_face"
    case PhoneDetected => "phone_detected"
    case VoiceDetected => "voice_detected"
    case BrowserResize => "browser_resize"
  }

  function ViolationTypeNamed(s: string): (r: Option<ViolationType>)
    ensures forall v :: r == Some(v) <==> ViolationTypeName(v) == s
  {
    if s == "tab_switch" then Some(TabSwitch)
    else if s == "fullscreen_exit" then Some(FullscreenExit)
    else if s == "copy" then Some(Copy)
    else if s == "paste" then Some(Paste)
    else if s == "screenshot" then Some(Screenshot)
    else if s == "multiple_faces" then Some(MultipleFaces)
    else if s == "no_face" then Some(NoFace)
    else if s == "phone_detected" then Some(PhoneDetected)
    else if s == "voice_detected" then Some(VoiceDetected)
    else if s == "browser_resize" then Some(BrowserResize)
    else None
  }

  function SeverityName(v: Severity): string {
    match v
    case Low => "low"
    case Medium => "medium"
    case High => "high"
  }

  function SeverityNamed(s: string): (r: Option<Severity>)
    ensures forall v :: r == Some(v) <==> SeverityName(v) == s
  {
    if s == "low" then Some(Low)
    else if s == "medium" then Some(Medium)
    else if s == "high" then Some(High)
    else None
  }

  function DecisionName(d: Decision): string {
    match d
    case Pending => "pending"
    case Approved => "approved"
    case Rejected => "rejected"
    case NeedsReview => "needs_review"
  }

  function DecisionNamed(s: string): (r: Option<Decision>)
    ensures forall d :: r == Some(d) <==> DecisionName(d) == s
  {
    if s == "pending" then Some(Pending)
    else if s == "approved" then Some(Approved)
    else if s == "rejected" then Some(Rejected)
    else if s == "needs_review" then Some(NeedsReview)
    else None
  }

  /** Instants are milliseconds since the epoch; `duration` is in minutes. */
  datatype Submission = Submission(
    test: Id,
    student: Id,
    answers: seq<Answer>,
    totalScore: int,
    maxTotalScore: int,
    percentage: int,
    status: SubmissionStatus,
    startedAt: int,
    submittedAt: Option<int>,
    duration: int,
    violations: seq<Violation>,
    violationCount: int,
    activityLog: seq<Activity>,
    overallSimilarity: int,
    review: Review,
    attemptNumber: int)

  // ---------------------------------------------------------------------------
  // Derived fields

  function ScoreOf(a: Answer): int {
    a.score
  }

  function MaxScoreOf(a: Answer): int {
    a.maxScore
  }

  function SimilarityOf(a: Answer): int {
    a.aiSimilarity
  }

  predicate HasSimilarity(a: Answer) {
    a.aiSimilarity > 0
  }

  /** `Math.round((end - start) / 60000)`: elapsed whole minutes. */
  function MinutesBetween(start: int, end: int): (m: int)
    ensures 120000 * m <= 2 * (end - start) + 60000 < 120000 * m + 120000
  {
    RoundDiv(end - start, 60000)
  }

  /** The pre-save hook. When the submission has at least one answer it
      recomputes the total score, the percentage (only when the maximum is
      positive), the violation count, the duration (only once submitted) and
      the overall AI similarity (only when some answer has a positive one).
      Nothing else changes; with no answers nothing changes at all. */
  function Recompute(s: Submission): (r: Submission)
    ensures |s.answers| == 0 ==> r == s
    ensures r.(totalScore := s.totalScore, percentage := s.percentage, violationCount := s.violationCount,
               duration := s.duration, overallSimilarity := s.overallSimilarity) == s
    ensures |s.answers| > 0 ==> r.totalScore == SumBy(s.answers, ScoreOf)
    ensures |s.answers| > 0 && s.maxTotalScore > 0 ==>
              2 * s.maxTotalScore * r.percentage <= 200 * r.totalScore + s.maxTotalScore
                                                 < 2 * s.maxTotalScore * r.percentage + 2 * s.maxTotalScore
    ensures s.maxTotalScore <= 0 ==> r.percentage == s.percentage
    ensures |s.answers| > 0 ==> r.violationCount == |s.violations|
    ensures s.submittedAt.None? ==> r.duration == s.duration
    ensures |s.answers| > 0 && s.submittedAt.Some? ==> r.duration == MinutesBetween(s.startedAt, s.submittedAt.value)
    ensures CountIf(s.answers, HasSimilarity) == 0 ==> r.overallSimilarity == s.overallSimilarity
    ensures |s.answers| > 0 && CountIf(s.answers, HasSimilarity) > 0 ==>
              var n := CountIf(s.answers, HasSimilarity);
              var total := SumBy(Filter(s.answers, HasSimilarity), SimilarityOf);
              2 * n * r.overallSimilarity <= 2 * total + n < 2 * n * r.overallSimilarity + 2 * n
  {
    FilterCount(s.answers, HasSimilarity);
    if |s.answers| == 0 then s
    else
      var total := SumBy(s.answers, ScoreOf);
      var positives := Filter(s.answers, HasSimilarity);
      s.(totalScore := total,
         percentage := if s.maxTotalScore > 0 then Percent(total, s.maxTotalScore) else s.percentage,
         violationCount := |s.violations|,
         duration := if s.submittedAt.Some? then MinutesBetween(s.startedAt, s.submittedAt.value) else s.duration,
         overallSimilarity :=
           if |positives| > 0 then RoundDiv(SumBy(positives, SimilarityOf), |positives|) else s.overallSimilarity)
  }

  /** Saving twice in a row recomputes nothing new. */
  lemma RecomputeIdempotent(s: Submission)
    ensures Recompute(Recompute(s)) == Recompute(s)
  {
  }

  /** When every score lies in [0, maxScore] and the stored maximum is the sum
      of the answers' maxima, the recomputed percentage lies in [0, 100]. */
  lemma PercentageInRange(s: Submission)
    requires |s.answers| > 0
    requires forall i :: 0 <= i < |s.answers| ==> 0 <= s.answers[i].score <= s.answers[i].maxScore
    requires s.maxTotalScore == SumBy(s.answers, MaxScoreOf) > 0
    ensures 0 <= Recompute(s).percentage <= 100
  {
    ScoreSumBounded(s.answers);
    PercentInRange(SumBy(s.answers, ScoreOf), s.maxTotalScore);
  }

  lemma {:induction false} ScoreSumBounded(answers: seq<Answer>)
    requires forall i :: 0 <= i < |answers| ==> 0 <= answers[i].score <= answers[i].maxScore
    ensures 0 <= SumBy(answers, ScoreOf) <= SumBy(answers, MaxScoreOf)
  {
    if |answers| > 0 {
      var init := answers[..|answers| - 1];
      assert forall i :: 0 <= i < |init| ==> init[i] == answers[i];
      ScoreSumBounded(init);
    }
  }

  /** The overall similarity is a rounded mean, so it stays within the range
      of the positive per-answer similarities. */
  lemma OverallSimilarityBetween(s: Submission, lo: int, hi: int)
    requires |s.answers| > 0 && CountIf(s.answers, HasSimilarity) > 0
    requires forall i :: 0 <= i < |s.answers| && s.answers[i].aiSimilarity > 0 ==>
               lo <= s.answers[i].aiSimilarity <= hi
    ensures lo <= Recompute(s).overallSimilarity <= hi
  {
    var positives := Filter(s.answers, HasSimilarity);
    FilterCount(s.answers, HasSimilarity);
    forall i | 0 <= i < |positives|
      ensures lo <= SimilarityOf(positives[i]) <= hi
    {
      assert positives[i] in s.answers;
    }
    SumByBounds(positives, SimilarityOf, lo, hi);
    RoundDivBetween(SumBy(positives, SimilarityOf), |positives|, lo, hi);
  }

  /** The `passed` virtual: a fixed threshold of 60 percent, whatever the
      test's own passing score is. */
  predicate Passed(s: Submission) {
    s.percentage >= Tests.DefaultPassingScore
  }

  // ---------------------------------------------------------------------------
  // Creation

  /** The answer `startTest` prepares for one question: the question's
      template as starting code, its maximum score and the schema defaults. */
  function BlankAnswer(q: Tests.Question): Answer {
    Answer(q.id, q.template, TypeScript, [], 0, q.maxScore, 0, 0, None, None)
  }

  function AnswersFor(qs: seq<Tests.Question>): (r: seq<Answer>)
    ensures |r| == |qs|
    ensures forall i :: 0 <= i < |qs| ==> r[i] == BlankAnswer(qs[i])
  {
    seq(|qs|, i requires 0 <= i < |qs| => BlankAnswer(qs[i]))
  }

  /** Blank answers carry the questions' maxima, so their sum is the test's
      total maximum score. */
  lemma {:induction false} AnswersForMaxSum(qs: seq<Tests.Question>)
    ensures SumBy(AnswersFor(qs), MaxScoreOf) == SumBy(qs, Tests.MaxScoreOf)
  {
    if |qs| > 0 {
      var init := qs[..|qs| - 1];
      assert AnswersFor(qs)[..|qs| - 1] == AnswersFor(init);
      AnswersForMaxSum(init);
    }
  }

  /** A new submission for `t`: in progress, started at `now`, one blank
      answer per question in order, and the test's total as its maximum. */
  function NewSubmission(t: Tests.Test, testId: Id, student: Id, attempt: int, now: int): (s: Submission)
    ensures s.status == InProgress && s.test == testId && s.student == student
    ensures s.attemptNumber == attempt && s.startedAt == now && s.submittedAt.None?
    ensures |s.answers| == |t.questions|
    ensures forall i :: 0 <= i < |t.questions| ==>
              s.answers[i].question == t.questions[i].id && s.answers[i].code == t.questions[i].template
              && s.answers[i].maxScore == t.questions[i].maxScore && s.answers[i].score == 0
    ensures s.maxTotalScore == Tests.TotalMaxScore(t) == SumBy(s.answers, MaxScoreOf)
    ensures s.violations == [] && s.activityLog == []
  {
    AnswersForMaxSum(t.questions);
    Submission(
      test := testId,
      student := student,
      answers := AnswersFor(t.questions),
      totalScore := 0,
      maxTotalScore := Tests.TotalMaxScore(t),
      percentage := 0,
      status := InProgress,
      startedAt := now,
      submittedAt := None,
      duration := 0,
      violations := [],
      violationCount := 0,
      activityLog := [],
      overallSimilarity := 0,
      review := DefaultReview,
      attemptNumber := attempt)
  }

  /** Saving a new submission changes none of its defaults: all scores are
      zero, there are no violations and no similarity yet. */
  lemma NewSubmissionIsStable(t: Tests.Test, testId: Id, student: Id, attempt: int, now: int)
    ensures Recompute(NewSubmission(t, testId, student, attempt, now)) == NewSubmission(t, testId, student, attempt, now)
  {
    var s := NewSubmission(t, testId, student, attempt, now);
    SumByBounds(s.answers, ScoreOf, 0, 0);
    CountIfMonotone(s.answers, HasSimilarity, Never);
    NeverCountsNothing(s.answers);
    if s.maxTotalScore > 0 {
      assert Percent(0, s.maxTotalScore) == 0;
    }
  }

  predicate Never(a: Answer) {
    false
  }

  lemma {:induction false} NeverCountsNothing(xs: seq<Answer>)
    ensures CountIf(xs, Never) == 0
  {
    if |xs| > 0 {
      NeverCountsNothing(xs[..|xs| - 1]);
    }
  }

  // ---------------------------------------------------------------------------
  // Transitions

  predicate IsHigh(v: Violation) {
    v.severity == High
  }

  /** The `highSeverityViolations` virtual, counted. */
  function HighSeverityCount(vs: seq<Violation>): nat {
    CountIf(vs, IsHigh)
  }

  const FlagAfterHighViolations := 3
  const FlagAfterViolations := 5

  /** `addViolation`: appends the violation stamped with `now`, keeps the count
      in step, and flags the submission once three or more violations are
      high-severity, unless it is disqualified. Any other status, including
      completed and reviewed, is flagged. Nothing else changes. */
  function AddViolation(s: Submission, v: Violation, now: int): (r: Submission)
    ensures r.violations == s.violations + [v.(timestamp := now)]
    ensures r.violationCount == |r.violations| == |s.violations| + 1
    ensures HighSeverityCount(r.violations) == HighSeverityCount(s.violations) + (if v.severity == High then 1 else 0)
    ensures HighSeverityCount(r.violations) >= FlagAfterHighViolations && s.status != Disqualified ==> r.status == Flagged
    ensures HighSeverityCount(r.violations) < FlagAfterHighViolations || s.status == Disqualified ==> r.status == s.status
    ensures r.(violations := s.violations, violationCount := s.violationCount, status := s.status) == s
  {
    var vs := s.violations + [v.(timestamp := now)];
    assert vs[..|vs| - 1] == s.violations;
    var high := HighSeverityCount(vs);
    s.(violations := vs,
       violationCount := |vs|,
       status := if high >= FlagAfterHighViolations && s.status != Disqualified then Flagged else s.status)
  }

  /** Applies a series of violations, one after another. */
  function AddViolations(s: Submission, vs: seq<Violation>, now: int): Submission
  {
    if |vs| == 0 then s else AddViolation(AddViolations(s, vs[..|vs| - 1], now), vs[|vs| - 1], now)
  }

  /** Once flagged by violations, further violations never lift the flag, and
      the high-severity count never goes down. */
  lemma {:induction false} FlagIsSticky(s: Submission, vs: seq<Violation>, now: int)
    requires s.status == Flagged
    ensures AddViolations(s, vs, now).status == Flagged
    ensures HighSeverityCount(AddViolations(s, vs, now).violations) >= HighSeverityCount(s.violations)
  {
    if |vs| > 0 {
      FlagIsSticky(s, vs[..|vs| - 1], now);
    }
  }

  /** A disqualified submission stays disqualified whatever is reported. */
  lemma {:induction false} DisqualifiedIsFinal(s: Submission, vs: seq<Violation>, now: int)
    requires s.status == Disqualified
    ensures AddViolations(s, vs, now).status == Disqualified
  {
    if |vs| > 0 {
      DisqualifiedIsFinal(s, vs[..|vs| - 1], now);
    }
  }

  /** A completed or reviewed submission with two high-severity violations is
      flagged again by a third. */
  lemma FinishedSubmissionCanBeFlagged(s: Submission, v: Violation, now: int)
    requires s.status == Completed || s.status == Reviewed
    requires HighSeverityCount(s.violations) == 2 && v.severity == High
    ensures AddViolation(s, v, now).status == Flagged
  {
  }

  /** `submit` (the document's part): the status is decided by the stored
      violation count alone, five or more meaning flagged and anything fewer
      completed; the submission time and the duration in minutes are set and
      the pre-save hook runs. */
  function Submit(s: Submission, now: int): (r: Submission)
    ensures r.status == Flagged <==> s.violationCount >= FlagAfterViolations
    ensures r.status == Completed <==> s.violationCount < FlagAfterViolations
    ensures r.submittedAt == Some(now)
    ensures r.duration == MinutesBetween(s.startedAt, now)
    ensures r.answers == s.answers && r.violations == s.violations && r.activityLog == s.activityLog
    ensures r.review == s.review && r.test == s.test && r.student == s.student
    ensures r.attemptNumber == s.attemptNumber && r.maxTotalScore == s.maxTotalScore
  {
    var st := if s.violationCount >= FlagAfterViolations then Flagged else Completed;
    Recompute(s.(status := st, submittedAt := Some(now), duration := MinutesBetween(s.startedAt, now)))
  }

  /** Submitting looks only at the violation count, so a submission flagged
      for three high-severity violations is turned back into a completed one
      when it has fewer than five violations in all. */
  lemma SubmitCanClearFlag(s: Submission, now: int)
    requires s.status == Flagged && HighSeverityCount(s.violations) >= FlagAfterHighViolations
    requires s.violationCount == |s.violations| < FlagAfterViolations
    ensures Submit(s, now).status == Completed
  {
  }

  /** `logActivity`: appends one stamped entry; nothing else changes. */
  function LogActivity(s: Submission, kind: ActivityType, now: int): (r: Submission)
    ensures |r.activityLog| == |s.activityLog| + 1
    ensures r.activityLog[..|s.activityLog|] == s.activityLog
    ensures r.activityLog[|s.activityLog|] == Activity(kind, now)
    ensures r.(activityLog := s.activityLog) == s
  {
    s.(activityLog := s.activityLog + [Activity(kind, now)])
  }

  /** Logs a series of activities, oldest first. */
  function LogAll(s: Submission, entries: seq<Activity>): Submission
    decreases |entries|
  {
    if |entries| == 0 then s
    else LogAll(LogActivity(s, entries[0].kind, entries[0].timestamp), entries[1..])
  }

  /** Logging a series appends exactly that series, in order, and touches
      nothing but the log. */
  lemma {:induction false} LogAllAppends(s: Submission, entries: seq<Activity>)
    ensures LogAll(s, entries).activityLog == s.activityLog + entries
    ensures LogAll(s, entries).(activityLog := s.activityLog) == s
    decreases |entries|
  {
    if |entries| > 0 {
      var s1 := LogActivity(s, entries[0].kind, entries[0].timestamp);
      LogAllAppends(s1, entries[1..]);
      assert s.activityLog + entries == s1.activityLog + entries[1..];
    }
  }

  /** An elapsed time of a whole number of minutes gives exactly that number,
      and a later end never gives fewer minutes. */
  lemma MinutesBetweenFacts(start: int, end: int, later: int, k: int)
    ensures MinutesBetween(start, start + 60000 * k) == k
    ensures end <= later ==> MinutesBetween(start, end) <= MinutesBetween(start, later)
  {
  }
}

=== FILE: test_controller.dfy ===
/** The request handlers of frontend/server/controllers/testController.js:
    listing a recruiter's tests, reading one, looking one up by access code,
    creating, updating, archiving and publishing tests, and the analytics
    summary over a test's finished submissions. */
module TestController {
  import opened Common
  import opened Tests
  import Submissions
  import opened Database

  /** A handler that may write before it fails: the database afterwards and
      the answer sent. */
  datatype Outcome<T> = Outcome(db: Db, result: Result<T>)

  /** The unique (sparse) index on access codes: some stored test already
      carries the code. */
  predicate CodeTaken(db: Db, code: string) {
    TestByCode(db, code).Some?
  }

  /** No two stored tests share an access code. */
  predicate CodesUnique(db: Db) {
    forall i, j :: 0 <= i < j < |db.tests| && db.tests[i].accessCode.Some? ==> db.tests[i].accessCode != db.tests[j].accessCode
  }

  /** Every stored test passed schema validation. */
  predicate AllTestsValid(db: Db) {
    forall i :: 0 <= i < |db.tests| ==> SchemaValid(db.tests[i])
  }

  // ---------------------------------------------------------------------------
  // getTests, getTest, getTestByCode

  predicate OwnedWithStatus(t: Test, owner: Id, status: Option<TestStatus>) {
    t.createdBy == owner && (status.None? || t.status == status.value)
  }

  /** The caller's tests of the requested status, in insertion order: the
      list `getTests` pages through. */
  function OwnedTests(db: Db, user: Id, status: Option<TestStatus>): (r: seq<Test>)
    ensures forall t :: t in r <==> t in db.tests && OwnedWithStatus(t, user, status)
    ensures |r| == CountIf(db.tests, (t: Test) => OwnedWithStatus(t, user, status))
    ensures IsSubsequence(r, db.tests)
  {
    var p := (t: Test) => OwnedWithStatus(t, user, status);
    FilterCount(db.tests, p);
    FilterIsSubsequence(db.tests, p);
    Filter(db.tests, p)
  }

  datatype TestListing = TestListing(items: seq<Test>, total: nat, pages: int)

  /** `getTests`: the caller's own tests, optionally of one status, one page
      at a time (page 1 and 10 per page by default), with the number of
      matches and of pages. */
  function GetTests(db: Db, user: Id, status: Option<TestStatus>, page: Option<int>, limit: Option<int>): (r: TestListing)
    requires page.GetOr(1) >= 1 && limit.GetOr(10) >= 1
    ensures r.total == CountIf(db.tests, (t: Test) => OwnedWithStatus(t, user, status))
    ensures |r.items| <= limit.GetOr(10)
    ensures forall t :: t in r.items ==> t in db.tests && OwnedWithStatus(t, user, status)
    ensures r.pages >= 0 && (r.pages - 1) * limit.GetOr(10) < r.total <= r.pages * limit.GetOr(10)
  {
    var mine := OwnedTests(db, user, status);
    var items := PageOf(mine, page.GetOr(1), limit.GetOr(10));
    assert forall t :: t in items ==> t in mine;
    TestListing(items, |mine|, PageCount(|mine|, limit.GetOr(10)))
  }

  /** The items of pages 1 to `n` of `getTests`, read one after another. */
  function ListedTests(db: Db, user: Id, status: Option<TestStatus>, limit: int, n: nat): seq<Test>
    requires limit >= 1
  {
    if n == 0 then [] else ListedTests(db, user, status, limit, n - 1) + GetTests(db, user, status, Some(n), Some(limit)).items
  }

  lemma {:induction false} ListedTestsArePages(db: Db, user: Id, status: Option<TestStatus>, limit: int, n: nat)
    requires limit >= 1
    ensures ListedTests(db, user, status, limit, n) == FirstPages(OwnedTests(db, user, status), limit, n)
  {
    if n > 0 {
      ListedTestsArePages(db, user, status, limit, n - 1);
    }
  }

  /** Reading `getTests` from page 1 to the reported number of pages yields
      each of the caller's matching tests exactly once, in insertion order. */
  lemma GetTestsPagesCoverAll(db: Db, user: Id, status: Option<TestStatus>, limit: int)
    requires limit >= 1
    ensures ListedTests(db, user, status, limit, GetTests(db, user, status, Some(1), Some(limit)).pages)
            == OwnedTests(db, user, status)
  {
    var mine := OwnedTests(db, user, status);
    ListedTestsArePages(db, user, status, limit, PageCount(|mine|, limit));
    PagesCoverAll(mine, limit);
  }

  datatype Viewed = Viewed(test: Test, isOwner: bool)

  /** `getTest`: any authenticated caller may read any test (404 when it does
      not exist); the answer says whether the caller created it. */
  function GetTest(db: Db, user: Id, id: Id): (r: Result<Viewed>)
    ensures r.Ok? <==> id < |db.tests|
    ensures r.Err? ==> r == Err(404, "Test not found")
    ensures r.Ok? ==> r.value.test == db.tests[id] && (r.value.isOwner <==> db.tests[id].createdBy == user)
  {
    if id >= |db.tests| then Err(404, "Test not found")
    else Ok(Viewed(db.tests[id], db.tests[id].createdBy == user))
  }

  /** The document `getTestByCode` loads. Its `.select(...)` names title,
      description, duration, proctoring, instructions and company (and
      `questionCount`, which is no path of the schema); a path the projection
      leaves out is not set on the loaded document. Status and schedule are
      None when they were not loaded. */
  datatype LoadedTest = LoadedTest(
    title: string,
    description: string,
    duration: int,
    proctoring: Proctoring,
    instructions: string,
    company: string,
    status: Option<TestStatus>,
    scheduledStart: Option<int>,
    scheduledEnd: Option<int>)

  /** Loads a stored test through a projection that selects the status and
      schedule only when `withWindow` holds. */
  function Load(t: Test, withWindow: bool): (v: LoadedTest)
    ensures v.title == t.title && v.description == t.description && v.duration == t.duration
    ensures v.proctoring == t.proctoring && v.instructions == t.instructions && v.company == t.company
    ensures !withWindow ==> v.status.None? && v.scheduledStart.None? && v.scheduledEnd.None?
    ensures withWindow ==> v.status == Some(t.status) && v.scheduledStart == t.scheduledStart
                           && v.scheduledEnd == t.scheduledEnd
  {
    LoadedTest(t.title, t.description, t.duration, t.proctoring, t.instructions, t.company,
               if withWindow then Some(t.status) else None,
               if withWindow then t.scheduledStart else None,
               if withWindow then t.scheduledEnd else None)
  }

  /** `isAccessible()` on a loaded document: a status that was not loaded is
      undefined, which is not `'active'`. */
  function LoadedAccessible(v: LoadedTest, now: int): bool {
    && v.status == Some(Active)
    && (v.scheduledStart.None? || now >= v.scheduledStart.value)
    && (v.scheduledEnd.None? || now <= v.scheduledEnd.value)
  }

  /** On a document loaded with its status and schedule, the method answers
      what the stored test's `isAccessible` answers; without them, never. */
  lemma LoadedAccessibleIff(t: Test, now: int)
    ensures LoadedAccessible(Load(t, true), now) == IsAccessible(t, now)
    ensures !LoadedAccessible(Load(t, false), now)
  {
  }

  /** `getTestByCode` as written: the first test with the code is loaded
      through the projection that leaves out status and schedule, then asked
      whether it is accessible. An unknown code is 404; every known code gets
      the 403 (see `KnownCodesAreRefused`). */
  function GetTestByCodeAsWritten(db: Db, code: string, now: int): (r: Result<LoadedTest>)
    ensures TestByCode(db, code).None? <==> r == Err(404, "Invalid access code")
    ensures TestByCode(db, code).Some? ==>
              var v := Load(db.tests[TestByCode(db, code).value], false);
              (r.Ok? <==> LoadedAccessible(v, now)) && (r.Ok? ==> r.value == v)
    ensures r.Err? && TestByCode(db, code).Some? ==> r == Err(403, "Test is not currently available")
  {
    var found := TestByCode(db, code);
    if found.None? then Err(404, "Invalid access code")
    else
      var v := Load(db.tests[found.value], false);
      if !LoadedAccessible(v, now) then Err(403, "Test is not currently available")
      else Ok(v)
  }

  /** As written, no code ever reaches a test: a known code is refused with
      403 whatever the test's status and schedule, where the lookup that
      loads them answers with the test when it is accessible. */
  lemma KnownCodesAreRefused(db: Db, code: string, now: int)
    requires TestByCode(db, code).Some?
    ensures GetTestByCodeAsWritten(db, code, now) == Err(403, "Test is not currently available")
    ensures IsAccessible(db.tests[TestByCode(db, code).value], now) ==> GetTestByCode(db, code, now).Ok?
  {
    LoadedAccessibleIff(db.tests[TestByCode(db, code).value], now);
  }

  /** `getTestByCode` with status and schedule in the projection, as the
      accessibility check needs: an unknown code is 404, a test that is not
      accessible now 403, and otherwise the loaded test, which is active. */
  function GetTestByCode(db: Db, code: string, now: int): (r: Result<LoadedTest>)
    ensures r.Ok? <==> TestByCode(db, code).Some? && IsAccessible(db.tests[TestByCode(db, code).value], now)
    ensures TestByCode(db, code).None? <==> r == Err(404, "Invalid access code")
    ensures r.Ok? ==> r.value == Load(db.tests[TestByCode(db, code).value], true)
                      && db.tests[TestByCode(db, code).value].accessCode == Some(code)
                      && r.value.status == Some(Active)
    ensures r.Err? && TestByCode(db, code).Some? ==> r == Err(403, "Test is not currently available")
  {
    var found := TestByCode(db, code);
    if found.None? then Err(404, "Invalid access code")
    else
      var v := Load(db.tests[found.value], true);
      LoadedAccessibleIff(db.tests[found.value], now);
      if !LoadedAccessible(v, now) then Err(403, "Test is not currently available")
      else Ok(v)
  }

  // ---------------------------------------------------------------------------
  // createTest

  /** `createTest`: the test is created from the body with the caller as
      creator and the caller's company, then given a fresh access code and
      saved again. A body that fails validation is 500 and creates nothing.
      When the generated code is already taken the second save fails on the
      unique index: the answer is 500, but the test stays stored, without a
      code. */
  function CreateTest(db: Db, user: Id, company: string, input: TestInput, picks: seq<Pick>): (r: Outcome<Id>)
    requires |picks| == CodeLength
    ensures !SchemaValid(Build(input, user, company)) ==> r == Outcome(db, Err(500, "Error creating test"))
    ensures r.result.Ok? <==> SchemaValid(Build(input, user, company)) && !CodeTaken(db, CodeFromPicks(picks))
    ensures SchemaValid(Build(input, user, company)) ==>
              && |r.db.tests| == |db.tests| + 1
              && r.db.tests[..|db.tests|] == db.tests
              && r.db.submissions == db.submissions
              && var t := r.db.tests[|db.tests|];
              && t.createdBy == user && t.status == Draft && SchemaValid(t)
              && (r.result.Ok? ==> r.result.value == |db.tests| && t.accessCode == Some(CodeFromPicks(picks)))
              && (r.result.Err? ==> t.accessCode.None? && r.result == Err(500, "Error creating test"))
  {
    var t := Build(input, user, company);
    if !SchemaValid(t) then Outcome(db, Err(500, "Error creating test"))
    else
      var code := CodeFromPicks(picks);
      if CodeTaken(db, code) then Outcome(db.(tests := db.tests + [t]), Err(500, "Error creating test"))
      else Outcome(db.(tests := db.tests + [t.(accessCode := Some(code))]), Ok(|db.tests|))
  }

  /** A created test can be fetched at the id `createTest` answers: the
      document built from the request, carrying the generated code, and only
      its creator is told they own it. */
  lemma CreateThenGet(db: Db, user: Id, viewer: Id, company: string, input: TestInput, picks: seq<Pick>)
    requires |picks| == CodeLength
    ensures var o := CreateTest(db, user, company, input, picks);
            o.result.Ok? ==>
              GetTest(o.db, viewer, o.result.value)
              == Ok(Viewed(Build(input, user, company).(accessCode := Some(CodeFromPicks(picks))), viewer == user))
  {
  }

  /** Creating a test keeps every stored test valid and every access code
      unique, whether or not the code could be stored. */
  lemma CreateTestKeepsInvariants(db: Db, user: Id, company: string, input: TestInput, picks: seq<Pick>)
    requires |picks| == CodeLength
    requires AllTestsValid(db) && CodesUnique(db)
    ensures AllTestsValid(CreateTest(db, user, company, input, picks).db)
    ensures CodesUnique(CreateTest(db, user, company, input, picks).db)
  {
    var r := CreateTest(db, user, company, input, picks);
    var code := CodeFromPicks(picks);
    if SchemaValid(Build(input, user, company)) && !CodeTaken(db, code) {
      assert forall i :: 0 <= i < |db.tests| ==> db.tests[i].accessCode != Some(code);
    }
  }

  /** A test case without input fails the schema's required check: a body
      holding one creates nothing and is answered 500. */
  lemma EmptyTestCaseRefusedOnCreate(db: Db, user: Id, company: string, input: TestInput, picks: seq<Pick>,
                                     i: nat, j: nat)
    requires |picks| == CodeLength
    requires input.questions.Some? && i < |input.questions.value|
    requires j < |input.questions.value[i].testCases| && input.questions.value[i].testCases[j].input == ""
    ensures CreateTest(db, user, company, input, picks) == Outcome(db, Err(500, "Error creating test"))
  {
    var t := Build(input, user, company);
    assert t.questions[i].testCases[j].input == "";
    assert !QuestionValid(t.questions[i]);
  }

  // ---------------------------------------------------------------------------
  // updateTest

  /** The fields an update body may carry; None is a field the body leaves
      out. Only these are copied onto the test. A schedule bound may also be
      sent as `null`, which clears it: Some(None). The status is the raw
      request text, which the schema's enum checks on save. */
  datatype TestPatch = TestPatch(
    title: Option<string>,
    description: Option<string>,
    questions: Option<seq<Question>>,
    duration: Option<int>,
    proctoring: Option<Proctoring>,
    instructions: Option<string>,
    passingScore: Option<int>,
    scheduledStart: Option<Option<int>>,
    scheduledEnd: Option<Option<int>>,
    status: Option<string>)

  const EmptyPatch := TestPatch(None, None, None, None, None, None, None, None, None, None)

  /** The status text a patch carries names one of the statuses. */
  predicate StatusParses(p: TestPatch) {
    p.status.None? || StatusNamed(p.status.value).Some?
  }

  /** Copies every field the patch carries (titles pass through the trimming
      setter, questions through the options' trimming); every field it leaves
      out, and every field outside the whitelist, keeps its value. Status text
      outside the enum is refused by `UpdateTest` before this matters. */
  function ApplyPatch(t: Test, p: TestPatch): (r: Test)
    ensures r.maxAttempts == t.maxAttempts && r.createdBy == t.createdBy && r.company == t.company
    ensures r.accessCode == t.accessCode && r.isPublic == t.isPublic
    ensures r.totalSubmissions == t.totalSubmissions && r.averageScore == t.averageScore
    ensures r.title == (if p.title.Some? then TrimTitle(p.title.value) else t.title)
    ensures p.questions.Some? ==> |r.questions| == |p.questions.value|
                                  && forall i :: 0 <= i < |r.questions| ==> r.questions[i] == NormalizeQuestion(p.questions.value[i])
    ensures p.questions.None? ==> r.questions == t.questions
    ensures r.description == p.description.GetOr(t.description)
    ensures r.duration == p.duration.GetOr(t.duration)
    ensures r.proctoring == p.proctoring.GetOr(t.proctoring)
    ensures r.instructions == p.instructions.GetOr(t.instructions)
    ensures r.passingScore == p.passingScore.GetOr(t.passingScore)
    ensures r.scheduledStart == p.scheduledStart.GetOr(t.scheduledStart)
    ensures r.scheduledEnd == p.scheduledEnd.GetOr(t.scheduledEnd)
    ensures p.status.None? ==> r.status == t.status
    ensures p.status.Some? && StatusNamed(p.status.value).Some? ==> r.status == StatusNamed(p.status.value).value
    ensures p == EmptyPatch ==> r == t
  {
    t.(title := if p.title.Some? then TrimTitle(p.title.value) else t.title,
       description := p.description.GetOr(t.description),
       questions := if p.questions.Some? then NormalizeQuestions(p.questions.value) else t.questions,
       duration := p.duration.GetOr(t.duration),
       proctoring := p.proctoring.GetOr(t.proctoring),
       instructions := p.instructions.GetOr(t.instructions),
       passingScore := p.passingScore.GetOr(t.passingScore),
       scheduledStart := p.scheduledStart.GetOr(t.scheduledStart),
       scheduledEnd := p.scheduledEnd.GetOr(t.scheduledEnd),
       status := if p.status.Some? then StatusNamed(p.status.value).GetOr(t.status) else t.status)
  }

  /** Applying a patch twice is applying it once, except for the questions,
      whose option texts are trimmed again (a no-op on trimmed text). */
  lemma ApplyPatchIdempotent(t: Test, p: TestPatch)
    requires p.questions.None?
    ensures ApplyPatch(ApplyPatch(t, p), p) == ApplyPatch(t, p)
  {
  }

  /** `updateTest`. In this order: an unknown test is 404, a caller who did
      not create it 403, and a body with questions for a test that already
      has submissions 400. Otherwise the whitelisted fields are copied and
      the test saved; a status outside the enum, or a result that fails
      validation, is 500 and changes nothing. */
  function UpdateTest(db: Db, user: Id, id: Id, p: TestPatch): (r: Result<Db>)
    ensures id >= |db.tests| <==> r == Err(404, "Test not found")
    ensures id < |db.tests| && db.tests[id].createdBy != user <==> r == Err(403, "Not authorized to update this test")
    ensures (id < |db.tests| && db.tests[id].createdBy == user && db.tests[id].totalSubmissions > 0 && p.questions.Some?)
            <==> r == Err(400, "Cannot modify questions after test has submissions")
    ensures r.Ok? <==> id < |db.tests| && db.tests[id].createdBy == user
                       && (db.tests[id].totalSubmissions == 0 || p.questions.None?)
                       && StatusParses(p) && SchemaValid(ApplyPatch(db.tests[id], p))
    ensures (id < |db.tests| && db.tests[id].createdBy == user && p.questions.None? && !StatusParses(p))
            ==> r == Err(500, "Error updating test")
    ensures r.Ok? ==> r.value == db.(tests := db.tests[id := ApplyPatch(db.tests[id], p)])
  {
    if id >= |db.tests| then Err(404, "Test not found")
    else
      var t := db.tests[id];
      if t.createdBy != user then Err(403, "Not authorized to update this test")
      else if t.totalSubmissions > 0 && p.questions.Some? then
        Err(400, "Cannot modify questions after test has submissions")
      else
        var t' := ApplyPatch(t, p);
        if !StatusParses(p) || !SchemaValid(t') then Err(500, "Error updating test")
        else Ok(db.(tests := db.tests[id := t']))
  }

  /** The whitelist includes the status, so an owner can make a test with no
      questions active, which `publishTest` would refuse. */
  lemma UpdateCanActivateEmptyTest(db: Db, user: Id, id: Id)
    requires id < |db.tests| && db.tests[id].createdBy == user && SchemaValid(db.tests[id])
    requires db.tests[id].questions == []
    ensures var p := EmptyPatch.(status := Some("active"));
            && UpdateTest(db, user, id, p).Ok?
            && UpdateTest(db, user, id, p).value.tests[id].status == Active
            && UpdateTest(db, user, id, p).value.tests[id].questions == []
  {
  }

  /** Likewise an update whose questions hold a test case without input is
      answered 500 and changes nothing. */
  lemma EmptyTestCaseRefusedOnUpdate(db: Db, user: Id, id: Id, p: TestPatch, i: nat, j: nat)
    requires id < |db.tests| && db.tests[id].createdBy == user && db.tests[id].totalSubmissions == 0
    requires p.questions.Some? && i < |p.questions.value|
    requires j < |p.questions.value[i].testCases| && p.questions.value[i].testCases[j].input == ""
    ensures UpdateTest(db, user, id, p) == Err(500, "Error updating test")
  {
    var t := ApplyPatch(db.tests[id], p);
    assert t.questions[i].testCases[j].input == "";
    assert !QuestionValid(t.questions[i]);
  }

  /** Updates keep every stored test valid and access codes unique. */
  lemma UpdateTestKeepsInvariants(db: Db, user: Id, id: Id, p: TestPatch)
    requires AllTestsValid(db) && CodesUnique(db)
    requires UpdateTest(db, user, id, p).Ok?
    ensures AllTestsValid(UpdateTest(db, user, id, p).value)
    ensures CodesUnique(UpdateTest(db, user, id, p).value)
  {
    var db' := UpdateTest(db, user, id, p).value;
    assert forall i :: 0 <= i < |db.tests| ==> db'.tests[i].accessCode == db.tests[i].accessCode;
  }

  // ---------------------------------------------------------------------------
  // deleteTest, publishTest

  /** `deleteTest`: only the creator may delete (403 otherwise, 404 for an
      unknown test), and deleting archives: the test stays stored and only
      its status changes. */
  function DeleteTest(db: Db, user: Id, id: Id): (r: Result<Db>)
    ensures id >= |db.tests| <==> r == Err(404, "Test not found")
    ensures id < |db.tests| && db.tests[id].createdBy != user <==> r == Err(403, "Not authorized to delete this test")
    ensures r.Ok? <==> id < |db.tests| && db.tests[id].createdBy == user && SchemaValid(db.tests[id])
    ensures r.Ok? ==> |r.value.tests| == |db.tests| && r.value.submissions == db.submissions
                      && r.value.tests[id] == db.tests[id].(status := Archived)
                      && forall j :: 0 <= j < |db.tests| && j != id ==> r.value.tests[j] == db.tests[j]
  {
    if id >= |db.tests| then Err(404, "Test not found")
    else
      var t := db.tests[id];
      if t.createdBy != user then Err(403, "Not authorized to delete this test")
      else if !SchemaValid(t) then Err(500, "Error deleting test")
      else Ok(db.(tests := db.tests[id := t.(status := Archived)]))
  }

  /** An archived test can no longer be taken. */
  lemma DeletedTestIsInaccessible(db: Db, user: Id, id: Id, now: int)
    requires DeleteTest(db, user, id).Ok?
    ensures !IsAccessible(DeleteTest(db, user, id).value.tests[id], now)
  {
  }

  /** `!test.accessCode`: no code, or an empty one. */
  predicate LacksCode(t: Test) {
    t.accessCode.None? || t.accessCode.value == ""
  }

  /** `publishTest`: an unknown test is 404 and one without questions 400
      (nothing changes). Otherwise the test becomes active and, if it has no
      access code yet, receives one; an existing code is kept. A generated
      code that is already taken makes the save fail (500). No check is made
      of who publishes. */
  function PublishTest(db: Db, user: Id, id: Id, picks: seq<Pick>): (r: Result<Db>)
    requires |picks| == CodeLength
    ensures id >= |db.tests| <==> r == Err(404, "Test not found")
    ensures id < |db.tests| && |db.tests[id].questions| == 0 <==> r == Err(400, "Test must have at least one question")
    ensures r.Ok? ==>
              var t := db.tests[id];
              && |r.value.tests| == |db.tests| && r.value.submissions == db.submissions
              && (forall j :: 0 <= j < |db.tests| && j != id ==> r.value.tests[j] == db.tests[j])
              && r.value.tests[id].status == Active
              && (!LacksCode(t) ==> r.value.tests[id] == t.(status := Active))
              && (LacksCode(t) ==> r.value.tests[id] == t.(status := Active, accessCode := Some(CodeFromPicks(picks))))
    ensures r.Ok? ==> IsAccessCode(r.value.tests[id].accessCode.value) || !LacksCode(db.tests[id])
    ensures r.Ok? <==> && id < |db.tests| && |db.tests[id].questions| > 0 && SchemaValid(db.tests[id])
                       && !(LacksCode(db.tests[id]) && CodeTaken(db, CodeFromPicks(picks)))
    ensures (r.Err? && id < |db.tests| && |db.tests[id].questions| > 0) ==> r == Err(500, "Error publishing test")
  {
    if id >= |db.tests| then Err(404, "Test not found")
    else
      var t := db.tests[id];
      if |t.questions| == 0 then Err(400, "Test must have at least one question")
      else
        var t' := if LacksCode(t) then t.(status := Active, accessCode := Some(CodeFromPicks(picks)))
                  else t.(status := Active);
        GeneratedCodesAreAccessCodes(picks);
        if !SchemaValid(t') then Err(500, "Error publishing test")
        else if LacksCode(t) && CodeTaken(db, CodeFromPicks(picks)) then Err(500, "Error publishing test")
        else Ok(db.(tests := db.tests[id := t']))
  }

  /** Whoever publishes, the outcome is the same. */
  lemma PublishIgnoresCaller(db: Db, u1: Id, u2: Id, id: Id, picks: seq<Pick>)
    requires |picks| == CodeLength
    ensures PublishTest(db, u1, id, picks) == PublishTest(db, u2, id, picks)
  {
  }

  /** Publishing twice keeps the code given the first time. */
  lemma PublishKeepsCode(db: Db, user: Id, id: Id, picks1: seq<Pick>, picks2: seq<Pick>)
    requires |picks1| == CodeLength && |picks2| == CodeLength
    requires PublishTest(db, user, id, picks1).Ok?
    requires PublishTest(PublishTest(db, user, id, picks1).value, user, id, picks2).Ok?
    ensures PublishTest(PublishTest(db, user, id, picks1).value, user, id, picks2).value.tests[id].accessCode
            == PublishTest(db, user, id, picks1).value.tests[id].accessCode
  {
    var db1 := PublishTest(db, user, id, picks1).value;
    GeneratedCodesAreAccessCodes(picks1);
    assert !LacksCode(db1.tests[id]);
  }

  /** Publishing keeps every stored test valid and access codes unique. */
  lemma PublishKeepsInvariants(db: Db, user: Id, id: Id, picks: seq<Pick>)
    requires |picks| == CodeLength
    requires AllTestsValid(db) && CodesUnique(db)
    requires PublishTest(db, user, id, picks).Ok?
    ensures AllTestsValid(PublishTest(db, user, id, picks).value)
    ensures CodesUnique(PublishTest(db, user, id, picks).value)
  {
    var db' := PublishTest(db, user, id, picks).value;
    var code := CodeFromPicks(picks);
    if LacksCode(db.tests[id]) {
      assert forall i :: 0 <= i < |db.tests| ==> db.tests[i].accessCode != Some(code);
    }
  }

  // ---------------------------------------------------------------------------
  // getTestAnalytics

  datatype Analytics = Analytics(
    totalSubmissions: nat,
    averageScore: real,
    upTo20: nat,
    upTo40: nat,
    upTo60: nat,
    upTo80: nat,
    above80: nat,
    averageDuration: int,
    flaggedCount: nat,
    passRate: int,
    completionRate: int)

  /** The submissions the analytics read: the test's completed and flagged ones. */
  predicate Finished(s: Submissions.Submission, test: Id) {
    s.test == test && (s.status == Submissions.Completed || s.status == Submissions.Flagged)
  }

  predicate Bucket1(s: Submissions.Submission) { s.percentage <= 20 }
  predicate Bucket2(s: Submissions.Submission) { 20 < s.percentage <= 40 }
  predicate Bucket3(s: Submissions.Submission) { 40 < s.percentage <= 60 }
  predicate Bucket4(s: Submissions.Submission) { 60 < s.percentage <= 80 }
  predicate Bucket5(s: Submissions.Submission) { s.percentage > 80 }

  predicate IsFlagged(s: Submissions.Submission) { s.status == Submissions.Flagged }
  predicate IsCompleted(s: Submissions.Submission) { s.status == Submissions.Completed }

  function DurationOf(s: Submissions.Submission): int { s.duration }

  predicate Reaches(s: Submissions.Submission, passingScore: int) {
    s.percentage >= passingScore
  }

  function FinishedOf(db: Db, test: Id): seq<Submissions.Submission> {
    Filter(db.submissions, (s: Submissions.Submission) => Finished(s, test))
  }

  /** `getTestAnalytics` for an existing test (404 otherwise; no check is made
      of who asks): the count of finished submissions, the test's running
      mean, the five score buckets, the rounded mean duration, the flagged
      count, the rounded share reaching the test's passing score and the
      rounded share completed out of the test's recorded submissions; each
      rate is 0 when its denominator is 0. */
  function GetTestAnalytics(db: Db, id: Id): (r: Result<Analytics>)
    ensures r.Ok? <==> id < |db.tests|
    ensures r.Err? ==> r == Err(404, "Test not found")
    ensures r.Ok? ==>
              var subs := FinishedOf(db, id);
              var a := r.value;
              && a.totalSubmissions == |subs|
              && a.averageScore == db.tests[id].averageScore
              && a.flaggedCount == CountIf(subs, IsFlagged)
              && (|subs| == 0 ==> a.averageDuration == 0 && a.passRate == 0)
              && (|subs| > 0 ==> 2 * |subs| * a.averageDuration <= 2 * SumBy(subs, DurationOf) + |subs|
                                                                 < 2 * |subs| * a.averageDuration + 2 * |subs|)
              && (db.tests[id].totalSubmissions == 0 ==> a.completionRate == 0)
              && (|subs| > 0 ==> a.passRate == Percent(CountIf(subs, (s: Submissions.Submission) =>
                                                        Reaches(s, db.tests[id].passingScore)), |subs|))
              && (db.tests[id].totalSubmissions > 0 ==>
                    a.completionRate == Percent(CountIf(subs, IsCompleted), db.tests[id].totalSubmissions))
              && a.upTo20 == CountIf(subs, Bucket1) && a.upTo40 == CountIf(subs, Bucket2)
              && a.upTo60 == CountIf(subs, Bucket3) && a.upTo80 == CountIf(subs, Bucket4)
              && a.above80 == CountIf(subs, Bucket5)
  {
    if id >= |db.tests| then Err(404, "Test not found")
    else
      var t := db.tests[id];
      var subs := FinishedOf(db, id);
      var n := |subs|;
      var passing := (s: Submissions.Submission) => Reaches(s, t.passingScore);
      Ok(Analytics(
        totalSubmissions := n,
        averageScore := t.averageScore,
        upTo20 := CountIf(subs, Bucket1),
        upTo40 := CountIf(subs, Bucket2),
        upTo60 := CountIf(subs, Bucket3),
        upTo80 := CountIf(subs, Bucket4),
        above80 := CountIf(subs, Bucket5),
        averageDuration := if n > 0 then RoundDiv(SumBy(subs, DurationOf), n) else 0,
        flaggedCount := CountIf(subs, IsFlagged),
        passRate := if n > 0 then Percent(CountIf(subs, passing), n) else 0,
        completionRate :=
          if t.totalSubmissions > 0 then Percent(CountIf(subs, IsCompleted), t.totalSubmissions) else 0))
  }

  /** The five buckets partition the finished submissions. */
  lemma BucketsPartition(db: Db, id: Id)
    requires id < |db.tests|
    ensures var a := GetTestAnalytics(db, id).value;
            a.upTo20 + a.upTo40 + a.upTo60 + a.upTo80 + a.above80 == a.totalSubmissions
  {
    BucketCounts(FinishedOf(db, id));
  }

  lemma {:induction false} BucketCounts(xs: seq<Submissions.Submission>)
    ensures CountIf(xs, Bucket1) + CountIf(xs, Bucket2) + CountIf(xs, Bucket3) + CountIf(xs, Bucket4)
            + CountIf(xs, Bucket5) == |xs|
  {
    if |xs| > 0 {
      BucketCounts(xs[..|xs| - 1]);
    }
  }

  /** Every finished submission is either completed or flagged. */
  lemma FlaggedAndCompletedSplit(db: Db, id: Id)
    ensures CountIf(FinishedOf(db, id), IsFlagged) + CountIf(FinishedOf(db, id), IsCompleted) == |FinishedOf(db, id)|
  {
    var subs := FinishedOf(db, id);
    FilterCount(db.submissions, (s: Submissions.Submission) => Finished(s, id));
    FinishedSplit(subs, id);
  }

  lemma {:induction false} FinishedSplit(xs: seq<Submissions.Submission>, id: Id)
    requires forall s :: s in xs ==> Finished(s, id)
    ensures CountIf(xs, IsFlagged) + CountIf(xs, IsCompleted) == |xs|
  {
    if |xs| > 0 {
      var init := xs[..|xs| - 1];
      assert forall s :: s in init ==> s in xs;
      FinishedSplit(init, id);
      assert Finished(xs[|xs| - 1], id);
    }
  }

  /** The pass rate is a percentage in [0, 100]. */
  lemma PassRateInRange(db: Db, id: Id)
    requires id < |db.tests|
    ensures 0 <= GetTestAnalytics(db, id).value.passRate <= 100
  {
    var subs := FinishedOf(db, id);
    var passing := (s: Submissions.Submission) => Reaches(s, db.tests[id].passingScore);
    CountIfAtMost(subs, passing);
    if |subs| > 0 {
      PercentInRange(CountIf(subs, passing), |subs|);
    }
  }

  /** The completion rate is a percentage in [0, 100] whenever the test's
      recorded count is at least the number of completed submissions. */
  lemma CompletionRateInRange(db: Db, id: Id)
    requires id < |db.tests|
    requires CountIf(FinishedOf(db, id), IsCompleted) <= db.tests[id].totalSubmissions
    ensures 0 <= GetTestAnalytics(db, id).value.completionRate <= 100
  {
    if db.tests[id].totalSubmissions > 0 {
      PercentInRange(CountIf(FinishedOf(db, id), IsCompleted), db.tests[id].totalSubmissions);
    }
  }

  /** For a test with the default passing score of 60, the pass rate counts
      exactly the submissions whose `passed` virtual holds. With any other
      passing score the two notions differ. */
  lemma PassRateCountsPassed(db: Db, id: Id)
    requires id < |db.tests| && db.tests[id].passingScore == DefaultPassingScore
    requires |FinishedOf(db, id)| > 0
    ensures GetTestAnalytics(db, id).value.passRate == Percent(CountIf(FinishedOf(db, id), Submissions.Passed), |FinishedOf(db, id)|)
  {
    var subs := FinishedOf(db, id);
    CountIfSame(subs, (s: Submissions.Submission) => Reaches(s, db.tests[id].passingScore), Submissions.Passed);
  }

  lemma {:induction false} CountIfSame(xs: seq<Submissions.Submission>, p: Submissions.Submission -> bool,
                                       q: Submissions.Submission -> bool)
    requires forall s :: p(s) == q(s)
    ensures CountIf(xs, p) == CountIf(xs, q)
  {
    if |xs| > 0 {
      CountIfSame(xs[..|xs| - 1], p, q);
    }
  }

  /** The mean duration lies between the shortest and longest durations. */
  lemma AverageDurationBetween(db: Db, id: Id, lo: int, hi: int)
    requires id < |db.tests| && |FinishedOf(db, id)| > 0
    requires forall s :: s in FinishedOf(db, id) ==> lo <= s.duration <= hi
    ensures lo <= GetTestAnalytics(db, id).value.averageDuration <= hi
  {
    var subs := FinishedOf(db, id);
    SumByBounds(subs, DurationOf, lo, hi);
    RoundDivBetween(SumBy(subs, DurationOf), |subs|, lo, hi);
  }
}

=== FILE: tests_model.dfy ===
/** The assessment document (frontend/server/models/Test.js): its fields and
    schema constraints, the defaults a new test receives, the derived
    `totalMaxScore`, access-code generation, the scheduling window and the
    running-mean analytics updated after every submission. */
module Tests {
  import opened Common
  import Text

  datatype Difficulty = Easy | Medium | Hard

  datatype TestCase = TestCase(input: string, expectedOutput: string, isHidden: bool, weight: int)

  datatype Question = Question(
    id: Id,
    title: string,
    description: string,
    difficulty: Difficulty,
    template: string,
    testCases: seq<TestCase>,
    maxScore: int)

  /** The six proctoring switches; each defaults to on. */
  datatype Proctoring = Proctoring(
    cameraRequired: bool,
    screenRecording: bool,
    fullscreenEnforced: bool,
    tabSwitchDetection: bool,
    copyPasteDetection: bool,
    aiSimilarityCheck: bool)

  const DefaultProctoring := Proctoring(true, true, true, true, true, true)

  /** The proctoring object a request supplies: any switch may be left out. */
  datatype ProctoringInput = ProctoringInput(
    cameraRequired: Option<bool>,
    screenRecording: Option<bool>,
    fullscreenEnforced: Option<bool>,
    tabSwitchDetection: Option<bool>,
    copyPasteDetection: Option<bool>,
    aiSimilarityCheck: Option<bool>)

  /** The empty object `{}`. */
  const NoSwitches := ProctoringInput(None, None, None, None, None, None)

  /** The schema defaults each switch separately: a switch the request leaves
      out is on, one it supplies keeps the supplied value. */
  function CompleteProctoring(p: ProctoringInput): (r: Proctoring)
    ensures p.cameraRequired.Some? ==> r.cameraRequired == p.cameraRequired.value
    ensures p.screenRecording.Some? ==> r.screenRecording == p.screenRecording.value
    ensures p.fullscreenEnforced.Some? ==> r.fullscreenEnforced == p.fullscreenEnforced.value
    ensures p.tabSwitchDetection.Some? ==> r.tabSwitchDetection == p.tabSwitchDetection.value
    ensures p.copyPasteDetection.Some? ==> r.copyPasteDetection == p.copyPasteDetection.value
    ensures p.aiSimilarityCheck.Some? ==> r.aiSimilarityCheck == p.aiSimilarityCheck.value
    ensures p.cameraRequired.None? ==> r.cameraRequired
    ensures p.screenRecording.None? ==> r.screenRecording
    ensures p.fullscreenEnforced.None? ==> r.fullscreenEnforced
    ensures p.tabSwitchDetection.None? ==> r.tabSwitchDetection
    ensures p.copyPasteDetection.None? ==> r.copyPasteDetection
    ensures p.aiSimilarityCheck.None? ==> r.aiSimilarityCheck
  {
    Proctoring(
      p.cameraRequired.GetOr(true),
      p.screenRecording.GetOr(true),
      p.fullscreenEnforced.GetOr(true),
      p.tabSwitchDetection.GetOr(true),
      p.copyPasteDetection.GetOr(true),
      p.aiSimilarityCheck.GetOr(true))
  }

  /** The request form of a complete set of switches. */
  function Supplied(p: Proctoring): ProctoringInput {
    ProctoringInput(Some(p.cameraRequired), Some(p.screenRecording), Some(p.fullscreenEnforced),
                    Some(p.tabSwitchDetection), Some(p.copyPasteDetection), Some(p.aiSimilarityCheck))
  }

  /** Supplying every switch stores exactly those switches, supplying none
      stores the defaults, and only the switches left out are forced on. */
  lemma CompleteProctoringFacts(p: ProctoringInput, q: Proctoring)
    ensures CompleteProctoring(Supplied(q)) == q
    ensures CompleteProctoring(NoSwitches) == DefaultProctoring
    ensures CompleteProctoring(p) == DefaultProctoring <==>
              && p.cameraRequired != Some(false) && p.screenRecording != Some(false)
              && p.fullscreenEnforced != Some(false) && p.tabSwitchDetection != Some(false)
              && p.copyPasteDetection != Some(false) && p.aiSimilarityCheck != Some(false)
  {
  }

  datatype TestStatus = Draft | Active | Completed | Archived

  function StatusName(s: TestStatus): string {
    match s
    case Draft => "draft"
    case Active => "active"
    case Completed => "completed"
    case Archived => "archived"
  }

  /** The status enum's check on raw request text. */
  function StatusNamed(s: string): (r: Option<TestStatus>)
    ensures forall l :: r == Some(l) <==> StatusName(l) == s
  {
    if s == "draft" then Some(Draft)
    else if s == "active" then Some(Active)
    else if s == "completed" then Some(Completed)
    else if s == "archived" then Some(Archived)
    else None
  }

  /** Instants are milliseconds since the epoch. `averageScore` is the running
      mean of the percentages recorded so far. */
  datatype Test = Test(
    title: string,
    description: string,
    questions: seq<Question>,
    duration: int,
    accessCode: Option<string>,
    isPublic: bool,
    scheduledStart: Option<int>,
    scheduledEnd: Option<int>,
    status: TestStatus,
    proctoring: Proctoring,
    passingScore: int,
    maxAttempts: int,
    createdBy: Id,
    company: string,
    instructions: string,
    totalSubmissions: nat,
    averageScore: real)

  // ---------------------------------------------------------------------------
  // Schema

  const MaxTitleLength := 200
  const MaxDescriptionLength := 2000
  const MinDuration := 5
  const MaxDuration := 480
  const DefaultPassingScore := 60
  const DefaultMaxAttempts := 1

  /** A test case's required input and expected output are present: the
      required check refuses empty text. */
  predicate TestCaseValid(c: TestCase) {
    |c.input| > 0 && |c.expectedOutput| > 0
  }

  /** A question's required fields are present (its title after trimming),
      and so are those of each of its test cases. */
  predicate QuestionValid(q: Question) {
    && |q.title| > 0 && |q.description| > 0
    && forall j :: 0 <= j < |q.testCases| ==> TestCaseValid(q.testCases[j])
  }

  /** The constraints Mongoose checks before a test is saved: required title
      and description within their maximum lengths, a duration in [5, 480]
      minutes, a company, and required fields on every question. */
  predicate SchemaValid(t: Test) {
    && 0 < |t.title| <= MaxTitleLength
    && 0 < |t.description| <= MaxDescriptionLength
    && MinDuration <= t.duration <= MaxDuration
    && |t.company| > 0
    && forall i :: 0 <= i < |t.questions| ==> QuestionValid(t.questions[i])
  }

  /** The `trim` setter on title fields. */
  function TrimTitle(s: string): string {
    Text.Trim(s, Text.IsJsSpace)
  }

  function NormalizeQuestion(q: Question): Question {
    q.(title := TrimTitle(q.title))
  }

  function NormalizeQuestions(qs: seq<Question>): (r: seq<Question>)
    ensures |r| == |qs|
    ensures forall i :: 0 <= i < |qs| ==> r[i] == NormalizeQuestion(qs[i])
  {
    seq(|qs|, i requires 0 <= i < |qs| => NormalizeQuestion(qs[i]))
  }

  /** The fields a request may supply when a test is created; None is a field
      the body leaves out. */
  datatype TestInput = TestInput(
    title: Option<string>,
    description: Option<string>,
    questions: Option<seq<Question>>,
    duration: Option<int>,
    proctoring: Option<ProctoringInput>,
    instructions: Option<string>,
    passingScore: Option<int>,
    maxAttempts: Option<int>,
    scheduledStart: Option<int>,
    scheduledEnd: Option<int>)

  /** The document `Test.create` builds from a request body before
      validation, with every schema default applied. A missing title,
      description or duration becomes a value the schema rejects (empty text,
      duration 0), so validation fails exactly when a required field is
      missing or out of range. A missing proctoring object is `{}`, whose
      switches all take their defaults. */
  function Build(input: TestInput, owner: Id, company: string): (t: Test)
    ensures t.status == Draft && t.totalSubmissions == 0 && t.averageScore == 0.0
    ensures t.accessCode.None? && !t.isPublic && t.createdBy == owner && t.company == company
    ensures input.passingScore.None? ==> t.passingScore == DefaultPassingScore
    ensures input.maxAttempts.None? ==> t.maxAttempts == DefaultMaxAttempts
    ensures input.proctoring.None? ==> t.proctoring == DefaultProctoring
    ensures input.proctoring.Some? ==> t.proctoring == CompleteProctoring(input.proctoring.value)
    ensures input.questions.None? ==> t.questions == []
    ensures input.duration.Some? ==> t.duration == input.duration.value
    ensures input.title.None? || input.description.None? || input.duration.None? ==> !SchemaValid(t)
  {
    Test(
      title := TrimTitle(input.title.GetOr("")),
      description := input.description.GetOr(""),
      questions := NormalizeQuestions(input.questions.GetOr([])),
      duration := input.duration.GetOr(0),
      accessCode := None,
      isPublic := false,
      scheduledStart := input.scheduledStart,
      scheduledEnd := input.scheduledEnd,
      status := Draft,
      proctoring := CompleteProctoring(input.proctoring.GetOr(NoSwitches)),
      passingScore := input.passingScore.GetOr(DefaultPassingScore),
      maxAttempts := input.maxAttempts.GetOr(DefaultMaxAttempts),
      createdBy := owner,
      company := company,
      instructions := input.instructions.GetOr(""),
      totalSubmissions := 0,
      averageScore := 0.0)
  }

  // ---------------------------------------------------------------------------
  // Virtuals

  function MaxScoreOf(q: Question): int {
    q.maxScore
  }

  /** The `totalMaxScore` virtual: the questions' maximum scores added up. */
  function TotalMaxScore(t: Test): int {
    SumBy(t.questions, MaxScoreOf)
  }

  /** With non-negative question scores the total is non-negative and bounds
      every single question's maximum. */
  lemma TotalMaxScoreBounds(t: Test)
    requires forall i :: 0 <= i < |t.questions| ==> t.questions[i].maxScore >= 0
    ensures TotalMaxScore(t) >= 0
    ensures forall i :: 0 <= i < |t.questions| ==> t.questions[i].maxScore <= TotalMaxScore(t)
  {
    NonNegativeSum(t.questions);
    forall i | 0 <= i < |t.questions|
      ensures t.questions[i].maxScore <= TotalMaxScore(t)
    {
      var qs := t.questions;
      assert qs == qs[..i] + [qs[i]] + qs[i + 1..];
      SumByAppend(qs[..i] + [qs[i]], qs[i + 1..], MaxScoreOf);
      SumByAppend(qs[..i], [qs[i]], MaxScoreOf);
      assert [qs[i]][..0] == [];
      NonNegativeSum(qs[..i]);
      NonNegativeSum(qs[i + 1..]);
    }
  }

  lemma {:induction false} NonNegativeSum(qs: seq<Question>)
    requires forall i :: 0 <= i < |qs| ==> qs[i].maxScore >= 0
    ensures SumBy(qs, MaxScoreOf) >= 0
  {
    if |qs| > 0 {
      var init := qs[..|qs| - 1];
      assert forall i :: 0 <= i < |init| ==> init[i] == qs[i];
      NonNegativeSum(init);
    }
  }

  // ---------------------------------------------------------------------------
  // Access codes

  const CodeAlphabet := "ABCDEFGHIJKLMNOPQRSTUVWXYZ0123456789"
  const CodeLength := 8

  /** One draw of `Math.floor(Math.random() * chars.length)`. */
  type Pick = i: int | 0 <= i < 36

  predicate IsCodeChar(c: char) {
    ('A' <= c <= 'Z') || ('0' <= c <= '9')
  }

  /** An access code: exactly eight characters from [A-Z0-9]. */
  predicate IsAccessCode(s: string) {
    |s| == CodeLength && forall i :: 0 <= i < |s| ==> IsCodeChar(s[i])
  }

  /** The alphabet is exactly the characters [A-Z0-9], each once. */
  lemma CodeAlphabetIsCodeChars()
    ensures |CodeAlphabet| == 36
    ensures forall i :: 0 <= i < 36 ==> IsCodeChar(CodeAlphabet[i])
    ensures forall c :: IsCodeChar(c) ==> c in CodeAlphabet
  {
    forall c | IsCodeChar(c)
      ensures c in CodeAlphabet
    {
      if 'A' <= c <= 'Z' {
        assert CodeAlphabet[c as int - 'A' as int] == c;
      } else {
        assert CodeAlphabet[26 + c as int - '0' as int] == c;
      }
    }
  }

  /** The code that eight draws select. */
  function CodeFromPicks(picks: seq<Pick>): string
    requires |picks| == CodeLength
  {
    seq(CodeLength, i requires 0 <= i < CodeLength => CodeAlphabet[picks[i]])
  }

  /** `generateAccessCode`: appends one alphabet character per draw, stores the
      code on the test and returns it; nothing else on the test changes. */
  method GenerateAccessCode(t: Test, picks: seq<Pick>) returns (code: string, t': Test)
    requires |picks| == CodeLength
    ensures IsAccessCode(code)
    ensures code == CodeFromPicks(picks)
    ensures t' == t.(accessCode := Some(code))
  {
    code := "";
    var i := 0;
    while i < CodeLength
      invariant 0 <= i <= CodeLength
      invariant |code| == i
      invariant forall k :: 0 <= k < i ==> code[k] == CodeAlphabet[picks[k]]
    {
      code := code + [CodeAlphabet[picks[i]]];
      i := i + 1;
    }
    assert code == CodeFromPicks(picks);
    GeneratedCodesAreAccessCodes(picks);
    t' := t.(accessCode := Some(code));
  }

  /** Every access code can come out of the generator: the draws are the
      positions of its characters in the alphabet. */
  lemma EveryAccessCodeIsGenerated(s: string)
    requires IsAccessCode(s)
    ensures exists picks: seq<Pick> :: |picks| == CodeLength && CodeFromPicks(picks) == s
  {
    CodeAlphabetIsCodeChars();
    var picks: seq<Pick> := seq(CodeLength, i requires 0 <= i < CodeLength => IndexInAlphabet(s[i]));
    assert CodeFromPicks(picks) == s;
  }

  function IndexInAlphabet(c: char): (p: Pick)
    requires IsCodeChar(c)
    ensures CodeAlphabet[p] == c
  {
    if 'A' <= c <= 'Z' then c as int - 'A' as int else 26 + c as int - '0' as int
  }

  /** Every code the generator produces has the access-code shape. */
  lemma GeneratedCodesAreAccessCodes(picks: seq<Pick>)
    requires |picks| == CodeLength
    ensures IsAccessCode(CodeFromPicks(picks))
  {
    CodeAlphabetIsCodeChars();
  }

  // ---------------------------------------------------------------------------
  // Scheduling

  /** `isAccessible()` evaluated at instant `now`: in the source's order, a
      test that is not active is refused, then one whose start lies in the
      future, then one whose end lies in the past. */
  function IsAccessible(t: Test, now: int): (r: bool)
    ensures r <==> t.status == Active
                   && (t.scheduledStart.None? || now >= t.scheduledStart.value)
                   && (t.scheduledEnd.None? || now <= t.scheduledEnd.value)
  {
    if t.status != Active then false
    else if t.scheduledStart.Some? && now < t.scheduledStart.value then false
    else if t.scheduledEnd.Some? && now > t.scheduledEnd.value then false
    else true
  }

  /** The instants at which a test is accessible form one interval: between
      two accessible instants every instant is accessible. */
  lemma AccessibleWindowIsInterval(t: Test, a: int, b: int, c: int)
    requires a <= b <= c
    requires IsAccessible(t, a) && IsAccessible(t, c)
    ensures IsAccessible(t, b)
  {
  }

  /** Only an active test is ever accessible. */
  lemma OnlyActiveTestsAreAccessible(t: Test, now: int)
    requires t.status != Active
    ensures !IsAccessible(t, now)
  {
  }

  // ---------------------------------------------------------------------------
  // Analytics

  /** `updateAnalytics(score)`: one more submission, and the running mean
      moves so that mean times count grows by exactly the new score. Nothing
      else on the test changes. */
  function UpdateAnalytics(t: Test, score: int): (r: Test)
    ensures r.totalSubmissions == t.totalSubmissions + 1
    ensures r.averageScore * (r.totalSubmissions as real)
            == t.averageScore * (t.totalSubmissions as real) + score as real
    ensures r.(totalSubmissions := t.totalSubmissions, averageScore := t.averageScore) == t
  {
    var total := t.averageScore * (t.totalSubmissions as real) + score as real;
    var n := t.totalSubmissions + 1;
    t.(totalSubmissions := n, averageScore := total / (n as real))
  }

  /** Records a sequence of percentages one after another. */
  function RecordAll(t: Test, scores: seq<int>): Test
  {
    if |scores| == 0 then t else UpdateAnalytics(RecordAll(t, scores[..|scores| - 1]), scores[|scores| - 1])
  }

  function Self(x: int): int {
    x
  }

  /** After recording any scores, mean times count equals the starting
      product plus the sum of the recorded scores: the running mean never
      drifts from the true mean. */
  lemma {:induction false} RunningMeanTracksSum(t: Test, scores: seq<int>)
    ensures RecordAll(t, scores).totalSubmissions == t.totalSubmissions + |scores|
    ensures RecordAll(t, scores).averageScore * (RecordAll(t, scores).totalSubmissions as real)
            == t.averageScore * (t.totalSubmissions as real) + SumBy(scores, Self) as real
  {
    if |scores| > 0 {
      RunningMeanTracksSum(t, scores[..|scores| - 1]);
    }
  }

  /** From a fresh test, the average score is exactly the mean of the
      recorded percentages. */
  lemma FreshAverageIsMean(t: Test, scores: seq<int>)
    requires t.totalSubmissions == 0
    requires |scores| > 0
    ensures RecordAll(t, scores).averageScore == (SumBy(scores, Self) as real) / (|scores| as real)
  {
    var a := RecordAll(t, scores).averageScore;
    var s := SumBy(scores, Self) as real;
    assert a * (|scores| as real) == s by {
      RunningMeanTracksSum(t, scores);
      ZeroTimes(t.averageScore, t.totalSubmissions as real);
    }
    DivideBack(a, |scores| as real, s);
  }

  lemma ZeroTimes(x: real, z: real)
    requires z == 0.0
    ensures x * z == 0.0
  {
  }

  lemma DivideBack(x: real, n: real, s: real)
    requires n > 0.0 && x * n == s
    ensures x == s / n
  {
  }
}

=== FILE: text.dfy ===
/** Character and string operations the system relies on: the two notions of
    white space (JavaScript's `\s`/`trim` and Python's `str.strip`), ASCII
    lower-casing, substring search, the e-mail regular expressions and the
    `split(' ')[1]` used on an Authorization header. */
module Text {

  import opened Common

  /** White space as JavaScript's `\s` and `String.prototype.trim` see it. */
  predicate IsJsSpace(c: char) {
    c == ' ' || c == '\t' || c == '\n' || c == '\r' || c == '\U{B}' || c == '\U{C}'
    || c == '\U{A0}' || c == '\U{1680}' || ('\U{2000}' <= c <= '\U{200A}')
    || c == '\U{2028}' || c == '\U{2029}' || c == '\U{202F}' || c == '\U{205F}'
    || c == '\U{3000}' || c == '\U{FEFF}'
  }

  /** White space as Python's `str.strip()` (no argument) sees it. */
  predicate IsPySpace(c: char) {
    c == ' ' || ('\t' <= c <= '\r') || ('\U{1C}' <= c <= '\U{1F}')
    || c == '\U{85}' || c == '\U{A0}' || c == '\U{1680}' || ('\U{2000}' <= c <= '\U{200A}')
    || c == '\U{2028}' || c == '\U{2029}' || c == '\U{202F}' || c == '\U{205F}'
    || c == '\U{3000}'
  }

  // ---------------------------------------------------------------------------
  // Trimming

  function TrimStart(s: string, space: char -> bool): string
  {
    if |s| > 0 && space(s[0]) then TrimStart(s[1..], space) else s
  }

  function TrimEnd(s: string, space: char -> bool): string
  {
    if |s| > 0 && space(s[|s| - 1]) then TrimEnd(s[..|s| - 1], space) else s
  }

  /** Removes white space (as `space` classifies it) from both ends. */
  function Trim(s: string, space: char -> bool): string
  {
    TrimEnd(TrimStart(s, space), space)
  }

  /** The result of trimming neither starts nor ends with white space. */
  predicate Trimmed(s: string, space: char -> bool) {
    |s| == 0 || (!space(s[0]) && !space(s[|s| - 1]))
  }

  /** `t` is a contiguous piece of `s`. */
  predicate IsSlice(t: string, s: string) {
    exists i, j :: 0 <= i <= j <= |s| && t == s[i..j]
  }

  lemma {:induction false} TrimStartFacts(s: string, space: char -> bool)
    ensures |TrimStart(s, space)| > 0 ==> !space(TrimStart(s, space)[0])
    ensures exists i :: 0 <= i <= |s| && TrimStart(s, space) == s[i..]
    ensures (|s| == 0 || !space(s[0])) ==> TrimStart(s, space) == s
    decreases |s|
  {
    if |s| > 0 && space(s[0]) {
      TrimStartFacts(s[1..], space);
      var i :| 0 <= i <= |s[1..]| && TrimStart(s[1..], space) == s[1..][i..];
      assert s[1..][i..] == s[i + 1..];
    } else {
      assert s == s[0..];
    }
  }

  lemma {:induction false} TrimEndFacts(s: string, space: char -> bool)
    ensures |TrimEnd(s, space)| > 0 ==> !space(TrimEnd(s, space)[|TrimEnd(s, space)| - 1])
    ensures exists j :: 0 <= j <= |s| && TrimEnd(s, space) == s[..j]
    ensures (|s| == 0 || !space(s[|s| - 1])) ==> TrimEnd(s, space) == s
    ensures |TrimEnd(s, space)| > 0 && |s| > 0 && !space(s[0]) ==> !space(TrimEnd(s, space)[0])
    decreases |s|
  {
    if |s| > 0 && space(s[|s| - 1]) {
      TrimEndFacts(s[..|s| - 1], space);
      var j :| 0 <= j <= |s[..|s| - 1]| && TrimEnd(s[..|s| - 1], space) == s[..|s| - 1][..j];
      assert s[..|s| - 1][..j] == s[..j];
    } else {
      assert s == s[..|s|];
    }
  }

  /** Trimming leaves no white space at either end, keeps a contiguous piece
      of the input, and changes nothing that is already trimmed. */
  lemma TrimFacts(s: string, space: char -> bool)
    ensures Trimmed(Trim(s, space), space)
    ensures IsSlice(Trim(s, space), s)
    ensures Trimmed(s, space) ==> Trim(s, space) == s
  {
    var a := TrimStart(s, space);
    TrimStartFacts(s, space);
    TrimEndFacts(a, space);
    var i :| 0 <= i <= |s| && a == s[i..];
    var j :| 0 <= j <= |a| && TrimEnd(a, space) == a[..j];
    var r := Trim(s, space);
    assert r == s[i..i + j];
    assert IsSlice(r, s) by {
      assert 0 <= i <= i + j <= |s| && r == s[i..i + j];
    }
    if |r| > 0 {
      assert !space(r[|r| - 1]);
      assert |a| > 0 && !space(a[0]);
      assert !space(r[0]);
    }
  }

  /** Trimming twice is trimming once. */
  lemma TrimIdempotent(s: string, space: char -> bool)
    ensures Trim(Trim(s, space), space) == Trim(s, space)
  {
    TrimFacts(s, space);
    TrimFacts(Trim(s, space), space);
  }

  // ---------------------------------------------------------------------------
  // Case and search

  /** `toLowerCase` restricted to ASCII letters. */
  function LowerChar(c: char): char {
    if 'A' <= c <= 'Z' then (c as int + 32) as char else c
  }

  function Lower(s: string): (r: string)
    ensures |r| == |s|
    ensures forall i :: 0 <= i < |s| ==> r[i] == LowerChar(s[i])
  {
    seq(|s|, i requires 0 <= i < |s| => LowerChar(s[i]))
  }

  /** Lower-casing twice is lower-casing once. */
  lemma LowerIdempotent(s: string)
    ensures Lower(Lower(s)) == Lower(s)
  {
  }

  /** `sub` occurs in `s` starting at index `i`. */
  predicate OccursAt(s: string, sub: string, i: int) {
    0 <= i && i + |sub| <= |s| && s[i..i + |sub|] == sub
  }

  /** `s.includes(sub)`. */
  predicate Contains(s: string, sub: string) {
    exists i :: 0 <= i <= |s| && OccursAt(s, sub, i)
  }

  lemma ContainsEmpty(s: string)
    ensures Contains(s, "")
  {
    assert OccursAt(s, "", 0);
  }

  /** `s.startsWith(prefix)`. */
  predicate StartsWith(s: string, prefix: string) {
    |prefix| <= |s| && s[..|prefix|] == prefix
  }

  // ---------------------------------------------------------------------------
  // E-mail patterns

  /** No character of `s[lo..hi]` is white space. */
  predicate NoSpaceIn(s: string, lo: int, hi: int)
    requires 0 <= lo <= hi <= |s|
  {
    forall k :: lo <= k < hi ==> !IsJsSpace(s[k])
  }

  /** `/\S+@\S+\.\S+/.test(s)`: somewhere in `s` an '@' with a non-space
      character before it, then a '.' after at least one more character, and a
      non-space character after the '.', with no white space anywhere in that
      stretch ('@' and '.' are themselves non-space). */
  predicate MatchesEmailPattern(s: string) {
    exists i, j :: 0 < i && i + 1 < j && j + 1 < |s| && s[i] == '@' && s[j] == '.'
                   && NoSpaceIn(s, i - 1, j + 2)
  }

  /** `/^\S+@\S+\.\S+$/.test(s)`: the same shape, anchored, so the whole string
      is free of white space. */
  predicate MatchesAnchoredEmailPattern(s: string) {
    NoSpaceIn(s, 0, |s|)
    && exists i, j :: 0 < i && i + 1 < j && j + 1 < |s| && s[i] == '@' && s[j] == '.'
  }

  /** The anchored pattern is the stricter one. */
  lemma AnchoredImpliesUnanchored(s: string)
    requires MatchesAnchoredEmailPattern(s)
    ensures MatchesEmailPattern(s)
  {
    var i, j :| 0 < i && i + 1 < j && j + 1 < |s| && s[i] == '@' && s[j] == '.';
    assert NoSpaceIn(s, i - 1, j + 2);
  }

  /** The unanchored test accepts surrounding text the anchored one refuses. */
  lemma UnanchoredAcceptsSpaces()
    ensures MatchesEmailPattern("x a@b.c") && !MatchesAnchoredEmailPattern("x a@b.c")
  {
    var s := "x a@b.c";
    assert s[3] == '@' && s[5] == '.';
    assert NoSpaceIn(s, 2, 7);
    assert IsJsSpace(s[1]);
  }

  // ---------------------------------------------------------------------------
  // Splitting

  function IndexOf(s: string, c: char): (r: Option<nat>)
    ensures r.Some? ==> r.value < |s| && s[r.value] == c && c !in s[..r.value]
    ensures r.None? ==> c !in s
  {
    if |s| == 0 then None
    else if s[0] == c then Some(0)
    else
      var k := IndexOf(s[1..], c);
      if k.None? then None else Some(k.value + 1)
  }

  /** `s.split(' ')[1]`: the text between the first and the second space, or
      up to the end when there is no second space; `undefined` (None) when
      `s` has no space at all. */
  function SecondField(s: string): (r: Option<string>)
    ensures r.None? <==> ' ' !in s
    ensures r.Some? ==> ' ' !in r.value
  {
    var first := IndexOf(s, ' ');
    if first.None? then None
    else
      var rest := s[first.value + 1..];
      var second := IndexOf(rest, ' ');
      if second.None? then Some(rest) else Some(rest[..second.value])
  }

  /** Splitting a word, one space and a space-free token gives the token back. */
  lemma SecondFieldOfPair(word: string, token: string)
    requires ' ' !in word && ' ' !in token
    ensures SecondField(word + " " + token) == Some(token)
  {
    var s := word + " " + token;
    assert s[..|word|] == word;
    assert s[|word| + 1..] == token;
  }
}

=== FILE: users_model.dfy ===
/** The account document (frontend/server/models/User.js): its fields and
    validation, the setters that normalise name and e-mail, the pre-save hook
    that hashes a modified password, password comparison and the redacted
    JSON form. Hashing is symbolic: a digest records what it was computed
    from, so two passwords match exactly when they are equal. */
module Users {
  import opened Common
  import Text

  /** A stored password: the plain text set on the document, or a digest of
      an earlier value. */
  datatype Secret = Plain(text: string) | Digest(of: Secret)

  /** `bcrypt.compare(candidate, stored)`: true exactly when the stored value
      is the digest of the candidate. */
  predicate Compare(candidate: string, stored: Secret) {
    stored == Digest(Plain(candidate))
  }

  /** Length of the stored string: a bcrypt digest is 60 characters. */
  function SecretLength(s: Secret): nat {
    match s
    case Plain(t) => |t|
    case Digest(_) => 60
  }

  datatype User = User(
    name: string,
    email: string,
    password: Secret,
    passwordModified: bool,
    role: Role,
    company: Option<string>,
    jobTitle: Option<string>,
    avatar: Option<string>,
    phone: Option<string>,
    isActive: bool,
    isEmailVerified: bool,
    emailVerificationToken: Option<string>,
    passwordResetToken: Option<string>,
    passwordResetExpires: Option<int>,
    lastLogin: Option<int>)

  const MaxNameLength := 100
  const MinPasswordLength := 8

  /** The `trim` setter on the name. */
  function NormalizeName(s: string): string {
    Text.Trim(s, Text.IsJsSpace)
  }

  /** The `lowercase` and `trim` setters on the e-mail address. */
  function NormalizeEmail(s: string): string {
    Text.Trim(Text.Lower(s), Text.IsJsSpace)
  }

  /** A required string field is present and not empty. */
  predicate Present(s: Option<string>) {
    s.Some? && s.value != ""
  }

  /** The schema's checks: a name of 1 to 100 characters, an e-mail address
      matching `^\S+@\S+\.\S+$`, a password of at least 8 characters, and a
      company and a job title exactly when the role is recruiter. */
  predicate SchemaValid(u: User) {
    && 0 < |u.name| <= MaxNameLength
    && Text.MatchesAnchoredEmailPattern(u.email)
    && SecretLength(u.password) >= MinPasswordLength
    && (u.role == Recruiter ==> Present(u.company) && Present(u.jobTitle))
  }

  /** The pre-save hook: a modified password is replaced by its digest; an
      unmodified one is left alone, so saving never hashes twice. */
  function Rehash(u: User): (r: User)
    ensures !r.passwordModified
    ensures u.passwordModified ==> r.password == Digest(u.password)
    ensures !u.passwordModified ==> r == u
    ensures r.(password := u.password, passwordModified := u.passwordModified) == u
  {
    if u.passwordModified then u.(password := Digest(u.password), passwordModified := false) else u
  }

  /** `save()`: validation first (unless switched off), then the hook. A
      document that fails validation is not saved. */
  function Save(u: User, validate: bool): (r: Option<User>)
    ensures r.None? <==> validate && !SchemaValid(u)
    ensures r.Some? ==> r.value == Rehash(u)
  {
    if validate && !SchemaValid(u) then None else Some(Rehash(u))
  }

  /** Saving a saved document again changes nothing: a password that
      matched keeps matching. */
  lemma SaveIsStable(u: User, validate: bool, p: string)
    requires Save(u, validate).Some?
    ensures Rehash(Save(u, validate).value) == Save(u, validate).value
    ensures Compare(p, Save(u, validate).value.password) ==> Compare(p, Rehash(Save(u, validate).value).password)
  {
  }

  /** Setting a plain password and saving makes exactly that password match. */
  lemma SetPasswordThenCompare(u: User, p: string, q: string)
    ensures Compare(q, Rehash(u.(password := Plain(p), passwordModified := true)).password) <==> q == p
  {
  }

  /** Hashing the digest again would lose the password: the hook is what
      keeps an unmodified password comparable. */
  lemma DoubleHashBreaksCompare(p: string)
    ensures Compare(p, Digest(Plain(p)))
    ensures !Compare(p, Digest(Digest(Plain(p))))
  {
  }

  // ---------------------------------------------------------------------------
  // JSON form

  datatype FieldValue =
    | TextValue(text: string)
    | FlagValue(flag: bool)
    | TimeValue(time: int)
    | RoleValue(role: Role)
    | SecretValue(secret: Secret)

  function WithOptional(m: map<string, FieldValue>, key: string, v: Option<string>): (r: map<string, FieldValue>)
    ensures r.Keys == if v.Some? then m.Keys + {key} else m.Keys
    ensures forall k :: k in m && k != key ==> r[k] == m[k]
  {
    if v.Some? then m[key := TextValue(v.value)] else m
  }

  function WithTime(m: map<string, FieldValue>, key: string, v: Option<int>): (r: map<string, FieldValue>)
    ensures r.Keys == if v.Some? then m.Keys + {key} else m.Keys
    ensures forall k :: k in m && k != key ==> r[k] == m[k]
  {
    if v.Some? then m[key := TimeValue(v.value)] else m
  }

  /** The names of the fields that are never sent to a client. */
  const Redacted: set<string> := {"password", "emailVerificationToken", "passwordResetToken"}

  /** The names of all other fields. */
  const ProfileKeys: set<string> := {
    "name", "email", "role", "isActive", "isEmailVerified", "company", "jobTitle",
    "avatar", "phone", "passwordResetExpires", "lastLogin"}

  /** The set fields other than the password and the two tokens. */
  function ProfileFields(u: User): (m: map<string, FieldValue>)
    ensures m.Keys <= ProfileKeys
    ensures "name" in m && "email" in m && "role" in m
  {
    var base := map[
      "name" := TextValue(u.name),
      "email" := TextValue(u.email),
      "role" := RoleValue(u.role),
      "isActive" := FlagValue(u.isActive),
      "isEmailVerified" := FlagValue(u.isEmailVerified)];
    WithTime(WithTime(
      WithOptional(WithOptional(WithOptional(WithOptional(base, "company", u.company), "jobTitle", u.jobTitle),
                                "avatar", u.avatar), "phone", u.phone),
      "passwordResetExpires", u.passwordResetExpires), "lastLogin", u.lastLogin)
  }

  /** The password and whichever of the two tokens are set. */
  function SensitiveFields(u: User): (m: map<string, FieldValue>)
    ensures m.Keys <= Redacted
    ensures "password" in m && m["password"] == SecretValue(u.password)
    ensures u.passwordResetToken.Some? ==> "passwordResetToken" in m
    ensures u.emailVerificationToken.Some? ==> "emailVerificationToken" in m
  {
    var m := map["password" := SecretValue(u.password)];
    WithOptional(WithOptional(m, "emailVerificationToken", u.emailVerificationToken),
                 "passwordResetToken", u.passwordResetToken)
  }

  /** `toObject()`: every field that is set, by name. */
  function ToObject(u: User): map<string, FieldValue> {
    ProfileFields(u) + SensitiveFields(u)
  }

  /** `toJSON()`: the object form without the password and the two tokens;
      every other field is kept with its value. */
  function ToJson(u: User): (m: map<string, FieldValue>)
    ensures forall k :: k in m <==> k in ToObject(u) && k !in Redacted
    ensures forall k :: k in m ==> m[k] == ToObject(u)[k]
    ensures "password" !in m && "emailVerificationToken" !in m && "passwordResetToken" !in m
  {
    ToObject(u) - Redacted
  }

  /** The object form does carry the password; the JSON form is exactly the
      profile fields, so neither the password nor a token is ever sent. */
  lemma ToJsonIsProfile(u: User)
    ensures ToObject(u)["password"] == SecretValue(u.password)
    ensures ToJson(u) == ProfileFields(u)
  {
    ProfileKeysNotRedacted();
    UnionMinusCovered(ProfileFields(u), SensitiveFields(u), Redacted);
  }

  lemma ProfileKeysNotRedacted()
    ensures ProfileKeys !! Redacted
  {
  }

  /** Adding entries under removed keys and removing them again gives back
      the original map. */
  lemma UnionMinusCovered(p: map<string, FieldValue>, s: map<string, FieldValue>, keys: set<string>)
    requires p.Keys !! keys && s.Keys <= keys
    ensures (p + s) - keys == p
  {
    var q := (p + s) - keys;
    assert q.Keys == p.Keys;
    forall k | k in q ensures q[k] == p[k] {
      assert k !in s;
    }
  }

  // ---------------------------------------------------------------------------
  // Lookup

  /** `User.findOne({ email })`: the query value passes through the same
      setters as the stored field, so case and surrounding white space do not
      matter. */
  function FindByEmail(users: seq<User>, email: string): (r: Option<Id>)
    ensures r.Some? ==> r.value < |users| && users[r.value].email == NormalizeEmail(email)
    ensures r.None? ==> forall i :: 0 <= i < |users| ==> users[i].email != NormalizeEmail(email)
  {
    FindFirst(users, (u: User) => u.email == NormalizeEmail(email))
  }

  /** Normalising an address twice is normalising it once. */
  lemma NormalizeEmailIdempotent(s: string)
    ensures NormalizeEmail(NormalizeEmail(s)) == NormalizeEmail(s)
  {
    var t := NormalizeEmail(s);
    Text.TrimFacts(Text.Lower(s), Text.IsJsSpace);
    Text.LowerIdempotent(s);
    LowerOfSliceOfLower(Text.Lower(s), t);
    Text.TrimIdempotent(Text.Lower(s), Text.IsJsSpace);
  }

  /** A slice of a lower-cased string is already lower-case. */
  lemma LowerOfSliceOfLower(l: string, t: string)
    requires Text.Lower(l) == l
    requires Text.IsSlice(t, l)
    ensures Text.Lower(t) == t
  {
    var i, j :| 0 <= i <= j <= |l| && t == l[i..j];
    forall k | 0 <= k < |t|
      ensures Text.LowerChar(t[k]) == t[k]
    {
      assert t[k] == l[i + k];
      assert Text.Lower(l)[i + k] == Text.LowerChar(l[i + k]);
    }
  }
}
